=== FILE: README.md ===
# SeeHere video backend — a Dafny model

This project models the core of the SeeHere backend. It is an Express/Prisma
service that keeps a catalogue of videos whose files live in MEGA cloud
storage. The model covers:

- the MEGA service wrapper: connection, listing, lookup, upload, delete,
  link, storage quota and health;
- the public-folder scanner;
- the MEGA import routes and the admin routes;
- the user, video, collection, upload, authentication and analytics routes;
- the authentication middleware;
- the role-repair batches.

Each source file is one Dafny module. Shared modules:

- `Common`: `Option` and `Result`.
- `Strings`: JavaScript's `split`, `trim` and `includes` on `seq<char>`,
  with ASCII lower-casing standing in for `toLowerCase`.
- `Accounts`: the user row and lookups by id and e-mail.
- `Catalog`: the video row, tag normalisation, the imported/not-imported
  partition.
- `Paging`: the newest-first order of `orderBy: { createdAt: 'desc' }`,
  `skip`/`take`, and `Math.ceil(total / limit)`.

The database is modelled as immutable sequences, maps and sets. Each route is
a pure function from the state and the request to the new state and the
reply. Everything outside the process becomes an outcome passed in as a
parameter: the MEGA SDK's answers, bcrypt, JWT signing and verification,
`Date.now()`, `Math.random()` and `fs`. The hard-coded MEGA credentials and
folder key are not reproduced: the service takes its credentials as data, and
the scanner takes a `ScannerConfig`.

## Model

| member | source | states |
|---|---|---|
| Strings.Split | src/routes/admin.js:163 | `split` always yields at least one piece, no piece holds the separator, and joining the pieces gives back the string |
| Strings.SplitJoin | src/routes/videos.js:25 | splitting a join of separator-free pieces gives back exactly those pieces |
| Strings.Trim | src/routes/admin.js:163 | `trim` returns an infix of the input with no JavaScript whitespace at either end |
| Strings.TrimAround | src/routes/admin.js:163 | trimming whitespace + core + whitespace gives exactly the core |
| Strings.TrimIdempotent | src/routes/megaRoutes.js:110 | trimming twice is trimming once |
| Strings.ToLower | src/routes/users.js:213 | lower-casing keeps the length, maps each ASCII capital to its small letter and keeps every other character |
| Strings.Includes | src/routes/admin.js:77 | `includes` holds exactly when the needle occurs at some index |
| Strings.NatToString | src/routes/upload.js:24 | a decimal rendering is non-empty and all digits, and starts with `0` only for zero |
| Strings.NatToStringRoundTrip | src/routes/upload.js:24 | reading the digits of a rendering back gives the number |
| Strings.NatToStringInjective | src/routes/upload.js:24 | different numbers get different renderings |
| Accounts.FindById | src/middleware/auth.js:16-26 | the index found carries the id; when none is found, no row carries it |
| Accounts.FindByEmail | src/routes/auth.js:19-22 | the index found carries the e-mail; when none is found, no row carries it |
| Accounts.KeysFindSameRow | src/routes/auth.js:19-22 | in a table with unique ids and e-mails, looking a user up by its id and by its e-mail both find that user's row |
| Accounts.AppendKeepsWellFormed | src/routes/users.js:212-227 | appending a row whose id and e-mail are both unused keeps ids and e-mails unique |
| Accounts.LocalPart | src/routes/auth.js:30 | `email.split('@')[0]` is an `@`-free prefix of the address |
| Accounts.LocalPartOf | src/routes/users.js:229 | the default display name of `local@domain` is `local` |
| MegaScanner.UpToHash | src/services/megaScanner.js:58-62 | the file id read from a link is the text after the marker, cut at the first `#` |
| MegaScanner.ExtractFileId | src/services/megaScanner.js:58-62 | a link without `/file/` gives no id; otherwise the id is `#`-free |
| MegaScanner.ExtractFileIdOfLink | src/services/megaScanner.js:58-62 | the id of `…/file/<id>#<key>` is `<id>` |
| MegaScanner.IsVideoNameIgnoresCase | src/services/megaScanner.js:28-29 | the extension test does not depend on letter case |
| MegaScanner.VideoNameByExtension | src/services/megaScanner.js:28-29 | a name is a video exactly when it ends in `.` and a listed extension, ignoring case |
| MegaScanner.UpperCaseExtensionAccepted | src/services/megaScanner.js:28-29 | `movie.MP4` is a video |
| MegaScanner.OtherExtensionRejected | src/services/megaScanner.js:28-29 | `report.pdf` is not a video |
| MegaScanner.BareExtensionRejected | src/services/megaScanner.js:28-29 | a name without a dot, like `mp4`, is not a video |
| MegaScanner.UnitIndex | src/services/megaScanner.js:66 | the unit index of a positive count is the i with 1024^i <= bytes < 1024^(i+1) |
| MegaScanner.FormatBytes | src/services/megaScanner.js:64-69 | zero is `0 Bytes`; any other count gets the unit index i with 1024^i <= bytes < 1024^(i+1) |
| MegaScanner.UnitLabelAsWritten | src/services/megaScanner.js:66-68 | `sizes[i]` is undefined exactly from index 5 on |
| MegaScanner.UnitLabelAsWrittenOverflows | src/services/megaScanner.js:66-68 | two pebibytes get no unit label |
| MegaScanner.UnitLabel | src/services/megaService.js:294-298 | the corrected label is always a listed unit, and TB from index 5 on |
| MegaScanner.UnitLabelAlwaysDefined | src/services/megaService.js:294-298 | below 1024^5 the corrected label agrees with the label as written |
| MegaScanner.OneMebibyteIsMB | src/services/megaScanner.js:64-69 | 1048576 bytes are shown in MB |
| MegaScanner.ResolveFolderUrl | src/services/megaScanner.js:16-18 | the built-in folder URL gets `#` and the configured key appended; any other URL is used as given |
| MegaScanner.ResolveFolderUrlIdempotent | src/services/megaScanner.js:16-18 | resolving a resolved URL changes nothing |
| MegaScanner.VideoNodes | src/services/megaScanner.js:33-35 | there are no more kept children than children, and each has a non-empty name that passes the video test |
| MegaScanner.VideoNodesMembers | src/services/megaScanner.js:33-35 | a child is kept exactly when it has a non-empty name that passes the video test |
| MegaScanner.Millis | src/services/megaScanner.js:45 | a timestamp in seconds becomes milliseconds |
| MegaScanner.ScanChildren | src/services/megaScanner.js:33-47 | the loop either projects every kept child, in order, or stops with the first child whose link fails |
| MegaScanner.FailureStopsScan | src/services/megaScanner.js:37-47 | a failing link aborts the scan with that child's error |
| MegaScanner.VideoNodesPrefix | src/services/megaScanner.js:33-47 | the kept children of a prefix are a prefix of the kept children |
| MegaScanner.ScanMegaFolder | src/services/megaScanner.js:11-56 | a failed folder load or link is an error; otherwise the scan returns one entry per kept child |
| MegaService.Connect | src/services/megaService.js:24-68 | login succeeds exactly with both credentials and a `ready` event; a failure leaves the service disconnected with the event's message or the timeout message |
| MegaService.EnsureConnection | src/services/megaService.js:70-74 | a ready service is left alone; otherwise it connects, and success means ready |
| MegaService.ConnectThenEnsureIsNoop | src/services/megaService.js:70-74 | after a successful login, `ensureConnection` changes nothing |
| MegaService.Disconnect | src/services/megaService.js:276-286 | a successful close clears the flag; no storage or a throwing close leaves the service as it was |
| MegaService.DisconnectIdempotent | src/services/megaService.js:276-286 | disconnecting twice is disconnecting once |
| MegaService.DisconnectThenEnsureReconnects | src/services/megaService.js:70-74 | after a disconnect, the next `ensureConnection` logs in again |
| MegaService.ListedAll | src/services/megaService.js:180-190 | each listed entry is the projection of the file at the same place |
| MegaService.ListFiles | src/services/megaService.js:170-198 | the first 50 files of the session, in order, each the projection of its file, of kind `file` with a non-empty name; an empty list after a failed connection and for a session without a file array |
| MegaService.FindFile | src/services/megaService.js:204-208 | the file found carries the id as download id or node id; otherwise none does |
| MegaService.Locate | src/services/megaService.js:200-208 | a located file carries the id; a failed connection, missing file list or unknown id is an error |
| MegaService.DeleteFile | src/services/megaService.js:200-227 | a remote delete goes to the file with the id, and success means it was issued and did not fail |
| MegaService.PublicLink | src/services/megaService.js:126-145 | the SDK's link, or its error behind the fixed prefix |
| MegaService.GetFileInfo | src/services/megaService.js:229-255 | the information returned is that of a file carrying the requested id |
| MegaService.CreateFolder | src/services/megaService.js:147-168 | success exactly when the connection and `mkdir` succeed, with `mkdir`'s folder |
| MegaService.UploadFile | src/services/megaService.js:76-124 | success exactly when connected, the local file exists and the SDK upload and link succeed; the result carries the SDK file's download id, size, name and node and the generated link; a failure keeps the local files and has the fixed prefix; clean-up runs unless `false` is given or the removal throws |
| MegaService.GetStorageInfo | src/services/megaService.js:257-274 | the session's quota after a successful connection |
| MegaService.HealthCheck | src/services/megaService.js:302-326 | corrected: healthy exactly when the connection succeeds, and then `connected` is true |
| MegaService.HealthCheckAsWritten | src/services/megaService.js:302-326 | as written: a healthy report's `connected` is undefined |
| MegaService.HealthyReportLacksConnected | src/services/megaService.js:306-312 | a ready service's report, as written, lacks `connected` |
| Paging.NewestFirst | src/routes/admin.js:298 | the rows in reverse order of creation: place i holds the row created i-th from last |
| Paging.NewestFirstOfCreated | src/routes/users.js:54 | a row created last comes first, ahead of the earlier rows in their newest-first order |
| Paging.NewestFirstInvolutive | src/routes/videos.js:54 | reversing the newest-first order gives back the order of creation |
| Paging.PageCount | src/routes/admin.js:310 | no count for a zero limit; for a positive limit, the least page count whose pages hold every row |
| Paging.Window | src/routes/admin.js:279-297 | an error exactly when the limit is negative, or the page is below 1 with a positive limit (a negative skip); otherwise at most `limit` rows, namely the rows from `skip` on, and full when enough rows follow |
| Paging.ZeroLimitServesEmptyPage | src/routes/admin.js:279-297 | a zero limit is served with an empty page whatever the page number, the skip `-0` counting as 0 |
| Paging.RowOnItsPage | src/routes/admin.js:279-297 | row k is on page k / limit + 1, at place k % limit |
| Paging.AllPagesCoverRows | src/routes/admin.js:279-310 | the first `pages` pages, put together, are all the rows |
| Catalog.AddVideo | src/routes/upload.js:84-111 | the video is appended, with a placement in the collection when one is named |
| Catalog.TrimAll | src/routes/admin.js:163 | each tag is the trimmed piece at the same place |
| Catalog.NormalizeTags | src/routes/admin.js:163 | absent or empty gives no tags; an array is kept; a string gives, at each place, its comma piece trimmed, holding no comma and no white space at either end |
| Catalog.TagsRoundTrip | src/routes/megaRoutes.js:110 | tags without commas and without white space at either end survive being joined with commas and normalised (a lone empty tag excepted, since it joins to the falsy empty string) |
| Catalog.FindByKey | src/routes/megaRoutes.js:37-38 | the video found carries the key as MEGA id; otherwise none does |
| Catalog.ExistingTitle | src/routes/megaRoutes.js:37-42 | the title of the first video carrying the key, or none when that title is empty or no video carries the key |
| Catalog.Select | src/routes/megaRoutes.js:49-50 | the selection is the marked files with the given flag, in order |
| Catalog.SelectPartitions | src/routes/admin.js:108-110 | the imported and not-imported lists together are exactly the marked files |
| Catalog.StatsOf | src/routes/megaRoutes.js:52-56 | `notImported` is the length of the not-imported list and the number of files not in the catalogue, `alreadyImported` likewise for the imported list; the two add up to `totalInMega`, the number of files listed |
| Catalog.SelectCountsVerdicts | src/routes/admin.js:108-110 | a filtered list holds as many files as the listing has verdicts equal to the filter's flag |
| Catalog.AllImportedStats | src/routes/megaRoutes.js:52-56 | a listing whose files are all in the catalogue reports none to import and all as imported |
| MegaRoutes.ScanKey | src/routes/megaRoutes.js:35 | download id, else download URL, else null |
| MegaRoutes.MarkScanAsWritten | src/routes/megaRoutes.js:33-47 | as written: a keyless file takes the title of a video with no MEGA id |
| MegaRoutes.KeylessFileBorrowsTitle | src/routes/megaRoutes.js:35-42 | a file marked not imported that still shows an existing title |
| MegaRoutes.MarkScan | src/routes/megaRoutes.js:33-47 | corrected: a file shows a title only when it is in the catalogue, and it is in the catalogue exactly when its key is a MEGA id there |
| MegaRoutes.ScanFolder | src/routes/megaRoutes.js:10-68 | with the corrected marking of the Findings table: 400 without a URL; otherwise the resolved URL is scanned; a listing is given exactly when the scan and the catalogue read succeed |
| MegaRoutes.ImportedVideo | src/routes/megaRoutes.js:107-125 | the created video has the request's id, title, normalised tags, thumbnail and provenance |
| MegaRoutes.ImportVideo | src/routes/megaRoutes.js:71-164 | 400 and no write without an id or a title, or for an id already imported; 201 exactly when, besides, the collection is absent, empty or existing; for an unknown collection the video is written unplaced and the answer is 500 |
| MegaRoutes.SecondImportRefused | src/routes/megaRoutes.js:95-104 | importing the same MEGA id twice refuses the second request and writes nothing |
| MegaRoutes.FailedPlacementBlocksRetry | src/routes/megaRoutes.js:95-164 | after a 500 for an unknown collection the video stays, no placement is written, and a retry with any collection is refused as already imported |
| AdminRoutes.MarkListing | src/routes/admin.js:99-106 | each file is marked imported exactly when its download id is one of the catalogue's ids |
| AdminRoutes.ChosenListing | src/routes/admin.js:63-71 | an empty recursive listing falls back to the folder listing |
| AdminRoutes.MegaVideos | src/routes/admin.js:52-133 | corrected, for a service that answers the two listings: the fallback is used exactly for an empty listing; blocked errors and others are told apart; the stats count the files not imported and already imported |
| AdminRoutes.NotAFunctionNotBlocked | src/routes/admin.js:77 | the `TypeError` for a missing service method is not taken for a blocked account |
| AdminRoutes.MegaVideosAsWritten | src/routes/admin.js:52-133 | as written: the route always answers 500 and never asks for the fallback folder |
| AdminRoutes.MegaVideosAsWrittenIgnoresInputs | src/routes/admin.js:63-95 | as written: neither the folder listing nor the catalogue changes the answer |
| AdminRoutes.NonEmptyListingSkipsFallback | src/routes/admin.js:63-71 | a non-empty listing is answered the same whatever the fallback folder holds |
| AdminRoutes.BlockedErrorsRecognised | src/routes/admin.js:77 | `EBLOCKED` and `account blocked` count as blocked; `ETIMEOUT` does not |
| AdminRoutes.AdminImportedVideo | src/routes/admin.js:160-176 | the imported video has the request's MEGA id, title, description, normalised tags and thumbnail, the link, and the admin as owner |
| AdminRoutes.ImportMegaVideo | src/routes/admin.js:136-214 | corrected, for a service that answers the link request: 400 and no write without an id or a title; a failed link writes nothing; 201 exactly when the link is obtained and the collection is absent, empty or existing; an unknown collection leaves the video written unplaced with a 500 |
| AdminRoutes.ImportMegaVideoAsWritten | src/routes/admin.js:136-214 | as written: nothing is ever written; 400 without an id or a title, 500 otherwise |
| AdminRoutes.AdminImportAllowsDuplicates | src/routes/admin.js:149-199 | given a link and a known collection, a MEGA id already in the catalogue is imported again, so two videos carry it |
| AdminRoutes.AdminVideos | src/routes/admin.js:277-317 | an error exactly when the defaulted limit is negative, or the defaulted page is below 1 with a positive limit; a zero limit gives an empty page; otherwise page `page` (default 1) of `limit` (default 20) rows of the whole catalogue newest first, with the total and the page count |
| AdminRoutes.PageZeroLimitZeroServed | src/routes/admin.js:277-317 | `?page=0&limit=0` answers with an empty page, the total and no page count |
| AdminRoutes.AddedVideoHeadsAdminList | src/routes/admin.js:282-298 | a video just added opens the first page of the default listing |
| AdminRoutes.FixUsersRoles | src/routes/admin.js:556-628 | the six listed accounts become ADMIN; every other account keeps its role |
| RoleRepair.Classify | src/fix-users.js:24-52 | not found, already admin, or updated from the old role, by the table |
| RoleRepair.FixUserRoles | src/fix-users.js:4-62 | listed accounts become ADMIN, the rest are untouched, and there is one report per address |
| RoleRepair.FixUserRolesClassifies | src/fix-users.js:19-53 | with distinct addresses, each report is the classification of its address against the table before the run |
| RoleRepair.FixUserRolesIdempotent | src/fix-users.js:19-53 | a second run changes nothing and reports no update |
| RoleRepair.AllAdminFixpoint | src/fix-users.js:38-45 | when every listed account is ADMIN, nothing is written or reported as updated |
| RoleRepair.PromoteListedAgrees | src/routes/fix-users.js:4-37 | the script variant reaches the same table and writes exactly the addresses the batch reports |
| RoleRepair.PromoteListedWrites | src/routes/fix-users.js:16-29 | the script writes only listed, existing, non-ADMIN accounts, and a second run writes none |
| RoleRepair.EmergencyFixRole | src/routes/admin.js:442-475 | 400 without an address, 404 for an unknown one, otherwise that account alone becomes ADMIN |
| Analytics.BucketCount | src/routes/analytics.js:33-34 | `Math.ceil(duration / 5)` buckets, and a `RangeError` from a duration of -5 or less |
| Analytics.CountedEvents | src/routes/analytics.js:24-30 | the count of PLAY, SEEK and TIMEUPDATE events of the video is zero exactly when there is none, and all events exactly when every one is |
| Analytics.Tally | src/routes/analytics.js:37-41 | one event adds one to the bucket its position falls in when it is counted; an event outside every bucket is dropped |
| Analytics.TalliedHits | src/routes/analytics.js:36-42 | after every event, bucket i holds the counted events whose position falls in it |
| Analytics.TalliedSum | src/routes/analytics.js:36-42 | the buckets never hold more than the counted events, and hold all of them when every counted event lies within the buckets |
| Analytics.CountBuckets | src/routes/analytics.js:36-42 | bucket i holds the counted events whose position falls in it; the buckets add up to at most the counted events, and exactly to them when none lies outside |
| Analytics.MaxCount | src/routes/analytics.js:45 | the maximum is an upper bound that some bucket reaches |
| Analytics.MostRepeated | src/routes/analytics.js:46-53 | exactly the buckets at the maximum, by ascending start |
| Analytics.BuildHeatmap | src/routes/analytics.js:8-65 | 404 for an unknown video, 500 for a duration that makes a negative array, otherwise the buckets and most repeated segments |
| Analytics.HitsIgnoreUncounted | src/routes/analytics.js:27 | an event of another kind or video does not change any bucket |
| AuthMiddleware.ExtractToken | src/middleware/auth.js:6-11 | the token is the second space-separated word, and it is present only when non-empty |
| AuthMiddleware.BearerRoundTrip | src/middleware/auth.js:7 | `<scheme> <token>` yields the token, whatever follows it |
| AuthMiddleware.OneWordHeaderRejected | src/middleware/auth.js:7-11 | a header without a space gives no token |
| AuthMiddleware.Authenticate | src/middleware/auth.js:5-53 | 401 without a token; the verifier's verdict maps to 401/403; a verified id names the user or gives 401 |
| AuthMiddleware.DeactivatedUserAuthenticates | src/middleware/auth.js:32-36 | a deactivated user with a valid token is let through |
| AuthMiddleware.RequireAdmin | src/middleware/auth.js:55-77 | passes exactly an active-or-null ADMIN or EDITOR; 401, then 403 deactivated, then 403 role |
| AuthMiddleware.NullFlagIsActive | src/middleware/auth.js:61 | a null activity flag is not a deactivation |
| UserRoutes.FilterUsers | src/routes/users.js:18-35 | the filtered users are exactly those matching the search and the role, in their stored order |
| UserRoutes.FilterUsersAppend | src/routes/users.js:18-35 | filtering after a row is added gives the earlier result, plus the row when it matches |
| UserRoutes.ListUsers | src/routes/users.js:13-76 | an error exactly when the defaulted limit is negative, or the defaulted page is below 1 with a positive limit; a zero limit gives an empty page; otherwise page `page` (default 1) of `limit` (default 20) matching users newest first, with the total and the page count |
| UserRoutes.CreatedUserListedFirst | src/routes/users.js:31-54 | a user just created, and matching the filters, opens the first page of the default listing |
| UserRoutes.Updated | src/routes/users.js:162-170 | each given field replaces the stored one; the rest are kept |
| UserRoutes.ApplyUpdate | src/routes/users.js:151-176 | 404 and no write for an unknown id; otherwise that row alone is updated |
| UserRoutes.UpdateUserAsWritten | src/routes/users.js:138-198 | as written: the self-edit guard refuses unless the new role is ADMIN and the flag is not false |
| UserRoutes.EditorSelfPromotes | src/routes/users.js:144-149 | an EDITOR sending role ADMIN for their own id is promoted, while the corrected guard refuses |
| UserRoutes.UpdateUser | src/routes/users.js:138-198 | corrected: a self-edit may not change the own role or deactivate; other rows never change |
| UserRoutes.RemoveAt | src/routes/users.js:287-289 | the row at the index is removed and the others keep their order |
| UserRoutes.DeleteUser | src/routes/users.js:264-305 | 403 for self, 404 for unknown, otherwise that user alone is removed |
| UserRoutes.CreateUser | src/routes/users.js:201-261 | 400 without e-mail or password, or for a lower-cased duplicate; otherwise a lower-cased row with defaults |
| UserRoutes.CreateKeepsWellFormed | src/routes/users.js:212-232 | creation keeps ids and e-mails unique |
| UserRoutes.CaseVariantRejected | src/routes/users.js:212-221 | an address that differs only in case from one created is refused |
| UserRoutes.RoleStats | src/routes/users.js:320-323 | one entry per role present in the groups |
| UserRoutes.RoleStatsOfDistinctGroups | src/routes/users.js:337-340 | with one group per role, each role maps to its group's count |
| VideoRoutes.FilterVideos | src/routes/videos.js:14-35 | the listed videos are exactly the published ones matching search, tags and collection, in order |
| VideoRoutes.FilterVideosAppend | src/routes/videos.js:14-35 | filtering after a video is added gives the earlier result, plus the video when it is listable |
| VideoRoutes.ListVideos | src/routes/videos.js:9-71 | an error exactly when the defaulted limit is negative, or the defaulted page is below 1 with a positive limit; a zero limit gives an empty page; otherwise page `page` (default 1) of `limit` (default 20) listable videos newest first, with the total and the page count |
| VideoRoutes.AddedVideoListedFirst | src/routes/videos.js:37-54 | a listable video just added opens the first page of the default listing |
| VideoRoutes.TagQueryIsAnyOf | src/routes/videos.js:24-27 | a comma-joined tag query matches a video having any one of the tags |
| VideoRoutes.FindVideo | src/routes/videos.js:88-91 | the video found carries the id; otherwise none does |
| VideoRoutes.GetVideoAsWritten | src/routes/videos.js:82-85 | as written: the view counter is bumped first, so an id with no row fails |
| VideoRoutes.UnknownVideoIsServerError | src/routes/videos.js:120-122 | an unknown id gets a server error rather than 404 |
| VideoRoutes.GetVideo | src/routes/videos.js:74-128 | corrected: 404 exactly for an unknown id, with no view counted; otherwise one view is counted |
| VideoRoutes.ToggleLike | src/routes/videos.js:131-164 | an existing like is removed, otherwise added, and the count moves by one the same way |
| VideoRoutes.ToggleLikeInvolution | src/routes/videos.js:136-160 | liking twice restores the state |
| VideoRoutes.ToggleLikeKeepsDrift | src/routes/videos.js:136-160 | the gap between the counter and the like rows never changes |
| VideoRoutes.FindComment | src/routes/videos.js:192-195 | the comment found carries the id; otherwise none does |
| VideoRoutes.AddComment | src/routes/videos.js:167-218 | 400 and no write without a body; 500 and no write for a parent id naming no comment; otherwise the comment is added, and a reply to another user's comment notifies that user; when that notification insert fails the comment stays and the answer is 500 |
| VideoRoutes.FailedNotificationKeepsComment | src/routes/videos.js:177-213 | a reply to another user's comment whose notification insert fails answers 500 with the new comment written and no notification |
| VideoRoutes.UnknownParentWritesNothing | src/routes/videos.js:177-217 | a reply naming no stored comment writes neither a comment nor a notification and is answered 400 or 500 |
| VideoRoutes.NoNotificationForSelfOrTopLevel | src/routes/videos.js:196-211 | a top-level comment or a reply to oneself notifies nobody; it is answered 201, or 500 when the parent id names no comment |
| VideoRoutes.RecordEvent | src/routes/videos.js:221-254 | every event is stored; only TIMEUPDATE and PAUSE upsert the caller's position |
| VideoRoutes.RecordedEventReachesHeatmap | src/routes/videos.js:227-248 | a recorded PLAY, SEEK or TIMEUPDATE event adds one hit to its bucket; PAUSE adds none |
| CollectionRoutes.FeaturedOnly | src/routes/collections.js:14-16 | exactly the featured collections, in order |
| CollectionRoutes.ListCollections | src/routes/collections.js:9-36 | the collections newest first, filtered to the featured ones only for the exact string `true` |
| CollectionRoutes.OtherSpellingsListAll | src/routes/collections.js:14-16 | `TRUE` or `1` list every collection, newest first |
| CollectionRoutes.CreateCollection | src/routes/collections.js:39-75 | 400 exactly without a name; 500 and no write for a name already used; otherwise 201 and one collection appended with the defaults |
| CollectionRoutes.BareCollectionNotFeatured | src/routes/collections.js:52-55 | a collection created with only a name is not in the featured listing |
| CollectionRoutes.CreatedCollectionListedFirst | src/routes/collections.js:18-28 | a collection just created opens the listing, and creating it again under the same name is refused with no write |
| CollectionRoutes.InsertByPosition | src/routes/collections.js:101 | inserting into a position-sorted list keeps it sorted and adds exactly that placement |
| CollectionRoutes.SortByPosition | src/routes/collections.js:101 | the result is sorted by position and a permutation of the input |
| CollectionRoutes.PlacementsOf | src/routes/collections.js:92-101 | exactly the placements of the collection |
| CollectionRoutes.FindCollection | src/routes/collections.js:81-83 | the collection found carries the id; otherwise none does |
| CollectionRoutes.GetCollection | src/routes/collections.js:78-115 | 404 exactly for an unknown id; otherwise every placement of the collection, by position |
| CollectionRoutes.SortKeepsSorted | src/routes/collections.js:101 | sorting a sorted list changes nothing |
| CollectionRoutes.ToggleFavorite | src/routes/collections.js:118-144 | an existing favourite is removed, otherwise added; adding fails for an unknown collection |
| CollectionRoutes.ToggleFavoriteInvolution | src/routes/collections.js:123-139 | toggling twice restores the rows and flips the answer |
| CollectionRoutes.ToggleFavoriteIsLocal | src/routes/collections.js:123-139 | no other user's or collection's favourite changes |
| UploadRoute.TempName | src/routes/upload.js:23-26 | the temporary name ends with the original name |
| UploadRoute.TempNameRoundTrip | src/routes/upload.js:23-26 | the original name is everything after the second dash of the temporary name |
| UploadRoute.Receive | src/routes/upload.js:28-39 | a file is stored exactly when it is a video type and at most 500 MiB |
| UploadRoute.SizeLimitIsInclusive | src/routes/upload.js:31 | exactly 500 MiB passes; one byte more does not |
| UploadRoute.UploadTags | src/routes/upload.js:77 | no tags when absent or empty; otherwise the normalised comma pieces |
| UploadRoute.RemoveIfPresent | src/routes/upload.js:136-142 | the temporary file is gone unless removal fails; nothing else changes |
| UploadRoute.UploadedVideo | src/routes/upload.js:74-91 | the recorded video has the service's id, link and size, the title, description, tags and original name, and no thumbnail |
| UploadRoute.UploadVideo | src/routes/upload.js:42-150 | 400 without a file; without a title the service is never asked and the answer is 400, or 500 when removing the temporary file fails; 500 and no write for a failed upload; 201 exactly when the upload succeeds and the collection is absent, empty or existing; for an unknown collection the video is written unplaced with a 500; the temporary file is removed unless its removal fails, and no other local file changes |
| UploadRoute.MissingTitleNeverUploads | src/routes/upload.js:57-61 | without a title the service is never asked, whatever it would answer |
| AuthRoutes.Signup | src/routes/auth.js:11-51 | 400 missing or exact duplicate; otherwise a USER row with the defaults, its public fields in the reply and a token for the new id |
| AuthRoutes.CaseVariantSignsUp | src/routes/auth.js:19-22 | an address differing only in case from a registered one signs up |
| AuthRoutes.Login | src/routes/auth.js:54-92 | 400 missing; the same 401 for unknown address and wrong password; otherwise the user's public fields and a token |
| AuthRoutes.UnknownEmailLooksLikeWrongPassword | src/routes/auth.js:62-70 | an unknown address and a wrong password get identical replies |
| AuthRoutes.SignupThenLogin | src/routes/auth.js:11-92 | an account just created logs in with its address and password and gets the same token |
| AuthRoutes.DeactivatedAccountLogsIn | src/routes/auth.js:62-80 | login ignores the activity flag |

## Left out

- Express, Prisma, bcrypt, JWT, `fs`, timers and the MEGA SDK are not modelled; their answers are parameters.
- Date.now and Math.random are parameters (timestamps, temporary names, the remote upload name).
- The placeholder thumbnail of the public-folder import is a random colour; `GeneratedThumbnail(title)` stands for it.
- AuthRoutes.Login: the reply leaves out `avatarUrl` (auth.js:79-84), because the user row does not model the avatar.
- The SDK's 30-second login timer is an outcome of the login (`LoginTimeout`), not a race.
- `listAllVideoFilesRecursive`, `listVideosInFolder` and `getFileDownloadLink` are called by the admin routes but are not defined in megaService.js. The routes as written are modelled with the resulting `TypeError` (see Findings). The corrected routes take the answers those methods would give as parameters.
- The storage usage percentage and every `toFixed`/`parseFloat` rendering are floating point and left out.
- MegaScanner.FormatBytes: gives the unit index, not the rendered number.
- MegaScanner.ScanMegaFolder: walks the folder's direct children only, as the code does.
- MegaService.GetStorageInfo: the usage percentage is left out.
- MegaService.Disconnect: a throwing `close` leaves the flag as it was. This follows the code, where the flag is cleared only after `close` returns.
- Paging.Window: a negative limit, or a page below 1 with a positive limit (a negative skip), is an error. Prisma reads a negative `take` as counting backwards, which is not modelled.
- Analytics.CountBuckets: positions are integers; fractional positions are floored by the caller. A negative position is dropped; in the code, `buckets[-1]++` sets a property outside the array, which the answer does not include.
- VideoRoutes.RecordEvent: the position is an integer; `parseFloat` is left out.
- VideoRoutes.ListVideos: `page` and `limit` are the integers `parseInt` yields (videos.js:12, 53, 62-65); a non-numeric or empty value gives `NaN`, which the ORM rejects with a 500, and that case is not modelled.
- UserRoutes.ListUsers: `page` and `limit` are the integers `parseInt` yields (users.js:16, 53, 63-66); a non-numeric or empty value (`NaN`, answered 500) is not modelled.
- AdminRoutes.AdminVideos: `page` and `limit` are the integers `parseInt` yields (admin.js:280, 297, 307-309); a non-numeric or empty value (`NaN`, answered 500) is not modelled.
- Database failures are modelled where the route branches on them or where an earlier write survives them. Creating a video and then placing it in an unknown collection keeps the video. A duplicate collection name is refused by the unique index. A reply whose parent id names no comment is refused by the comments' self-relation and answers 500 with nothing written; a failed notification insert after a reply keeps the comment and answers 500 (both in `VideoRoutes.AddComment`). Other failures are left out, because they only yield the route's generic 500 with nothing written. Examples: a failed comment insert for an unknown video, a failed count.
- AuthRoutes.Signup: `isActive` true and `isVerified` false are schema defaults that the route does not set.
- UserRoutes.UpdateBody: `role` is one of the three enum values. A null `isActive` in a body is not modelled.
- Outside the core and left out: the admin dashboard, admin `POST /videos`, admin `GET /users` and `PUT /users/:id`, settings, notifications and the admin collections listing.
- Also left out: the MEGA `/status` route, `GET /users/:id`, the remaining counts of `/stats/overview`, and `GET /me`. They are plain reads.
- Server start-up is left out: auto-connect, signal handlers and the seed script.
- Left out from the upload route: the multipart parser's own failures other than the file filter and size limit.
- Strings.ToLower: folds ASCII letters only. JavaScript's `toLowerCase` also folds other letters, such as `É`.
- UserRoutes.CreateUser: lower-cases the e-mail with the ASCII folding of Strings.ToLower.
- UserRoutes.FilterUsers: `mode: 'insensitive'` is modelled as ASCII folding of both sides; the database's collation is not.
- VideoRoutes.FilterVideos: the same ASCII folding stands for `mode: 'insensitive'` in the search.
- Paging.NewestFirst: rows created within the same clock tick are ordered by insertion; the database leaves such ties unordered.
- MegaScanner.UnitIndex: exact arithmetic; the floating-point rounding of `Math.log(bytes) / Math.log(1024)` just below a power of 1024 is not modelled.

## Findings

| source | as written | input that shows it | evidently intended | confidence | as-written member | corrected member |
|---|---|---|---|---|---|---|
| src/services/megaScanner.js:66-68 (and the same code at src/services/megaService.js:294-298) | the unit index `floor(log(bytes) / log(1024))` indexes a five-entry array | 2 * 1024^5 bytes: index 5, label `undefined` | the largest unit, TB, for anything from 1024^4 bytes | high, not executed | MegaScanner.UnitLabelAsWritten, MegaScanner.UnitLabelAsWrittenOverflows | MegaScanner.UnitLabel, MegaScanner.UnitLabelAlwaysDefined |
| src/services/megaService.js:306-312 | `connected` is the value of `await ensureConnection()`, which returns nothing | a connected service: the healthy report has no `connected` field | `connected: true` in a healthy report | high, not executed | MegaService.HealthCheckAsWritten, MegaService.HealthyReportLacksConnected | MegaService.HealthCheck |
| src/routes/megaRoutes.js:35-42 | the title lookup runs even for a file without a key, and `null === null` matches a video without a MEGA id | a file with no download id and an empty link, and a catalogue video with no MEGA id | no existing title for a file that is not in the catalogue | low (needs an empty link), not executed | MegaRoutes.MarkScanAsWritten, MegaRoutes.KeylessFileBorrowsTitle | MegaRoutes.MarkScan |
| src/routes/users.js:144-149 | a self-edit is refused when `role !== 'ADMIN'` or `isActive === false` | an EDITOR sends `{role: 'ADMIN'}` for their own id: promoted, 200. An ADMIN sending only a display name for themselves is refused | refuse a self-edit that changes the own role or deactivates | medium, not executed | UserRoutes.UpdateUserAsWritten, UserRoutes.EditorSelfPromotes | UserRoutes.UpdateUser |
| src/routes/admin.js:63-157 | the routes call `listAllVideoFilesRecursive`, `listVideosInFolder` and `getFileDownloadLink`, which the service class does not define | any `GET /mega-videos`: `TypeError`, 500. Any `POST /import-mega-video` with an id and a title: 500, nothing written | list the MEGA files and split them against the catalogue; import the file with its link | high, not executed | AdminRoutes.MegaVideosAsWritten, AdminRoutes.ImportMegaVideoAsWritten | AdminRoutes.MegaVideos, AdminRoutes.ImportMegaVideo |
| src/routes/videos.js:82-85 | the view counter is updated before the video is looked up, and updating a missing row throws | `GET /videos/<unknown id>`: 500 instead of the 404 at lines 120-122 | 404 for an unknown video, with no write | medium (depends on Prisma raising on a missing row), not executed | VideoRoutes.GetVideoAsWritten, VideoRoutes.UnknownVideoIsServerError | VideoRoutes.GetVideo |

=== FILE: accounts.dfy ===
/**
 * User accounts as the routes and the role-repair scripts see them: a role,
 * an activity flag that may be `null`, and a table of users in which ids
 * and e-mail addresses are unique.
 */
module Accounts {
  import opened Common
  import opened Strings

  datatype Role = USER | EDITOR | ADMIN

  datatype Preferences = Preferences(theme: string, notifications: bool)

  datatype User = User(
    id: string,
    email: string,
    displayName: string,
    role: Role,
    isActive: Option<bool>,
    isVerified: bool,
    passwordHash: string,
    preferences: Option<Preferences>)

  /** The index of the user with id `id`. */
  function FindById(users: seq<User>, id: string, from: nat := 0): (r: Option<nat>)
    requires from <= |users|
    ensures r.Some? ==> from <= r.value < |users| && users[r.value].id == id
    ensures r.None? ==> forall j :: from <= j < |users| ==> users[j].id != id
  {
    FindFirst(users, (u: User) => u.id, id, from)
  }

  /**
   * The index of the user with e-mail `email` (compared exactly). The table
   * has two unique keys, the id and the e-mail, and `findUnique` is called
   * with each; both lookups are the same first-match search over a
   * different field.
   */
  function FindByEmail(users: seq<User>, email: string, from: nat := 0): (r: Option<nat>)
    requires from <= |users|
    ensures r.Some? ==> from <= r.value < |users| && users[r.value].email == email
    ensures r.None? ==> forall j :: from <= j < |users| ==> users[j].email != email
  {
    FindFirst(users, (u: User) => u.email, email, from)
  }

  /** The table's unique constraints: no two users share an id or an e-mail address. */
  predicate WellFormed(users: seq<User>)
  {
    forall i, j :: 0 <= i < j < |users| ==> users[i].id != users[j].id && users[i].email != users[j].email
  }

  /** In a well-formed table, looking a user up by its id or by its e-mail finds the same row. */
  lemma KeysFindSameRow(users: seq<User>, i: nat)
    requires WellFormed(users) && i < |users|
    ensures FindById(users, users[i].id) == Some(i)
    ensures FindByEmail(users, users[i].email) == Some(i)
  {
  }

  /** Appending a user whose id and e-mail are new keeps the table well formed. */
  lemma AppendKeepsWellFormed(users: seq<User>, u: User)
    requires WellFormed(users)
    requires FindById(users, u.id).None? && FindByEmail(users, u.email).None?
    ensures WellFormed(users + [u])
  {
  }

  /** `email.split('@')[0]`: everything before the first `@`. */
  function LocalPart(email: string): (r: string)
    ensures '@' !in r && StartsWith(email, r)
  {
    var parts := Split(email, '@');
    LocalPartIsPrefix(email);
    parts[0]
  }

  lemma LocalPartIsPrefix(email: string)
    ensures StartsWith(email, Split(email, '@')[0])
  {
    var parts := Split(email, '@');
    if |parts| > 1 {
      assert email == parts[0] + ['@'] + Join(parts[1..], '@');
    }
  }

  /** The local part of `local@domain` is `local`. */
  lemma LocalPartOf(local: string, domain: string)
    requires '@' !in local
    ensures LocalPart(local + "@" + domain) == local
  {
    SplitPrefix(local, '@', domain);
  }
}

=== FILE: admin_routes.dfy ===
/**
 * The admin routes: the MEGA listing split against the catalogue
 * (`GET /mega-videos`), the import of one MEGA file (`POST
 * /import-mega-video`), the paginated video list (`GET /videos`), and the
 * role repair (`POST /fix-users-roles`).
 */
module AdminRoutes {
  import opened Common
  import opened Strings
  import opened Catalog
  import opened Paging
  import RoleRepair

  /** The folder consulted when the recursive listing finds nothing. */
  const FallbackFolder: string := "Mega/seehere-videos"
  const BlockedMessage: string := "Conta MEGA temporariamente bloqueada. Tente novamente mais tarde."
  const ImportFieldsRequiredMessage: string := "MEGA file ID and title are required"

  /**
   * A file as the service's listing reports it. Only the download id takes
   * part in the route's decisions; the remaining fields are passed through.
   */
  datatype RemoteFile = RemoteFile(name: string, downloadId: Option<string>)

  // ---------------------------------------------------------------------------
  // GET /mega-videos
  // ---------------------------------------------------------------------------

  /** `dbFileIds.includes(file.downloadId)`: a `null` id matches a catalogue video without a MEGA id. */
  predicate InCatalogue(videos: seq<Video>, key: Option<string>)
  {
    exists j :: 0 <= j < |videos| && videos[j].megaFileId == key
  }

  function MarkListing(files: seq<RemoteFile>, videos: seq<Video>): (r: seq<Marked<RemoteFile>>)
    ensures |r| == |files|
    ensures forall k :: 0 <= k < |files| ==>
              r[k].file == files[k] && r[k].isInDatabase == InCatalogue(videos, files[k].downloadId)
              && r[k].existingTitle == ExistingTitle(videos, files[k].downloadId)
  {
    if |files| == 0 then []
    else
      var key := files[0].downloadId;
      [Marked(files[0], InCatalogue(videos, key), ExistingTitle(videos, key))] + MarkListing(files[1..], videos)
  }

  /** A listing error the route treats as a temporarily blocked account. */
  predicate IsBlockedError(message: string)
  {
    Includes(message, "blocked") || Includes(message, "EBLOCKED")
  }

  datatype MegaVideosResponse =
    | Listed(notInDatabase: seq<Marked<RemoteFile>>, alreadyInDatabase: seq<Marked<RemoteFile>>, stats: Stats)
    | Blocked(stats: Stats, message: string)
    | ServerError(error: string)

  /**
   * The listing the route ends up with: the recursive listing, or the
   * fallback folder's when the recursive one is empty.
   */
  function ChosenListing(recursive: Result<seq<RemoteFile>>, folder: Result<seq<RemoteFile>>): (r: Result<seq<RemoteFile>>)
    ensures recursive == Ok([]) ==> r == folder
    ensures recursive != Ok([]) ==> r == recursive
  {
    if recursive.Ok? && |recursive.value| == 0 then folder else recursive
  }

  /**
   * `GET /mega-videos`. The two listings of the service (`recursive`, then
   * `folder` for `Mega/seehere-videos`) and the catalogue read (`db`) are
   * inputs; `folderConsulted` says whether the second listing was asked
   * for. A blocked account is a success with empty lists and zero
   * statistics; every other failure is a 500.
   */
  function MegaVideos(recursive: Result<seq<RemoteFile>>, folder: Result<seq<RemoteFile>>, db: Result<seq<Video>>)
    : (r: (bool, MegaVideosResponse))
    ensures r.0 <==> recursive == Ok([])
    ensures var l := ChosenListing(recursive, folder);
            && (l.Err? && IsBlockedError(l.message) ==> r.1 == Blocked(EmptyStats, BlockedMessage))
            && (l.Err? && !IsBlockedError(l.message) ==> r.1.ServerError?)
            && (l.Ok? && db.Err? ==> r.1.ServerError?)
            && (l.Ok? && db.Ok? ==>
                  r.1 == Listed(Select(MarkListing(l.value, db.value), false),
                                Select(MarkListing(l.value, db.value), true),
                                StatsOf(MarkListing(l.value, db.value))))
    ensures r.1.Listed? ==> r.1.stats.notImported + r.1.stats.alreadyImported == r.1.stats.totalInMega
                            && |r.1.notInDatabase| + |r.1.alreadyInDatabase| == r.1.stats.totalInMega
  {
    var consulted := recursive.Ok? && |recursive.value| == 0;
    var l := ChosenListing(recursive, folder);
    if l.Err? then
      if IsBlockedError(l.message) then (consulted, Blocked(EmptyStats, BlockedMessage))
      else (consulted, ServerError("Falha na conex\U{00E3}o com MEGA: " + l.message))
    else if db.Err? then (consulted, ServerError(db.message))
    else
      var marked := MarkListing(l.value, db.value);
      SelectPartitions(marked);
      (consulted, Listed(Select(marked, false), Select(marked, true), StatsOf(marked)))
  }

  /** A non-empty recursive listing is used as it is; the fallback folder is never asked for. */
  lemma NonEmptyListingSkipsFallback(files: seq<RemoteFile>, folder: Result<seq<RemoteFile>>, folder2: Result<seq<RemoteFile>>,
                                     db: Result<seq<Video>>)
    requires |files| > 0
    ensures !MegaVideos(Ok(files), folder, db).0
    ensures MegaVideos(Ok(files), folder, db) == MegaVideos(Ok(files), folder2, db)
  {
  }

  /** Both spellings of the blocked error are recognised, and a plain connection error is not. */
  lemma BlockedErrorsRecognised()
    ensures IsBlockedError("EBLOCKED")
    ensures IsBlockedError("account blocked")
    ensures !IsBlockedError("ETIMEOUT")
  {
    assert OccursAt("EBLOCKED", "EBLOCKED", 0);
    assert OccursAt("account blocked", "blocked", 8);
    assert 'B' !in "ETIMEOUT" && 'B' in "EBLOCKED";
    MissingCharNotIncluded("ETIMEOUT", "EBLOCKED", 'B');
    assert 'b' !in "ETIMEOUT" && 'b' in "blocked";
    MissingCharNotIncluded("ETIMEOUT", "blocked", 'b');
  }

  // ---------------------------------------------------------------------------
  // POST /import-mega-video
  // ---------------------------------------------------------------------------

  datatype ImportRequest = ImportRequest(
    megaFileId: Option<string>,
    title: Option<string>,
    description: Option<string>,
    tags: TagsInput,
    thumbnailUrl: Option<string>,
    collectionId: Option<string>)

  predicate Present(o: Option<string>)
  {
    o.Some? && o.value != ""
  }

  datatype ImportResponse = ImportResponse(status: nat, error: Option<string>, created: Option<Video>)

  const ImportFailedMessage: string := "Failed to import video from MEGA"

  /** The video the admin import records for a request with a MEGA id, a title and the service's link. */
  function AdminImportedVideo(req: ImportRequest, ownerId: string, newId: string, url: string): (v: Video)
    requires Present(req.megaFileId) && Present(req.title)
    ensures v.id == newId && v.megaFileId == req.megaFileId && v.megaFileUrl == Some(url)
    ensures v.title == req.title.value && v.tags == NormalizeTags(req.tags)
    ensures v.description == req.description.GetOr("")
    ensures v.thumbnail == (if Present(req.thumbnailUrl) then ThumbnailUrl(req.thumbnailUrl.value) else NoThumbnail)
    ensures v.provenance == ImportedByAdmin && v.isPublished && v.ownerId == ownerId && v.durationSeconds == 0
  {
    Video(newId, req.title.value, req.description.GetOr(""), NormalizeTags(req.tags),
          req.megaFileId, Some(url),
          if Present(req.thumbnailUrl) then ThumbnailUrl(req.thumbnailUrl.value) else NoThumbnail,
          0, ownerId, true, ImportedByAdmin)
  }

  /**
   * `POST /import-mega-video`: 400 without a MEGA id or a title, before the
   * service is asked for a download link; the link (`link`) failing is a
   * 500; otherwise the video is created with that link and placed in the
   * given collection (`known` holds the ids of the existing collections).
   * An unknown collection makes the placement throw after the video row is
   * written: 500, with the video kept. There is no duplicate check.
   * `linkRequested` says whether the service was asked.
   */
  function ImportMegaVideo(c: Catalogue, known: set<string>, req: ImportRequest, ownerId: string, newId: string, link: Result<string>)
    : (r: (Catalogue, ImportResponse, bool))
    ensures !Present(req.megaFileId) || !Present(req.title) ==>
              r == (c, ImportResponse(400, Some(ImportFieldsRequiredMessage), None), false)
    ensures Present(req.megaFileId) && Present(req.title) ==> r.2
    ensures r.1.created.Some? <==> r.1.status == 201
    ensures r.1.status == 201 <==> Present(req.megaFileId) && Present(req.title) && link.Ok? && PlacementOk(known, req.collectionId)
    ensures link.Err? ==> r.0 == c && r.1.status != 201
    ensures Present(req.megaFileId) && Present(req.title) && link.Ok? ==>
              var v := AdminImportedVideo(req, ownerId, newId, link.value);
              if PlacementOk(known, req.collectionId) then
                r.0 == AddVideo(c, v, req.collectionId) && r.1.created == Some(v)
              else
                r.0 == AddVideo(c, v, None) && r.1 == ImportResponse(500, Some(ImportFailedMessage), None)
  {
    if !Present(req.megaFileId) || !Present(req.title) then
      (c, ImportResponse(400, Some(ImportFieldsRequiredMessage), None), false)
    else if link.Err? then
      (c, ImportResponse(500, Some(ImportFailedMessage), None), true)
    else
      var v := AdminImportedVideo(req, ownerId, newId, link.value);
      if !PlacementOk(known, req.collectionId) then
        (AddVideo(c, v, None), ImportResponse(500, Some(ImportFailedMessage), None), true)
      else
        (AddVideo(c, v, req.collectionId), ImportResponse(201, None, Some(v)), true)
  }

  /**
   * Given a link, the admin import creates a second video for a MEGA id
   * already present: unlike the public-folder import it has no duplicate
   * check.
   */
  lemma AdminImportAllowsDuplicates(c: Catalogue, known: set<string>, req: ImportRequest, ownerId: string, newId: string, url: string)
    requires Present(req.megaFileId) && Present(req.title) && HasMegaId(c.videos, req.megaFileId.value)
    requires PlacementOk(known, req.collectionId)
    ensures var r := ImportMegaVideo(c, known, req, ownerId, newId, Ok(url));
            r.1.status == 201 && |r.0.videos| == |c.videos| + 1
            && r.0.videos[|c.videos|].megaFileId == req.megaFileId
            && exists k :: 0 <= k < |c.videos| && r.0.videos[k].megaFileId == req.megaFileId
  {
    var r := ImportMegaVideo(c, known, req, ownerId, newId, Ok(url));
    var k :| 0 <= k < |c.videos| && c.videos[k].megaFileId == Some(req.megaFileId.value);
    assert r.0.videos == c.videos + [AdminImportedVideo(req, ownerId, newId, url)];
    assert r.0.videos[k].megaFileId == req.megaFileId;
  }

  // ---------------------------------------------------------------------------
  // The service calls as the routes make them
  // ---------------------------------------------------------------------------

  /** The message of the `TypeError` raised when a route calls a method the service object does not define. */
  function NotAFunction(name: string): (m: string)
    ensures "megaService." <= m && |m| > |"megaService."| + |name|
    ensures m[|"megaService."|..|"megaService."| + |name|] == name
  {
    "megaService." + name + " is not a function"
  }

  /** The `TypeError` for a method whose name has no `b` and no `B` is not taken for a blocked account. */
  lemma NotAFunctionNotBlocked(name: string)
    requires 'b' !in name && 'B' !in name
    ensures !IsBlockedError(NotAFunction(name))
  {
    var m := NotAFunction(name);
    assert m == "megaService." + name + " is not a function";
    assert 'b' !in "megaService." && 'b' !in " is not a function";
    assert 'B' !in "megaService." && 'B' !in " is not a function";
    assert 'b' !in m && 'B' !in m;
    MissingCharNotIncluded(m, "blocked", 'b');
    MissingCharNotIncluded(m, "EBLOCKED", 'B');
  }

  const RecursiveListingMissing: string := NotAFunction("listAllVideoFilesRecursive")
  const DownloadLinkMissing: string := NotAFunction("getFileDownloadLink")

  /**
   * `GET /mega-videos` with the service as it is: `listAllVideoFilesRecursive`
   * is not a method of the service, so the first call throws a `TypeError`
   * whose message names neither blocked spelling. The route never reaches
   * the fallback folder or the catalogue, and always answers 500.
   */
  function MegaVideosAsWritten(folder: Result<seq<RemoteFile>>, db: Result<seq<Video>>): (r: (bool, MegaVideosResponse))
    ensures !r.0 && r.1.ServerError?
  {
    assert 'b' !in "listAllVideoFilesRecursive" && 'B' !in "listAllVideoFilesRecursive";
    NotAFunctionNotBlocked("listAllVideoFilesRecursive");
    MegaVideos(Err(RecursiveListingMissing), folder, db)
  }

  /** With the service as it is, neither the fallback folder nor the catalogue makes any difference to `GET /mega-videos`. */
  lemma MegaVideosAsWrittenIgnoresInputs(folder: Result<seq<RemoteFile>>, db: Result<seq<Video>>,
                                         folder2: Result<seq<RemoteFile>>, db2: Result<seq<Video>>)
    ensures MegaVideosAsWritten(folder, db) == MegaVideosAsWritten(folder2, db2)
  {
  }

  /**
   * `POST /import-mega-video` with the service as it is: `getFileDownloadLink`
   * is not a method of the service, so every request that passes the field
   * check throws before the video row is written, and the answer is 500.
   */
  function ImportMegaVideoAsWritten(c: Catalogue, known: set<string>, req: ImportRequest, ownerId: string, newId: string)
    : (r: (Catalogue, ImportResponse, bool))
    ensures r.0 == c && r.1.created.None?
    ensures r.1.status == (if Present(req.megaFileId) && Present(req.title) then 500 else 400)
  {
    ImportMegaVideo(c, known, req, ownerId, newId, Err(DownloadLinkMissing))
  }

  // ---------------------------------------------------------------------------
  // GET /videos and POST /fix-users-roles
  // ---------------------------------------------------------------------------

  datatype Pagination = Pagination(page: int, limit: int, total: nat, pages: Option<int>)

  /**
   * `GET /videos`: one page (`page` defaulting to 1, `limit` to 20) of the
   * whole catalogue, newest first, and the page count.
   */
  function AdminVideos(c: Catalogue, page: Option<int>, limit: Option<int>): (r: Result<(seq<Video>, Pagination)>)
    ensures r.Ok? <==> Servable(page.GetOr(DefaultPage), limit.GetOr(DefaultLimit))
    ensures r.Ok? ==>
              var p := page.GetOr(DefaultPage);
              var l := limit.GetOr(DefaultLimit);
              && r.value.0 == Window(NewestFirst(c.videos), p, l).value
              && r.value.1 == Pagination(p, l, |c.videos|, PageCount(|c.videos|, l))
  {
    var p := page.GetOr(DefaultPage);
    var l := limit.GetOr(DefaultLimit);
    var w := Window(NewestFirst(c.videos), p, l);
    if w.Err? then Err(w.message)
    else Ok((w.value, Pagination(p, l, |c.videos|, PageCount(|c.videos|, l))))
  }

  /** `?page=0&limit=0` is served: an empty page, the total, and no page count (`Math.ceil(total / 0)`). */
  lemma PageZeroLimitZeroServed(c: Catalogue)
    ensures AdminVideos(c, Some(0), Some(0)) == Ok(([], Pagination(0, 0, |c.videos|, None)))
  {
    ZeroLimitServesEmptyPage(NewestFirst(c.videos), 0);
  }

  /** The video added last opens the first page of the admin list. */
  lemma AddedVideoHeadsAdminList(c: Catalogue, v: Video, collectionId: Option<string>)
    ensures var l := AdminVideos(AddVideo(c, v, collectionId), None, None);
            l.Ok? && |l.value.0| > 0 && l.value.0[0] == v
  {
    NewestFirstOfCreated(c.videos, v);
    assert Skip(DefaultPage, DefaultLimit) == 0;
  }

  /** `POST /fix-users-roles`: the role repair over the route's six addresses. */
  function FixUsersRoles(roles: RoleRepair.RoleTable): (r: (RoleRepair.RoleTable, seq<RoleRepair.Correction>))
    ensures |r.1| == |RoleRepair.RouteAdminEmails| == 6
    ensures r.0.Keys == roles.Keys
    ensures forall e :: e in roles && e in RoleRepair.RouteAdminEmails ==> r.0[e] == RoleRepair.Accounts.ADMIN
    ensures forall e :: e in roles && e !in RoleRepair.RouteAdminEmails ==> r.0[e] == roles[e]
  {
    RoleRepair.FixUserRoles(roles, RoleRepair.RouteAdminEmails)
  }
}

=== FILE: analytics.dfy ===
/**
 * The viewing heatmap of one video: the video's duration is cut into
 * 5-second buckets, every PLAY, SEEK and TIMEUPDATE event of the video is
 * counted in the bucket of its position, and the buckets holding the
 * largest count are reported in order.
 */
module Analytics {
  import opened Common
  import Paging

  const BucketSize: nat := 5

  datatype EventType = PLAY | PAUSE | SEEK | TIMEUPDATE | OtherEvent(name: string)

  /** A recorded event; positions are whole seconds (a fractional position falls in the same bucket as its floor). */
  datatype VideoEvent = VideoEvent(videoId: string, eventType: EventType, position: int)

  /** The events the heatmap reads for `videoId`. */
  predicate Counted(e: VideoEvent, videoId: string)
  {
    e.videoId == videoId && (e.eventType == PLAY || e.eventType == SEEK || e.eventType == TIMEUPDATE)
  }

  /**
   * `Array(Math.ceil(duration / 5))`: the least number of buckets covering
   * the duration. A duration above -5 and at most 0 gives a ceiling of
   * zero (or minus zero), hence no buckets; a duration of -5 or less gives
   * a negative length, which `Array` rejects.
   */
  function BucketCount(duration: int): (r: Result<nat>)
    ensures r.Ok? <==> duration > -5
    ensures duration >= 0 ==> r == Ok(Paging.PageCount(duration, BucketSize).value)
    ensures r.Ok? ==> r.value * BucketSize >= duration && (r.value == 0 || (r.value - 1) * BucketSize < duration)
  {
    if duration <= -5 then Err("Invalid array length")
    else if duration <= 0 then Ok(0)
    else
      var n := Paging.PageCount(duration, BucketSize).value;
      Ok(n)
  }

  /** Counted events of `videoId` among `events` whose position falls in bucket `i`. */
  function Hits(events: seq<VideoEvent>, videoId: string, i: int): nat
  {
    if |events| == 0 then 0
    else
      var e := events[|events| - 1];
      Hits(events[..|events| - 1], videoId, i) + (if Counted(e, videoId) && e.position / BucketSize == i then 1 else 0)
  }

  /** Counted events of `videoId` among `events`. */
  function CountedEvents(events: seq<VideoEvent>, videoId: string): (n: nat)
    ensures n <= |events|
    ensures n == 0 <==> forall i :: 0 <= i < |events| ==> !Counted(events[i], videoId)
    ensures n == |events| <==> forall i :: 0 <= i < |events| ==> Counted(events[i], videoId)
  {
    if |events| == 0 then 0
    else
      var init := events[..|events| - 1];
      assert forall i :: 0 <= i < |init| ==> init[i] == events[i];
      CountedEvents(init, videoId) + (if Counted(events[|events| - 1], videoId) then 1 else 0)
  }

  /** Every counted event of `videoId` falls within the `count` buckets. */
  predicate WithinBuckets(events: seq<VideoEvent>, videoId: string, count: nat)
  {
    forall i :: 0 <= i < |events| && Counted(events[i], videoId) ==> 0 <= events[i].position < BucketSize * count
  }

  function Sum(s: seq<nat>): nat
  {
    if |s| == 0 then 0 else Sum(s[..|s| - 1]) + s[|s| - 1]
  }

  lemma {:induction false} SumIncrement(s: seq<nat>, b: nat)
    requires b < |s|
    ensures Sum(s[b := s[b] + 1]) == Sum(s) + 1
    decreases |s|
  {
    var t := s[b := s[b] + 1];
    if b == |s| - 1 {
      assert t[..|t| - 1] == s[..|s| - 1];
    } else {
      assert t[..|t| - 1] == s[..|s| - 1][b := s[b] + 1];
      SumIncrement(s[..|s| - 1], b);
    }
  }

  /**
   * The counting pass: bucket `i` holds the number of counted events whose
   * position lies in `[5i, 5i + 5)`; an event beyond the last bucket, or
   * before the first, is dropped. The buckets together hold at most as many
   * hits as there are counted events, and exactly as many when every
   * counted event lies within the buckets.
   */
  method CountBuckets(count: nat, videoId: string, events: seq<VideoEvent>) returns (buckets: seq<nat>)
    ensures |buckets| == count
    ensures forall i :: 0 <= i < count ==> buckets[i] == Hits(events, videoId, i)
    ensures Sum(buckets) <= CountedEvents(events, videoId) <= |events|
    ensures WithinBuckets(events, videoId, count) ==> Sum(buckets) == CountedEvents(events, videoId)
  {
    buckets := seq(count, _ => 0);
    var k := 0;
    while k < |events|
      invariant 0 <= k <= |events|
      invariant buckets == Tallied(events[..k], videoId, count)
    {
      assert events[..k + 1][..k] == events[..k];
      buckets := Tally(buckets, events[k], videoId);
      k := k + 1;
    }
    assert events[..|events|] == events;
    TalliedHits(events, videoId, count);
    TalliedSum(events, videoId, count);
  }

  /**
   * `if (bucketIndex < bucketCount) buckets[bucketIndex]++` for one event:
   * the bucket its position falls in gains one when the event is counted,
   * and an event outside every bucket is dropped.
   */
  function Tally(buckets: seq<nat>, e: VideoEvent, videoId: string): (r: seq<nat>)
    ensures |r| == |buckets|
    ensures forall i :: 0 <= i < |r| ==>
              r[i] == buckets[i] + (if Counted(e, videoId) && e.position / BucketSize == i then 1 else 0)
    ensures Sum(r) == Sum(buckets) + (if Counted(e, videoId) && 0 <= e.position / BucketSize < |buckets| then 1 else 0)
  {
    if Counted(e, videoId) && 0 <= e.position / BucketSize < |buckets| then
      var b := e.position / BucketSize;
      SumIncrement(buckets, b);
      buckets[b := buckets[b] + 1]
    else buckets
  }

  /** The buckets after tallying `events` in order, starting from `count` empty buckets. */
  function Tallied(events: seq<VideoEvent>, videoId: string, count: nat): (r: seq<nat>)
    ensures |r| == count
  {
    if |events| == 0 then seq(count, _ => 0)
    else Tally(Tallied(events[..|events| - 1], videoId, count), events[|events| - 1], videoId)
  }

  /** Bucket `i` of the tally counts the hits of bucket `i`. */
  lemma {:induction false} TalliedHits(events: seq<VideoEvent>, videoId: string, count: nat)
    ensures forall i :: 0 <= i < count ==> Tallied(events, videoId, count)[i] == Hits(events, videoId, i)
  {
    if |events| > 0 {
      TalliedHits(events[..|events| - 1], videoId, count);
    }
  }

  /** The tally never holds more than the counted events, and holds all of them when they lie within the buckets. */
  lemma {:induction false} TalliedSum(events: seq<VideoEvent>, videoId: string, count: nat)
    ensures Sum(Tallied(events, videoId, count)) <= CountedEvents(events, videoId)
    ensures WithinBuckets(events, videoId, count) ==> Sum(Tallied(events, videoId, count)) == CountedEvents(events, videoId)
  {
    if |events| == 0 {
      ZeroSum(count);
    } else {
      var init := events[..|events| - 1];
      var e := events[|events| - 1];
      TalliedSum(init, videoId, count);
      if WithinBuckets(events, videoId, count) {
        assert forall i :: 0 <= i < |init| ==> init[i] == events[i];
        assert WithinBuckets(init, videoId, count);
        if Counted(e, videoId) {
          InBucketRange(e.position, count);
        }
      }
    }
  }

  /** A position within `count` buckets names one of them. */
  lemma InBucketRange(position: int, count: nat)
    requires 0 <= position < BucketSize * count
    ensures 0 <= position / BucketSize < count
  {
  }

  lemma {:induction false} ZeroSum(count: nat)
    ensures Sum(seq(count, _ => 0)) == 0
  {
    if count > 0 {
      assert seq(count, _ => 0)[..count - 1] == seq(count - 1, _ => 0);
      ZeroSum(count - 1);
    }
  }

  // ---------------------------------------------------------------------------
  // most repeated buckets
  // ---------------------------------------------------------------------------

  datatype Bucket = Bucket(start: int, end: int, count: nat)

  /** `Math.max(...buckets)` for a non-empty list. */
  function MaxCount(buckets: seq<nat>): (m: nat)
    requires |buckets| > 0
    ensures forall i :: 0 <= i < |buckets| ==> buckets[i] <= m
    ensures exists i :: 0 <= i < |buckets| && buckets[i] == m
  {
    if |buckets| == 1 then buckets[0]
    else
      var m := MaxCount(buckets[1..]);
      assert forall i :: 1 <= i < |buckets| ==> buckets[i] == buckets[1..][i - 1];
      if buckets[0] >= m then buckets[0] else m
  }

  /** The bucket object for index `i`. */
  function BucketAt(buckets: seq<nat>, i: nat): Bucket
    requires i < |buckets|
  {
    Bucket(i * BucketSize, (i + 1) * BucketSize, buckets[i])
  }

  /** Indices from `from` on whose count is `m`, in increasing order. */
  function Collect(buckets: seq<nat>, m: nat, from: nat): (r: seq<nat>)
    requires from <= |buckets|
    ensures forall j :: 0 <= j < |r| ==> from <= r[j] < |buckets| && buckets[r[j]] == m
    ensures forall j, j' :: 0 <= j < j' < |r| ==> r[j] < r[j']
    ensures forall i :: from <= i < |buckets| && buckets[i] == m ==> i in r
    decreases |buckets| - from
  {
    if from == |buckets| then []
    else
      var rest := Collect(buckets, m, from + 1);
      if buckets[from] == m then
        var r := [from] + rest;
        assert forall j :: 1 <= j < |r| ==> r[j] == rest[j - 1];
        r
      else rest
  }

  /** The bucket objects for a list of valid indices. */
  function BucketsAt(buckets: seq<nat>, idx: seq<nat>): (r: seq<Bucket>)
    requires forall j :: 0 <= j < |idx| ==> idx[j] < |buckets|
    ensures |r| == |idx|
    ensures forall j :: 0 <= j < |r| ==> r[j] == BucketAt(buckets, idx[j])
  {
    seq(|idx|, j requires 0 <= j < |idx| => BucketAt(buckets, idx[j]))
  }

  /** Each bucket's start is a multiple of the bucket size and gives back its index. */
  lemma BucketsAtStarts(buckets: seq<nat>, idx: seq<nat>)
    requires forall j :: 0 <= j < |idx| ==> idx[j] < |buckets|
    ensures forall j :: 0 <= j < |idx| ==>
              BucketsAt(buckets, idx)[j].start % BucketSize == 0 && BucketsAt(buckets, idx)[j].start / BucketSize == idx[j]
  {
    var r := BucketsAt(buckets, idx);
    forall j | 0 <= j < |idx|
      ensures r[j].start % BucketSize == 0 && r[j].start / BucketSize == idx[j]
    {
      assert r[j].start == idx[j] * BucketSize;
    }
  }

  /** Increasing indices give increasing starts. */
  lemma BucketsAtOrdered(buckets: seq<nat>, idx: seq<nat>)
    requires forall j :: 0 <= j < |idx| ==> idx[j] < |buckets|
    requires forall j, j' :: 0 <= j < j' < |idx| ==> idx[j] < idx[j']
    ensures forall j, j' :: 0 <= j < j' < |idx| ==> BucketsAt(buckets, idx)[j].start < BucketsAt(buckets, idx)[j'].start
  {
    var r := BucketsAt(buckets, idx);
    forall j, j' | 0 <= j < j' < |idx|
      ensures r[j].start < r[j'].start
    {
      assert r[j].start == idx[j] * BucketSize && r[j'].start == idx[j'] * BucketSize;
    }
  }

  /**
   * The most repeated segments: exactly the buckets whose count is the
   * maximum, each as `[5i, 5i + 5)` with its count, by increasing start.
   * With no buckets the maximum is `-Infinity` and the list is empty.
   */
  function MostRepeated(buckets: seq<nat>): (r: seq<Bucket>)
    ensures |r| == 0 <==> |buckets| == 0
    ensures forall j :: 0 <= j < |r| ==>
              r[j].start % BucketSize == 0 && 0 <= r[j].start / BucketSize < |buckets|
              && r[j] == BucketAt(buckets, r[j].start / BucketSize)
              && forall i :: 0 <= i < |buckets| ==> buckets[i] <= r[j].count
    ensures forall j, j' :: 0 <= j < j' < |r| ==> r[j].start < r[j'].start
    ensures forall i :: 0 <= i < |buckets| && (forall i' :: 0 <= i' < |buckets| ==> buckets[i'] <= buckets[i]) ==>
              BucketAt(buckets, i) in r
  {
    if |buckets| == 0 then []
    else
      var m := MaxCount(buckets);
      var idx := Collect(buckets, m, 0);
      var r := BucketsAt(buckets, idx);
      BucketsAtStarts(buckets, idx);
      BucketsAtOrdered(buckets, idx);
      MaximaCollected(buckets, m, idx);
      r
  }

  /** Every bucket at the maximum is among the collected ones. */
  lemma MaximaCollected(buckets: seq<nat>, m: nat, idx: seq<nat>)
    requires |buckets| > 0 && m == MaxCount(buckets) && idx == Collect(buckets, m, 0)
    ensures |idx| > 0
    ensures forall i :: 0 <= i < |buckets| && (forall i' :: 0 <= i' < |buckets| ==> buckets[i'] <= buckets[i]) ==>
              BucketAt(buckets, i) in BucketsAt(buckets, idx)
  {
    var r := BucketsAt(buckets, idx);
    var w :| 0 <= w < |buckets| && buckets[w] == m;
    assert w in idx;
    forall i | 0 <= i < |buckets| && (forall i' :: 0 <= i' < |buckets| ==> buckets[i'] <= buckets[i])
      ensures BucketAt(buckets, i) in r
    {
      assert buckets[w] <= buckets[i];
      assert i in idx;
      var j :| 0 <= j < |idx| && idx[j] == i;
      assert r[j] == BucketAt(buckets, i);
    }
  }

  // ---------------------------------------------------------------------------
  // GET /:videoId/heatmap
  // ---------------------------------------------------------------------------

  datatype HeatmapResponse =
    | VideoNotFound
    | HeatmapFailed
    | Heatmap(videoId: string, duration: int, bucketSize: nat, heatmap: seq<nat>, mostRepeated: seq<Bucket>)

  /**
   * `GET /:videoId/heatmap` over the catalogue's durations and the event
   * log: 404 for an unknown video, 500 when the duration gives an invalid
   * bucket count, otherwise the buckets and the most repeated ones.
   */
  method BuildHeatmap(durations: map<string, int>, videoId: string, events: seq<VideoEvent>) returns (r: HeatmapResponse)
    ensures videoId !in durations <==> r.VideoNotFound?
    ensures videoId in durations ==> (r.HeatmapFailed? <==> durations[videoId] <= -5)
    ensures r.Heatmap? ==>
              && r.videoId == videoId && r.duration == durations[videoId] && r.bucketSize == BucketSize
              && |r.heatmap| == BucketCount(durations[videoId]).value
              && (forall i :: 0 <= i < |r.heatmap| ==> r.heatmap[i] == Hits(events, videoId, i))
              && Sum(r.heatmap) <= |events|
              && r.mostRepeated == MostRepeated(r.heatmap)
  {
    if videoId !in durations {
      return VideoNotFound;
    }
    var count := BucketCount(durations[videoId]);
    if count.Err? {
      return HeatmapFailed;
    }
    var buckets := CountBuckets(count.value, videoId, events);
    r := Heatmap(videoId, durations[videoId], BucketSize, buckets, MostRepeated(buckets));
  }

  /** Events of other videos and events that are not PLAY, SEEK or TIMEUPDATE never count. */
  lemma {:induction false} HitsIgnoreUncounted(events: seq<VideoEvent>, videoId: string, e: VideoEvent, i: int)
    requires !Counted(e, videoId)
    ensures Hits(events + [e], videoId, i) == Hits(events, videoId, i)
  {
    assert (events + [e])[..|events + [e]| - 1] == events;
  }
}

=== FILE: auth_middleware.dfy ===
/**
 * The request guards: `authenticateToken` takes the bearer token from the
 * Authorization header, has it verified, and loads its user;
 * `requireAdmin` lets through active ADMIN and EDITOR accounts. Token
 * verification is an oracle from a token to its verdict.
 */
module AuthMiddleware {
  import opened Common
  import opened Strings
  import opened Accounts

  /** The second space-separated field of the header, when there is a header and that field is not empty. */
  function ExtractToken(header: Option<string>): (r: Option<string>)
    ensures header.None? || header == Some("") ==> r.None?
    ensures header.Some? && header.value != "" ==>
              (r.Some? <==> |Split(header.value, ' ')| >= 2 && Split(header.value, ' ')[1] != "")
    ensures r.Some? ==> r.value != "" && ' ' !in r.value && r.value == Split(header.value, ' ')[1]
  {
    if header.None? || header.value == "" then None
    else
      var parts := Split(header.value, ' ');
      if |parts| >= 2 && parts[1] != "" then Some(parts[1]) else None
  }

  /**
   * `Bearer <token>` yields the token, whatever follows a further space; so
   * does any one-word scheme.
   */
  lemma BearerRoundTrip(scheme: string, token: string, rest: Option<string>)
    requires ' ' !in scheme && ' ' !in token && token != ""
    requires rest.Some? ==> ' ' !in rest.value
    ensures var header := scheme + " " + token + (if rest.Some? then " " + rest.value else "");
            ExtractToken(Some(header)) == Some(token)
  {
    var tail := if rest.Some? then [rest.value] else [];
    var parts := [scheme, token] + tail;
    var header := scheme + " " + token + (if rest.Some? then " " + rest.value else "");
    assert Join(parts, ' ') == header by {
      if rest.Some? {
        assert parts[1..] == [token, rest.value];
        assert Join([token, rest.value], ' ') == token + " " + rest.value;
        assert Join(parts, ' ') == scheme + " " + (token + " " + rest.value);
      } else {
        assert parts[1..] == [token];
      }
    }
    SplitJoin(parts, ' ');
  }

  /** A header without a space has no token. */
  lemma OneWordHeaderRejected(header: string)
    requires ' ' !in header
    ensures ExtractToken(Some(header)).None?
  {
    SplitNoSeparator(header, ' ');
  }

  /** What `jwt.verify` does with a token: its payload's user id, or the name of the error it throws. */
  datatype Verdict = Valid(userId: string) | Expired | Malformed | OtherFailure

  datatype AuthOutcome = Rejected(status: nat, error: string) | Authenticated(user: User)

  /**
   * `authenticateToken`. Without a token: 401. An expired token: 401; a
   * malformed one, any other verification error, and a failing user lookup
   * (`lookupFails`): 403. A valid token for an unknown user: 401. Otherwise
   * the user is attached, whether or not the account is active.
   */
  function Authenticate(header: Option<string>, verify: string -> Verdict, users: seq<User>, lookupFails: bool)
    : (r: AuthOutcome)
    ensures ExtractToken(header).None? ==> r == Rejected(401, "Access token required")
    ensures ExtractToken(header).Some? ==>
              var v := verify(ExtractToken(header).value);
              && (v == Expired ==> r == Rejected(401, "Token expired"))
              && (v == Malformed ==> r == Rejected(403, "Invalid token"))
              && (v == OtherFailure ==> r == Rejected(403, "Token verification failed"))
              && (v.Valid? && lookupFails ==> r == Rejected(403, "Token verification failed"))
              && (v.Valid? && !lookupFails ==>
                    (r.Authenticated? <==> FindById(users, v.userId).Some?)
                    && (r.Rejected? ==> r == Rejected(401, "User not found"))
                    && (r.Authenticated? ==> r.user.id == v.userId && r.user in users))
  {
    match ExtractToken(header)
    case None => Rejected(401, "Access token required")
    case Some(token) =>
      match verify(token)
      case Expired => Rejected(401, "Token expired")
      case Malformed => Rejected(403, "Invalid token")
      case OtherFailure => Rejected(403, "Token verification failed")
      case Valid(uid) =>
        if lookupFails then Rejected(403, "Token verification failed")
        else
          match FindById(users, uid)
          case None => Rejected(401, "User not found")
          case Some(i) => Authenticated(users[i])
  }

  /** A deactivated account still authenticates; only `requireAdmin` looks at the flag. */
  lemma DeactivatedUserAuthenticates(header: Option<string>, verify: string -> Verdict, users: seq<User>, i: nat)
    requires ExtractToken(header).Some? && i < |users| && WellFormed(users)
    requires verify(ExtractToken(header).value) == Valid(users[i].id)
    requires users[i].isActive == Some(false)
    ensures Authenticate(header, verify, users, false) == Authenticated(users[i])
  {
    assert FindById(users, users[i].id) == Some(i);
  }

  datatype Decision = Pass | Deny(status: nat, error: string)

  predicate AdminRole(role: Role)
  {
    role == ADMIN || role == EDITOR
  }

  /**
   * `requireAdmin`: 401 without a user; 403 `Account deactivated` for an
   * account whose flag is `false` (checked before the role); 403 for a role
   * other than ADMIN or EDITOR; otherwise the request passes.
   */
  function RequireAdmin(user: Option<User>): (r: Decision)
    ensures r == Pass <==> user.Some? && user.value.isActive != Some(false) && AdminRole(user.value.role)
    ensures user.None? ==> r == Deny(401, "Authentication required")
    ensures user.Some? && user.value.isActive == Some(false) ==> r == Deny(403, "Account deactivated")
    ensures user.Some? && user.value.isActive != Some(false) && !AdminRole(user.value.role) ==>
              r == Deny(403, "Admin access required")
  {
    if user.None? then Deny(401, "Authentication required")
    else if user.value.isActive == Some(false) then Deny(403, "Account deactivated")
    else if !AdminRole(user.value.role) then Deny(403, "Admin access required")
    else Pass
  }

  /** A `null` activity flag is not a deactivation. */
  lemma NullFlagIsActive(u: User)
    requires u.isActive.None? && AdminRole(u.role)
    ensures RequireAdmin(Some(u)) == Pass
  {
  }
}

=== FILE: auth_routes.dfy ===
/**
 * The account routes: signup and login. Password hashing, password
 * comparison and token signing are oracles.
 */
module AuthRoutes {
  import opened Common
  import opened Strings
  import opened Accounts

  const FieldsRequiredMessage: string := "Email and password are required"
  const InvalidCredentials: string := "Invalid credentials"

  predicate Present(o: Option<string>)
  {
    o.Some? && o.value != ""
  }

  /**
   * The account as the routes return it: only the id, e-mail, display name
   * and role are selected, so the password hash never leaves the route.
   * (Login also returns `avatarUrl`, which the model does not keep.)
   */
  datatype PublicUser = PublicUser(id: string, email: string, displayName: string, role: Role)

  function Public(u: User): (p: PublicUser)
    ensures p.id == u.id && p.email == u.email && p.displayName == u.displayName && p.role == u.role
  {
    PublicUser(u.id, u.email, u.displayName, u.role)
  }

  datatype Reply = Reply(status: nat, error: Option<string>, user: Option<PublicUser>, token: Option<string>)

  // ---------------------------------------------------------------------------
  // POST /signup
  // ---------------------------------------------------------------------------

  datatype SignupBody = SignupBody(email: Option<string>, password: Option<string>, displayName: Option<string>)

  /**
   * `POST /signup`: 400 without an e-mail or a password; 400 and no write
   * when the e-mail, compared exactly as sent, is taken; otherwise a USER
   * account is appended with the e-mail as sent, the display name
   * defaulting to the e-mail's local part, the `system` theme with
   * notifications on, and a token is signed for its id.
   */
  function Signup(users: seq<User>, body: SignupBody, newId: string, hash: string -> string, sign: string -> string)
    : (r: (seq<User>, Reply))
    ensures !Present(body.email) || !Present(body.password) ==> r == (users, Reply(400, Some(FieldsRequiredMessage), None, None))
    ensures Present(body.email) && Present(body.password) && FindByEmail(users, body.email.value).Some? ==>
              r == (users, Reply(400, Some("User already exists"), None, None))
    ensures r.1.status == 201 <==> Present(body.email) && Present(body.password) && FindByEmail(users, body.email.value).None?
    ensures r.1.status == 201 ==>
              && |r.0| == |users| + 1 && r.0[..|users|] == users
              && r.1.user == Some(Public(r.0[|users|])) && r.1.token == Some(sign(newId))
              && var u := r.0[|users|];
              && u.id == newId && u.email == body.email.value && u.role == USER
              && u.passwordHash == hash(body.password.value)
              && u.displayName == (if Present(body.displayName) then body.displayName.value else LocalPart(body.email.value))
              && u.preferences == Some(Preferences("system", true))
  {
    if !Present(body.email) || !Present(body.password) then (users, Reply(400, Some(FieldsRequiredMessage), None, None))
    else if FindByEmail(users, body.email.value).Some? then (users, Reply(400, Some("User already exists"), None, None))
    else
      var email := body.email.value;
      var u := User(newId, email, if Present(body.displayName) then body.displayName.value else LocalPart(email),
                    USER, Some(true), false, hash(body.password.value), Some(Preferences("system", true)));
      (users + [u], Reply(201, None, Some(Public(u)), Some(sign(newId))))
  }

  /** Signup does not fold case: an address differing only in case from a registered one is accepted. */
  lemma CaseVariantSignsUp(users: seq<User>, newId: string, hash: string -> string, sign: string -> string)
    requires FindByEmail(users, "Ana@x.io").Some? && FindByEmail(users, "ana@x.io").None?
    ensures Signup(users, SignupBody(Some("ana@x.io"), Some("pw"), None), newId, hash, sign).1.status == 201
  {
  }

  // ---------------------------------------------------------------------------
  // POST /login
  // ---------------------------------------------------------------------------

  datatype LoginBody = LoginBody(email: Option<string>, password: Option<string>)

  /**
   * `POST /login`: 400 without an e-mail or a password; the same 401
   * `Invalid credentials` for an unknown e-mail and for a wrong password;
   * otherwise the account and a token signed for its id. `matches` is the
   * password comparison against the stored hash.
   */
  function Login(users: seq<User>, body: LoginBody, matches: (string, string) -> bool, sign: string -> string): (r: Reply)
    ensures !Present(body.email) || !Present(body.password) ==> r == Reply(400, Some(FieldsRequiredMessage), None, None)
    ensures r.status == 200 <==>
              Present(body.email) && Present(body.password) && FindByEmail(users, body.email.value).Some?
              && matches(body.password.value, users[FindByEmail(users, body.email.value).value].passwordHash)
    ensures r.status == 200 ==>
              var u := users[FindByEmail(users, body.email.value).value];
              r == Reply(200, None, Some(Public(u)), Some(sign(u.id)))
    ensures Present(body.email) && Present(body.password) && r.status != 200 ==>
              r == Reply(401, Some(InvalidCredentials), None, None)
  {
    if !Present(body.email) || !Present(body.password) then Reply(400, Some(FieldsRequiredMessage), None, None)
    else match FindByEmail(users, body.email.value)
      case None => Reply(401, Some(InvalidCredentials), None, None)
      case Some(i) =>
        if !matches(body.password.value, users[i].passwordHash) then Reply(401, Some(InvalidCredentials), None, None)
        else Reply(200, None, Some(Public(users[i])), Some(sign(users[i].id)))
  }

  /** An unknown address and a wrong password for a known one get the same answer. */
  lemma UnknownEmailLooksLikeWrongPassword(users: seq<User>, unknown: string, known: string, password: string,
                                           matches: (string, string) -> bool, sign: string -> string)
    requires unknown != "" && known != "" && password != ""
    requires FindByEmail(users, unknown).None? && FindByEmail(users, known).Some?
    requires !matches(password, users[FindByEmail(users, known).value].passwordHash)
    ensures Login(users, LoginBody(Some(unknown), Some(password)), matches, sign)
         == Login(users, LoginBody(Some(known), Some(password)), matches, sign)
  {
  }

  /**
   * Signup then login: with a comparison that accepts a password against
   * its own hash, the account just created logs in with the same address
   * and password and gets the same token.
   */
  lemma SignupThenLogin(users: seq<User>, body: SignupBody, newId: string, hash: string -> string,
                        matches: (string, string) -> bool, sign: string -> string)
    requires Present(body.email) && Present(body.password) && FindByEmail(users, body.email.value).None?
    requires matches(body.password.value, hash(body.password.value))
    ensures var s := Signup(users, body, newId, hash, sign);
            var l := Login(s.0, LoginBody(body.email, body.password), matches, sign);
            l.status == 200 && l.user == s.1.user && l.token == s.1.token
  {
    var s := Signup(users, body, newId, hash, sign);
    assert FindByEmail(s.0, body.email.value) == Some(|users|) by {
      FindByEmailAppended(users, s.0[|users|]);
    }
  }

  lemma FindByEmailAppended(users: seq<User>, u: User)
    requires FindByEmail(users, u.email).None?
    ensures FindByEmail(users + [u], u.email) == Some(|users|)
  {
    var t := users + [u];
    assert t[|users|].email == u.email;
    assert forall j :: 0 <= j < |users| ==> t[j].email != u.email by {
      forall j | 0 <= j < |users| ensures t[j].email != u.email {
        assert t[j] == users[j];
      }
    }
  }

  /** Login does not look at the activity flag: a deactivated account with the right password logs in. */
  lemma DeactivatedAccountLogsIn(users: seq<User>, i: nat, password: string,
                                 matches: (string, string) -> bool, sign: string -> string)
    requires WellFormed(users) && i < |users| && users[i].email != "" && password != ""
    requires users[i].isActive == Some(false) && matches(password, users[i].passwordHash)
    ensures Login(users, LoginBody(Some(users[i].email), Some(password)), matches, sign).status == 200
  {
    assert FindByEmail(users, users[i].email) == Some(i);
  }
}

=== FILE: catalog.dfy ===
/**
 * The video catalogue as the routes see it, and the decisions several
 * routes share: tag normalisation, the "already imported" marking of
 * remote files against the catalogue's MEGA ids, the split of marked files
 * into not-imported and already-imported, and its statistics.
 */
module Catalog {
  import opened Common
  import opened Strings

  // ---------------------------------------------------------------------------
  // rows
  // ---------------------------------------------------------------------------

  datatype Thumbnail = NoThumbnail | ThumbnailUrl(url: string) | GeneratedThumbnail(title: string)

  /** The `metadata` a route records about where a video came from. */
  datatype Provenance =
    | NoProvenance
    | ImportedByAdmin
    | ImportedFromPublicFolder(originalName: Option<string>, fileSize: Option<nat>)
    | Uploaded(uploadedName: string, uploadedSize: nat)

  datatype Video = Video(
    id: string,
    title: string,
    description: string,
    tags: seq<string>,
    megaFileId: Option<string>,
    megaFileUrl: Option<string>,
    thumbnail: Thumbnail,
    durationSeconds: int,
    ownerId: string,
    isPublished: bool,
    provenance: Provenance)

  /** A `collectionVideo` row: video `videoId` sits at `position` in collection `collectionId`. */
  datatype Placement = Placement(collectionId: string, videoId: string, position: int)

  datatype Catalogue = Catalogue(videos: seq<Video>, placements: seq<Placement>)

  predicate HasMegaId(videos: seq<Video>, id: string)
  {
    exists j :: 0 <= j < |videos| && videos[j].megaFileId == Some(id)
  }

  /**
   * Creating a video and, when a collection id is given, placing it first
   * in that collection. Nothing already in the catalogue changes.
   */
  function AddVideo(c: Catalogue, v: Video, collectionId: Option<string>): (r: Catalogue)
    ensures r.videos == c.videos + [v]
    ensures collectionId.Some? && collectionId.value != "" ==>
              r.placements == c.placements + [Placement(collectionId.value, v.id, 0)]
    ensures collectionId.None? || collectionId.value == "" ==> r.placements == c.placements
  {
    var placements :=
      if collectionId.Some? && collectionId.value != "" then c.placements + [Placement(collectionId.value, v.id, 0)]
      else c.placements;
    Catalogue(c.videos + [v], placements)
  }

  /**
   * Whether the placement `AddVideo` makes can be written: no collection is
   * named, or the named one exists (`known` holds the collection ids). For
   * an unknown id the placement's create throws after the video row has
   * been written, and the route answers 500 with the video kept.
   */
  predicate PlacementOk(known: set<string>, collectionId: Option<string>)
  {
    collectionId.None? || collectionId.value == "" || collectionId.value in known
  }

  // ---------------------------------------------------------------------------
  // tags
  // ---------------------------------------------------------------------------

  /** The `tags` field of a request body: absent, an array, or a comma-separated string. */
  datatype TagsInput = TagsAbsent | TagsArray(list: seq<string>) | TagsString(text: string)

  function TrimAll(parts: seq<string>): (r: seq<string>)
    ensures |r| == |parts|
    ensures forall i :: 0 <= i < |parts| ==> r[i] == Trim(parts[i])
  {
    if |parts| == 0 then [] else [Trim(parts[0])] + TrimAll(parts[1..])
  }

  /**
   * Tag normalisation: a falsy value (absent or the empty string) gives no
   * tags, an array is kept as it is, and a string is split on commas with
   * every piece trimmed. Pieces of a string never contain a comma, nor
   * start or end with white space.
   */
  function NormalizeTags(t: TagsInput): (r: seq<string>)
    ensures t.TagsAbsent? || t == TagsString("") ==> r == []
    ensures t.TagsArray? ==> r == t.list
    ensures t.TagsString? && t.text != "" ==>
              |r| == |Split(t.text, ',')|
              && forall i :: 0 <= i < |r| ==>
                   r[i] == Trim(Split(t.text, ',')[i]) && ',' !in r[i] && NoOuterSpace(r[i])
  {
    match t
    case TagsAbsent => []
    case TagsArray(list) => list
    case TagsString(text) =>
      if text == "" then []
      else
        var parts := Split(text, ',');
        var r := TrimAll(parts);
        assert forall i :: 0 <= i < |r| ==> ',' !in r[i] by {
          forall i | 0 <= i < |r|
            ensures ',' !in r[i]
          {
            TrimIsInfix(parts[i]);
          }
        }
        r
  }

  /** Trimming keeps only characters of the original. */
  lemma TrimIsInfix(s: string)
    ensures forall c :: c in Trim(s) ==> c in s
  {
    var r := Trim(s);
    var i :| TrimmedAt(s, r, i);
    SliceChars(s, i, i + |r|);
  }

  /** A slice holds only characters of the whole. */
  lemma SliceChars(s: string, i: nat, j: nat)
    requires i <= j <= |s|
    ensures forall c :: c in s[i..j] ==> c in s
  {
    forall c | c in s[i..j]
      ensures c in s
    {
      var k :| 0 <= k < j - i && s[i..j][k] == c;
      assert s[i + k] == c;
    }
  }

  /**
   * The round trip: tags without commas and without surrounding white space,
   * sent as one comma-joined string, come back exactly.
   */
  lemma TagsRoundTrip(tags: seq<string>)
    requires |tags| >= 2 || (|tags| == 1 && tags[0] != "")
    requires forall i :: 0 <= i < |tags| ==> ',' !in tags[i] && NoOuterSpace(tags[i])
    ensures NormalizeTags(TagsString(Join(tags, ','))) == tags
  {
    JoinNotEmpty(tags, ',');
    SplitJoin(tags, ',');
    TrimAllUntouched(tags);
  }

  /** Two or more pieces join to a string holding the separator; one non-empty piece joins to itself. */
  lemma JoinNotEmpty(parts: seq<string>, sep: char)
    requires |parts| >= 2 || (|parts| == 1 && parts[0] != "")
    ensures Join(parts, sep) != ""
  {
    if |parts| >= 2 {
      var s := Join(parts, sep);
      assert s == parts[0] + [sep] + Join(parts[1..], sep);
      assert s[|parts[0]|] == sep;
    }
  }

  /** Pieces with no white space at either end come out of the trimming unchanged. */
  lemma TrimAllUntouched(parts: seq<string>)
    requires forall i :: 0 <= i < |parts| ==> NoOuterSpace(parts[i])
    ensures TrimAll(parts) == parts
  {
    forall i | 0 <= i < |parts|
      ensures Trim(parts[i]) == parts[i]
    {
      TrimAround("", parts[i], "");
      assert "" + parts[i] + "" == parts[i];
    }
  }

  // ---------------------------------------------------------------------------
  // marking remote files against the catalogue
  // ---------------------------------------------------------------------------

  /** The first catalogue video whose MEGA id equals `key` (`null` matching `null`). */
  function FindByKey(videos: seq<Video>, key: Option<string>, from: nat := 0): (r: Option<nat>)
    requires from <= |videos|
    ensures r.Some? ==> from <= r.value < |videos| && videos[r.value].megaFileId == key
                        && forall j :: from <= j < r.value ==> videos[j].megaFileId != key
    ensures r.None? ==> forall j :: from <= j < |videos| ==> videos[j].megaFileId != key
  {
    FindFirst(videos, (v: Video) => v.megaFileId, key, from)
  }

  /** `j` is the first video carrying `key`. */
  predicate FirstWithKey(videos: seq<Video>, key: Option<string>, j: int)
  {
    0 <= j < |videos| && videos[j].megaFileId == key && forall i :: 0 <= i < j ==> videos[i].megaFileId != key
  }

  /**
   * `dbVideos.find(v => v.megaFileId === key)?.title || null`: the title of
   * the first video carrying the key, where an empty title counts as none.
   */
  function ExistingTitle(videos: seq<Video>, key: Option<string>): (r: Option<string>)
    ensures forall j :: FirstWithKey(videos, key, j) ==>
              r == (if videos[j].title != "" then Some(videos[j].title) else None)
    ensures r.Some? ==> r.value != "" && exists j :: 0 <= j < |videos| && videos[j].megaFileId == key
                                                     && videos[j].title == r.value
    ensures (forall j :: 0 <= j < |videos| ==> videos[j].megaFileId != key) ==> r.None?
  {
    match FindByKey(videos, key)
    case None => None
    case Some(j) => if videos[j].title != "" then Some(videos[j].title) else None
  }

  /** A remote file with the catalogue's verdict on it. */
  datatype Marked<T> = Marked(file: T, isInDatabase: bool, existingTitle: Option<string>)

  /**
   * `filter(file => file.isInDatabase === imported)`: exactly the marked
   * files with that verdict, in their original order.
   */
  function Select<T(==,!new)>(marked: seq<Marked<T>>, imported: bool): (r: seq<Marked<T>>)
    ensures |r| <= |marked|
    ensures forall m :: m in r <==> m in marked && m.isInDatabase == imported
    ensures IsSubsequence(r, marked)
  {
    if |marked| == 0 then []
    else
      var rest := Select(marked[1..], imported);
      assert forall m :: m in marked <==> m == marked[0] || m in marked[1..];
      if marked[0].isInDatabase == imported then
        var r := [marked[0]] + rest;
        assert r[1..] == rest;
        r
      else
        assert |rest| > 0 ==> IsSubsequence(rest, marked[1..]);
        rest
  }

  /** Every marked file lands in exactly one of the two lists. */
  lemma {:induction false} SelectPartitions<T(!new)>(marked: seq<Marked<T>>)
    ensures multiset(Select(marked, false)) + multiset(Select(marked, true)) == multiset(marked)
    ensures |Select(marked, false)| + |Select(marked, true)| == |marked|
  {
    if |marked| > 0 {
      SelectPartitions(marked[1..]);
      assert marked == [marked[0]] + marked[1..];
    }
  }

  /** The verdicts of a listing, in order. */
  function Verdicts<T>(marked: seq<Marked<T>>): (r: seq<bool>)
    ensures |r| == |marked|
    ensures forall i :: 0 <= i < |marked| ==> r[i] == marked[i].isInDatabase
  {
    if |marked| == 0 then [] else [marked[0].isInDatabase] + Verdicts(marked[1..])
  }

  /** A selection holds as many files as the listing has verdicts equal to its flag. */
  lemma {:induction false} SelectCountsVerdicts<T(!new)>(marked: seq<Marked<T>>, imported: bool)
    ensures |Select(marked, imported)| == multiset(Verdicts(marked))[imported]
  {
    if |marked| > 0 {
      SelectCountsVerdicts(marked[1..], imported);
      assert Verdicts(marked) == [marked[0].isInDatabase] + Verdicts(marked[1..]);
    }
  }

  datatype Stats = Stats(totalInMega: nat, notImported: nat, alreadyImported: nat)

  /**
   * The statistics of a listing: its size, the number of files not yet in
   * the catalogue and the number already there, as the lengths of the two
   * filtered lists.
   */
  function StatsOf<T(==,!new)>(marked: seq<Marked<T>>): (r: Stats)
    ensures r.notImported + r.alreadyImported == r.totalInMega == |marked|
    ensures r.notImported == |Select(marked, false)| && r.alreadyImported == |Select(marked, true)|
    ensures r.notImported == multiset(Verdicts(marked))[false]
    ensures r.alreadyImported == multiset(Verdicts(marked))[true]
  {
    SelectPartitions(marked);
    SelectCountsVerdicts(marked, false);
    SelectCountsVerdicts(marked, true);
    Stats(|marked|, |Select(marked, false)|, |Select(marked, true)|)
  }

  /** A listing of files all already in the catalogue has nothing left to import. */
  lemma AllImportedStats<T(!new)>(marked: seq<Marked<T>>)
    requires forall i :: 0 <= i < |marked| ==> marked[i].isInDatabase
    ensures StatsOf(marked) == Stats(|marked|, 0, |marked|)
  {
    assert false !in multiset(Verdicts(marked));
  }

  const EmptyStats := Stats(0, 0, 0)
}

=== FILE: collection_routes.dfy ===
/**
 * The collection routes: the listing with its featured filter, the
 * creation of a collection with its defaults (public and admin routes
 * alike), the read of one collection with its videos in position order,
 * and the favourite toggle.
 */
module CollectionRoutes {
  import opened Common
  import opened Catalog
  import Paging

  datatype Collection = Collection(
    id: string,
    name: string,
    description: string,
    thumbnailUrl: Option<string>,
    isFeatured: bool,
    createdById: string)

  predicate Given(o: Option<string>)
  {
    o.Some? && o.value != ""
  }

  // ---------------------------------------------------------------------------
  // GET /
  // ---------------------------------------------------------------------------

  function FeaturedOnly(cols: seq<Collection>): (r: seq<Collection>)
    ensures forall x :: x in r <==> x in cols && x.isFeatured
    ensures IsSubsequence(r, cols)
  {
    if |cols| == 0 then []
    else
      var rest := FeaturedOnly(cols[1..]);
      assert forall x :: x in cols <==> x == cols[0] || x in cols[1..];
      if cols[0].isFeatured then [cols[0]] + rest else rest
  }

  /**
   * `GET /`: the featured collections when `featured` is exactly `true`,
   * all of them otherwise, newest first.
   */
  function ListCollections(cols: seq<Collection>, featured: Option<string>): (r: seq<Collection>)
    ensures featured == Some("true") ==> r == Paging.NewestFirst(FeaturedOnly(cols))
    ensures featured != Some("true") ==> r == Paging.NewestFirst(cols)
    ensures featured == Some("true") ==> forall x :: x in r <==> x in cols && x.isFeatured
    ensures featured != Some("true") ==> forall x :: x in r <==> x in cols
  {
    var rows := if featured == Some("true") then FeaturedOnly(cols) else cols;
    var r := Paging.NewestFirst(rows);
    assert forall x :: x in r <==> x in rows by {
      forall x | x in r ensures x in rows {
        var i :| 0 <= i < |r| && r[i] == x;
        assert rows[|rows| - 1 - i] == x;
      }
      forall x | x in rows ensures x in r {
        var i :| 0 <= i < |rows| && rows[i] == x;
        assert r[|rows| - 1 - i] == x;
      }
    }
    r
  }

  /** Any other spelling of the flag (`TRUE`, `1`, `yes`) lists every collection. */
  lemma OtherSpellingsListAll(cols: seq<Collection>)
    ensures ListCollections(cols, Some("TRUE")) == Paging.NewestFirst(cols)
    ensures ListCollections(cols, Some("1")) == Paging.NewestFirst(cols)
  {
    assert "TRUE"[0] != "true"[0];
  }

  // ---------------------------------------------------------------------------
  // POST / (and the admin route's POST /collections)
  // ---------------------------------------------------------------------------

  datatype CreateBody = CreateBody(name: Option<string>, description: Option<string>, thumbnailUrl: Option<string>, isFeatured: Option<bool>)

  datatype CreateReply = CreateReply(status: nat, created: Option<Collection>)

  /** A collection with that name exists; names are unique in the table. */
  predicate NameTaken(cols: seq<Collection>, name: string)
  {
    exists j :: 0 <= j < |cols| && cols[j].name == name
  }

  /**
   * Creating a collection: 400 and no write without a name; 500 and no
   * write when the name is taken, the unique constraint rejecting the row;
   * otherwise the collection is appended with the description defaulting to
   * `''`, the thumbnail to null and the featured flag to false, owned by
   * the caller.
   */
  function CreateCollection(cols: seq<Collection>, body: CreateBody, userId: string, newId: string)
    : (r: (seq<Collection>, CreateReply))
    ensures !Given(body.name) <==> r == (cols, CreateReply(400, None))
    ensures Given(body.name) && NameTaken(cols, body.name.value) <==> r == (cols, CreateReply(500, None))
    ensures r.1.status == 201 <==> Given(body.name) && !NameTaken(cols, body.name.value)
    ensures r.1.status == 201 ==>
              && r.1.created.Some?
              && r.0 == cols + [r.1.created.value]
              && var x := r.1.created.value;
              && x.id == newId && x.name == body.name.value && x.createdById == userId
              && x.description == (if Given(body.description) then body.description.value else "")
              && x.thumbnailUrl == (if Given(body.thumbnailUrl) then body.thumbnailUrl else None)
              && x.isFeatured == (body.isFeatured == Some(true))
  {
    if !Given(body.name) then (cols, CreateReply(400, None))
    else if NameTaken(cols, body.name.value) then (cols, CreateReply(500, None))
    else
      var x := Collection(newId, body.name.value,
                          if Given(body.description) then body.description.value else "",
                          if Given(body.thumbnailUrl) then body.thumbnailUrl else None,
                          body.isFeatured == Some(true), userId);
      (cols + [x], CreateReply(201, Some(x)))
  }

  /** A collection created with only a name is not featured, so the featured listing does not show it. */
  lemma BareCollectionNotFeatured(cols: seq<Collection>, name: string, userId: string, newId: string)
    requires name != "" && !NameTaken(cols, name)
    ensures var r := CreateCollection(cols, CreateBody(Some(name), None, None, None), userId, newId);
            r.1.created.Some? && r.1.created.value !in ListCollections(r.0, Some("true"))
  {
  }

  /** A collection just created heads the full listing, and a second creation with its name is refused. */
  lemma CreatedCollectionListedFirst(cols: seq<Collection>, body: CreateBody, userId: string, newId: string,
                                     body2: CreateBody, newId2: string)
    requires CreateCollection(cols, body, userId, newId).1.status == 201
    requires body2.name == body.name
    ensures var r := CreateCollection(cols, body, userId, newId);
            && ListCollections(r.0, None)[0] == r.1.created.value
            && CreateCollection(r.0, body2, userId, newId2) == (r.0, CreateReply(500, None))
  {
    var r := CreateCollection(cols, body, userId, newId);
    Paging.NewestFirstOfCreated(cols, r.1.created.value);
    assert r.0[|cols|].name == body.name.value;
  }

  // ---------------------------------------------------------------------------
  // GET /:id
  // ---------------------------------------------------------------------------

  predicate SortedByPosition(ps: seq<Placement>)
  {
    forall i, j :: 0 <= i < j < |ps| ==> ps[i].position <= ps[j].position
  }

  /** Places `p` before the first entry of a sorted list with a greater position. */
  function InsertByPosition(p: Placement, ps: seq<Placement>): (r: seq<Placement>)
    requires SortedByPosition(ps)
    ensures SortedByPosition(r)
    ensures multiset(r) == multiset(ps) + multiset{p}
    ensures forall q :: q in r <==> q in ps || q == p
  {
    if |ps| == 0 || p.position <= ps[0].position then
      assert forall q :: q in [p] + ps <==> q in ps || q == p;
      [p] + ps
    else
      var rest := InsertByPosition(p, ps[1..]);
      InsertAfterHead(p, ps, rest);
      [ps[0]] + rest
  }

  /** The step of the insertion past the head: the head stays in front. */
  lemma InsertAfterHead(p: Placement, ps: seq<Placement>, rest: seq<Placement>)
    requires |ps| > 0 && SortedByPosition(ps) && ps[0].position < p.position
    requires SortedByPosition(rest)
    requires multiset(rest) == multiset(ps[1..]) + multiset{p}
    requires forall q :: q in rest <==> q in ps[1..] || q == p
    ensures SortedByPosition([ps[0]] + rest)
    ensures multiset([ps[0]] + rest) == multiset(ps) + multiset{p}
    ensures forall q :: q in [ps[0]] + rest <==> q in ps || q == p
  {
    assert ps == [ps[0]] + ps[1..];
    assert forall q :: q in rest ==> ps[0].position <= q.position;
    var r := [ps[0]] + rest;
    assert forall j :: 1 <= j < |r| ==> r[j] == rest[j - 1];
  }

  /** `orderBy: { position: 'asc' }`: the same placements, by non-decreasing position. */
  function SortByPosition(ps: seq<Placement>): (r: seq<Placement>)
    ensures SortedByPosition(r)
    ensures multiset(r) == multiset(ps)
  {
    if |ps| == 0 then []
    else
      assert ps == [ps[0]] + ps[1..];
      InsertByPosition(ps[0], SortByPosition(ps[1..]))
  }

  function PlacementsOf(ps: seq<Placement>, collectionId: string): (r: seq<Placement>)
    ensures forall p :: p in r <==> p in ps && p.collectionId == collectionId
  {
    if |ps| == 0 then []
    else
      var rest := PlacementsOf(ps[1..], collectionId);
      assert forall p :: p in ps <==> p == ps[0] || p in ps[1..];
      if ps[0].collectionId == collectionId then [ps[0]] + rest else rest
  }

  function FindCollection(cols: seq<Collection>, id: string): (r: Option<nat>)
    ensures r.Some? ==> r.value < |cols| && cols[r.value].id == id
    ensures r.None? ==> forall j :: 0 <= j < |cols| ==> cols[j].id != id
  {
    FindFirst(cols, (x: Collection) => x.id, id)
  }

  datatype CollectionReply = CollectionNotFound | CollectionFound(collection: Collection, videos: seq<Placement>)

  /**
   * `GET /:id`: 404 for an unknown collection; otherwise the collection
   * with every one of its placements, by ascending position.
   */
  function GetCollection(cols: seq<Collection>, c: Catalogue, id: string): (r: CollectionReply)
    ensures r.CollectionNotFound? <==> FindCollection(cols, id).None?
    ensures r.CollectionFound? ==>
              && r.collection in cols && r.collection.id == id
              && SortedByPosition(r.videos)
              && multiset(r.videos) == multiset(PlacementsOf(c.placements, id))
              && forall p :: p in r.videos <==> p in c.placements && p.collectionId == id
  {
    match FindCollection(cols, id)
    case None => CollectionNotFound
    case Some(i) =>
      var sorted := SortByPosition(PlacementsOf(c.placements, id));
      assert forall p :: p in sorted <==> p in multiset(PlacementsOf(c.placements, id));
      CollectionFound(cols[i], sorted)
  }

  /** Sorting placements that are already in position order changes nothing. */
  lemma {:induction false} SortKeepsSorted(ps: seq<Placement>)
    requires SortedByPosition(ps)
    ensures SortByPosition(ps) == ps
  {
    if |ps| > 0 {
      SortKeepsSorted(ps[1..]);
      assert SortByPosition(ps[1..]) == ps[1..];
    }
  }

  // ---------------------------------------------------------------------------
  // POST /:id/favorite
  // ---------------------------------------------------------------------------

  /** The favourite rows, as (user id, collection id) pairs. */
  type Favorites = set<(string, string)>

  /**
   * `POST /:id/favorite`: a present favourite is removed (`favorited:
   * false`); an absent one is added (`favorited: true`), which fails for a
   * collection that does not exist.
   */
  function ToggleFavorite(favs: Favorites, known: set<string>, userId: string, collectionId: string)
    : (r: Result<(Favorites, bool)>)
    ensures r.Err? <==> (userId, collectionId) !in favs && collectionId !in known
    ensures r.Ok? ==>
              && (r.value.1 <==> (userId, collectionId) !in favs)
              && r.value.0 == (if r.value.1 then favs + {(userId, collectionId)} else favs - {(userId, collectionId)})
  {
    if (userId, collectionId) in favs then Ok((favs - {(userId, collectionId)}, false))
    else if collectionId !in known then Err("Failed to toggle favorite")
    else Ok((favs + {(userId, collectionId)}, true))
  }

  /** Toggling a favourite of an existing collection twice restores the rows and flips the answer. */
  lemma ToggleFavoriteInvolution(favs: Favorites, known: set<string>, userId: string, collectionId: string)
    requires collectionId in known
    ensures var once := ToggleFavorite(favs, known, userId, collectionId);
            once.Ok? &&
            var twice := ToggleFavorite(once.value.0, known, userId, collectionId);
            twice.Ok? && twice.value.0 == favs && twice.value.1 != once.value.1
  {
  }

  /** A toggle touches only the caller's row for that collection. */
  lemma ToggleFavoriteIsLocal(favs: Favorites, known: set<string>, userId: string, collectionId: string, other: (string, string))
    requires other != (userId, collectionId)
    requires ToggleFavorite(favs, known, userId, collectionId).Ok?
    ensures other in ToggleFavorite(favs, known, userId, collectionId).value.0 <==> other in favs
  {
  }
}

=== FILE: common.dfy ===
/**
 * Failure-carrying values shared by every module: a JavaScript `null` /
 * `undefined` becomes `None`, and a thrown `Error` becomes `Err(message)`.
 */
module Common {

  datatype Option<+T> = None | Some(value: T) {
    function GetOr(default: T): T {
      match this
      case Some(v) => v
      case None => default
    }
  }

  /** The outcome of an operation that either returns a value or throws an `Error`. */
  datatype Result<+T> = Ok(value: T) | Err(message: string) {
    predicate IsFailure() {
      Err?
    }

    function PropagateFailure<U>(): Result<U>
      requires Err?
    {
      Err(message)
    }

    function Extract(): T
      requires Ok?
    {
      value
    }
  }

  /**
   * The index of the first element at or after `from` whose key is `key`:
   * the `find` / `findFirst` / `findUnique` lookups over a table.
   */
  function FindFirst<T, K(==)>(xs: seq<T>, keyOf: T -> K, key: K, from: nat := 0): (r: Option<nat>)
    requires from <= |xs|
    ensures r.Some? ==> from <= r.value < |xs| && keyOf(xs[r.value]) == key
                        && forall j :: from <= j < r.value ==> keyOf(xs[j]) != key
    ensures r.None? ==> forall j :: from <= j < |xs| ==> keyOf(xs[j]) != key
    decreases |xs| - from
  {
    if from == |xs| then None
    else if keyOf(xs[from]) == key then Some(from)
    else FindFirst(xs, keyOf, key, from + 1)
  }

  /** `a` is `b` with some elements left out, the rest in their order. */
  predicate IsSubsequence<T(==)>(a: seq<T>, b: seq<T>)
    decreases |b|
  {
    if |a| == 0 then true
    else if |b| == 0 then false
    else if a[0] == b[0] then IsSubsequence(a[1..], b[1..])
    else IsSubsequence(a, b[1..])
  }
}

=== FILE: mega_routes.dfy ===
/**
 * The public-folder routes: `POST /scan-folder` scans a shared MEGA folder
 * and splits its videos into not-yet-imported and already-imported ones;
 * `POST /import-video` adds one scanned video to the catalogue unless its
 * MEGA id is already there.
 */
module MegaRoutes {
  import opened Common
  import opened Catalog
  import opened MegaScanner

  const FolderRequiredMessage: string := "URL da pasta MEGA \U{00E9} obrigat\U{00F3}ria"
  const ScanFailedMessage: string := "Falha ao escanear pasta MEGA"
  const ImportFieldsRequiredMessage: string := "ID do arquivo MEGA e t\U{00ED}tulo s\U{00E3}o obrigat\U{00F3}rios"
  const AlreadyImportedMessage: string := "Este v\U{00ED}deo j\U{00E1} foi importado"
  const ImportFailedMessage: string := "Falha ao importar v\U{00ED}deo"

  /** A string field of a request body that is present and not empty (JavaScript truthiness). */
  predicate Present(o: Option<string>)
  {
    o.Some? && o.value != ""
  }

  // ---------------------------------------------------------------------------
  // POST /scan-folder
  // ---------------------------------------------------------------------------

  /** The comparison key of a scanned file: its download id, else its download URL, else `null`. */
  function ScanKey(e: VideoEntry): (k: Option<string>)
    ensures Present(e.downloadId) ==> k == e.downloadId
    ensures !Present(e.downloadId) && e.downloadUrl != "" ==> k == Some(e.downloadUrl)
    ensures !Present(e.downloadId) && e.downloadUrl == "" ==> k.None?
  {
    if Present(e.downloadId) then e.downloadId
    else if e.downloadUrl != "" then Some(e.downloadUrl)
    else None
  }

  /** The key is one of the catalogue's MEGA ids; a `null` key never is. */
  predicate Imported(videos: seq<Video>, key: Option<string>)
  {
    key.Some? && exists j :: 0 <= j < |videos| && videos[j].megaFileId == key
  }

  /**
   * The marking as written: the imported flag ignores a `null` key, but the
   * title lookup does not, so a file without a key borrows the title of the
   * first catalogue video that has no MEGA id.
   */
  function MarkScanAsWritten(files: seq<VideoEntry>, videos: seq<Video>): (r: seq<Marked<VideoEntry>>)
    ensures |r| == |files|
    ensures forall k :: 0 <= k < |files| ==>
              r[k].file == files[k] && r[k].isInDatabase == Imported(videos, ScanKey(files[k]))
              && r[k].existingTitle == ExistingTitle(videos, ScanKey(files[k]))
  {
    if |files| == 0 then []
    else
      var key := ScanKey(files[0]);
      [Marked(files[0], Imported(videos, key), ExistingTitle(videos, key))] + MarkScanAsWritten(files[1..], videos)
  }

  /** A keyless file, a catalogue video without a MEGA id, and the title the file wrongly receives. */
  lemma KeylessFileBorrowsTitle()
    ensures var file := VideoEntry("clip.mp4", 1, Scaled(0), "", None, None);
            var video := Video("v1", "Intro", "", [], None, None, NoThumbnail, 0, "u1", true, NoProvenance);
            var m := MarkScanAsWritten([file], [video])[0];
            !m.isInDatabase && m.existingTitle == Some("Intro")
  {
    var file := VideoEntry("clip.mp4", 1, Scaled(0), "", None, None);
    var video := Video("v1", "Intro", "", [], None, None, NoThumbnail, 0, "u1", true, NoProvenance);
    assert ScanKey(file) == None;
    assert FindByKey([video], None) == Some(0);
  }

  /**
   * The marking as evidently intended: the title is looked up only for a
   * file that has a key, so a title is reported exactly for files counted as
   * imported whose catalogue video has a non-empty title.
   */
  function MarkScan(files: seq<VideoEntry>, videos: seq<Video>): (r: seq<Marked<VideoEntry>>)
    ensures |r| == |files|
    ensures forall k :: 0 <= k < |files| ==>
              r[k].file == files[k] && r[k].isInDatabase == Imported(videos, ScanKey(files[k]))
    ensures forall k :: 0 <= k < |files| ==> r[k].existingTitle.Some? ==> r[k].isInDatabase
    ensures forall k :: 0 <= k < |files| ==>
              r[k].existingTitle == (if ScanKey(files[k]).None? then None else ExistingTitle(videos, ScanKey(files[k])))
  {
    if |files| == 0 then []
    else
      var key := ScanKey(files[0]);
      var title := if key.None? then None else ExistingTitle(videos, key);
      [Marked(files[0], Imported(videos, key), title)] + MarkScan(files[1..], videos)
  }

  datatype ScanResponse =
    | ScanBadRequest(error: string)
    | ScanFailed(error: string)
    | ScanListed(folderUrl: string, scanned: seq<VideoEntry>, stats: Stats,
                 notInDatabase: seq<Marked<VideoEntry>>, alreadyInDatabase: seq<Marked<VideoEntry>>)
  {
    function Status(): nat
    {
      match this
      case ScanBadRequest(_) => 400
      case ScanFailed(_) => 500
      case ScanListed(_, _, _, _, _) => 200
    }
  }

  /**
   * `POST /scan-folder`: a missing folder URL is refused before any scan;
   * otherwise the folder is scanned (the SDK's answer is `listing`), the
   * catalogue read (`db`), and the scanned files split on their key. A
   * failure answers 500 with its message, or a fixed one when the message is
   * empty. `requested` is the URL handed to the SDK, if any. The split
   * uses the corrected marking (`MarkScan`): a keyless file reports no
   * title, where the route as written would report the title of a video
   * without a MEGA id (`MarkScanAsWritten`).
   */
  method ScanFolder(cfg: ScannerConfig, folderUrl: Option<string>, listing: Result<seq<RemoteNode>>,
                    db: Result<seq<Video>>)
    returns (requested: Option<string>, r: ScanResponse)
    ensures !Present(folderUrl) <==> r.ScanBadRequest?
    ensures !Present(folderUrl) ==> requested.None? && r.error == FolderRequiredMessage
    ensures Present(folderUrl) ==> requested == Some(ResolveFolderUrl(cfg, folderUrl.value))
    ensures Present(folderUrl) && listing.Err? ==>
              r == ScanFailed(if listing.message == "" then ScanFailedMessage else listing.message)
    ensures r.ScanListed? <==> Present(folderUrl) && listing.Ok? && AllLinked(VideoNodes(listing.value)) && db.Ok?
    ensures r.ScanListed? ==>
              && r.folderUrl == folderUrl.value
              && Projects(r.scanned, VideoNodes(listing.value))
              && r.notInDatabase == Select(MarkScan(r.scanned, db.value), false)
              && r.alreadyInDatabase == Select(MarkScan(r.scanned, db.value), true)
              && r.stats == StatsOf(MarkScan(r.scanned, db.value))
              && r.stats.totalInMega == |r.scanned|
  {
    if !Present(folderUrl) {
      return None, ScanBadRequest(FolderRequiredMessage);
    }
    var url;
    var files;
    url, files := ScanMegaFolder(cfg, folderUrl.value, listing);
    requested := Some(url);
    if files.Err? {
      return requested, ScanFailed(if files.message == "" then ScanFailedMessage else files.message);
    }
    if db.Err? {
      return requested, ScanFailed(if db.message == "" then ScanFailedMessage else db.message);
    }
    var marked := MarkScan(files.value, db.value);
    r := ScanListed(folderUrl.value, files.value, StatsOf(marked), Select(marked, false), Select(marked, true));
  }

  // ---------------------------------------------------------------------------
  // POST /import-video
  // ---------------------------------------------------------------------------

  datatype ImportRequest = ImportRequest(
    megaFileId: Option<string>,
    downloadUrl: Option<string>,
    name: Option<string>,
    title: Option<string>,
    description: Option<string>,
    tags: TagsInput,
    thumbnailUrl: Option<string>,
    collectionId: Option<string>,
    size: Option<nat>)

  datatype ImportResponse = ImportResponse(status: nat, error: Option<string>, created: Option<Video>)

  /** The video `/import-video` creates for a valid request. */
  function ImportedVideo(req: ImportRequest, ownerId: string, newId: string): (v: Video)
    requires Present(req.megaFileId) && Present(req.title)
    ensures v.megaFileId == req.megaFileId && v.title == req.title.value && v.isPublished
    ensures v.tags == NormalizeTags(req.tags)
    ensures v.thumbnail == (if Present(req.thumbnailUrl) then ThumbnailUrl(req.thumbnailUrl.value)
                            else GeneratedThumbnail(req.title.value))
    ensures v.provenance == ImportedFromPublicFolder(req.name, req.size)
    ensures v.description == req.description.GetOr("") && v.durationSeconds == 0
  {
    Video(newId, req.title.value, req.description.GetOr(""), NormalizeTags(req.tags),
          req.megaFileId, req.downloadUrl,
          if Present(req.thumbnailUrl) then ThumbnailUrl(req.thumbnailUrl.value) else GeneratedThumbnail(req.title.value),
          0, ownerId, true, ImportedFromPublicFolder(req.name, req.size))
  }

  /**
   * `POST /import-video`: 400 without a MEGA id or a title, 400 when the id
   * is already in the catalogue; otherwise the video is created and, when a
   * collection id is given, placed first in it. An unknown collection makes
   * the placement throw after the video row is written: 500, the video kept
   * without a placement. Every other path answers 201. `known` holds the
   * ids of the existing collections.
   */
  function ImportVideo(c: Catalogue, known: set<string>, req: ImportRequest, ownerId: string, newId: string)
    : (r: (Catalogue, ImportResponse))
    ensures r.1.status == 400 <==> !Present(req.megaFileId) || !Present(req.title) || HasMegaId(c.videos, req.megaFileId.value)
    ensures r.1.status == 201 <==>
              Present(req.megaFileId) && Present(req.title) && !HasMegaId(c.videos, req.megaFileId.value)
              && PlacementOk(known, req.collectionId)
    ensures r.1.status == 400 || r.1.status == 201 || r.1.status == 500
    ensures r.1.status == 400 ==> r.0 == c && r.1.created.None?
    ensures !Present(req.megaFileId) || !Present(req.title) ==> r.1.error == Some(ImportFieldsRequiredMessage)
    ensures Present(req.megaFileId) && Present(req.title) && HasMegaId(c.videos, req.megaFileId.value) ==>
              r.1.error == Some(AlreadyImportedMessage)
    ensures r.1.status == 201 ==>
              r.1.created == Some(ImportedVideo(req, ownerId, newId))
              && r.0 == AddVideo(c, r.1.created.value, req.collectionId)
    ensures r.1.status == 500 ==>
              r.1.created.None? && r.1.error == Some(ImportFailedMessage)
              && r.0 == AddVideo(c, ImportedVideo(req, ownerId, newId), None)
  {
    if !Present(req.megaFileId) || !Present(req.title) then
      (c, ImportResponse(400, Some(ImportFieldsRequiredMessage), None))
    else if HasMegaId(c.videos, req.megaFileId.value) then
      (c, ImportResponse(400, Some(AlreadyImportedMessage), None))
    else
      var v := ImportedVideo(req, ownerId, newId);
      if !PlacementOk(known, req.collectionId) then
        (AddVideo(c, v, None), ImportResponse(500, Some(ImportFailedMessage), None))
      else
        (AddVideo(c, v, req.collectionId), ImportResponse(201, None, Some(v)))
  }

  /** Importing the same MEGA id twice: the second request is refused and writes nothing. */
  lemma SecondImportRefused(c: Catalogue, known: set<string>, req: ImportRequest, ownerId: string, newId: string,
                            req2: ImportRequest, newId2: string)
    requires ImportVideo(c, known, req, ownerId, newId).1.status == 201
    requires req2.megaFileId == req.megaFileId && Present(req2.title)
    ensures var c1 := ImportVideo(c, known, req, ownerId, newId).0;
            ImportVideo(c1, known, req2, ownerId, newId2) == (c1, ImportResponse(400, Some(AlreadyImportedMessage), None))
  {
    var c1 := ImportVideo(c, known, req, ownerId, newId).0;
    assert c1.videos[|c.videos|].megaFileId == req.megaFileId;
  }

  /**
   * A 500 for an unknown collection still writes the video: a retry with a
   * correct collection id is then refused as already imported, and the
   * video is in no collection.
   */
  lemma FailedPlacementBlocksRetry(c: Catalogue, known: set<string>, req: ImportRequest, ownerId: string, newId: string,
                                   newId2: string, collectionId: Option<string>)
    requires ImportVideo(c, known, req, ownerId, newId).1.status == 500
    ensures var c1 := ImportVideo(c, known, req, ownerId, newId).0;
            && c1.placements == c.placements
            && ImportVideo(c1, known, req.(collectionId := collectionId), ownerId, newId2).1
               == ImportResponse(400, Some(AlreadyImportedMessage), None)
  {
    var c1 := ImportVideo(c, known, req, ownerId, newId).0;
    assert c1.videos[|c.videos|].megaFileId == req.megaFileId;
  }
}

=== FILE: mega_scanner.dfy ===
/**
 * The public-folder scanner: share-link file-id extraction, the
 * video-extension test, the built-in folder-URL fix-up, the projection of a
 * folder listing onto video entries, and the byte-unit choice of
 * `formatBytes`. The MEGA SDK (`File.fromURL`, `loadAttributes`, `children`,
 * `link`) is an oracle: the listing and every node's link outcome are inputs.
 */
module MegaScanner {
  import opened Common
  import opened Strings

  // ---------------------------------------------------------------------------
  // Share-link file ids: /\/file\/([^#]+)/
  // ---------------------------------------------------------------------------

  const FileMarker: string := "/file/"

  /** The regular expression matches at `p`: `/file/` followed by at least one non-`#` character. */
  predicate MarkerAt(url: string, p: nat)
  {
    OccursAt(url, FileMarker, p) && p + |FileMarker| < |url| && url[p + |FileMarker|] != '#'
  }

  /** The longest prefix of `s` free of `#` (the greedy `[^#]+` capture). */
  function UpToHash(s: string): (r: string)
    ensures r <= s && '#' !in r
    ensures |r| < |s| ==> s[|r|] == '#'
  {
    if |s| == 0 || s[0] == '#' then "" else [s[0]] + UpToHash(s[1..])
  }

  /** The leftmost match position at or after `from`, as the regex engine finds it. */
  function FirstMarker(url: string, from: nat): (r: Option<nat>)
    ensures r.Some? ==> from <= r.value && MarkerAt(url, r.value)
                        && forall q :: from <= q < r.value ==> !MarkerAt(url, q)
    ensures r.None? ==> forall q :: from <= q ==> !MarkerAt(url, q)
    decreases |url| - from
  {
    if from + |FileMarker| >= |url| then None
    else if MarkerAt(url, from) then Some(from)
    else FirstMarker(url, from + 1)
  }

  /**
   * `extractFileId(url)`: null for an absent or empty URL; otherwise the
   * characters after the leftmost `/file/` that is followed by a non-`#`
   * character, up to the next `#` or the end; null when there is no such
   * `/file/`.
   */
  function ExtractFileId(url: Option<string>): (r: Option<string>)
    ensures url.None? || url == Some("") ==> r.None?
    ensures r.Some? <==> url.Some? && exists p :: MarkerAt(url.value, p)
    ensures r.Some? ==> |r.value| > 0 && '#' !in r.value
  {
    if url.None? || url.value == "" then None
    else
      match FirstMarker(url.value, 0)
      case None => None
      case Some(p) =>
        var id := UpToHash(url.value[p + |FileMarker|..]);
        assert url.value[p + |FileMarker|] != '#';
        Some(id)
  }

  /**
   * Round trip with the link format `prefix/file/<id>#<key>`: the id comes
   * back, provided no match of the pattern starts inside the prefix.
   */
  lemma ExtractFileIdOfLink(prefix: string, id: string, key: string)
    requires |id| > 0 && '#' !in id
    requires forall q :: 0 <= q < |prefix| ==> !MarkerAt(prefix + FileMarker + id + "#" + key, q)
    ensures ExtractFileId(Some(prefix + FileMarker + id + "#" + key)) == Some(id)
  {
    var url := prefix + FileMarker + id + "#" + key;
    var p := |prefix|;
    assert url[p..p + |FileMarker|] == FileMarker;
    assert url[p + |FileMarker|] == id[0];
    assert MarkerAt(url, p);
    var first := FirstMarker(url, 0);
    assert first == Some(p);
    var rest := url[p + |FileMarker|..];
    assert rest == id + ("#" + key);
    UpToHashOfPrefix(id, "#" + key);
    assert ExtractFileId(Some(url)) == Some(UpToHash(rest));
  }

  lemma {:induction false} UpToHashOfPrefix(id: string, tail: string)
    requires '#' !in id
    requires |tail| > 0 && tail[0] == '#'
    ensures UpToHash(id + tail) == id
    decreases |id|
  {
    if |id| == 0 {
      assert (id + tail)[0] == '#';
    } else {
      assert (id + tail)[0] == id[0];
      assert (id + tail)[1..] == id[1..] + tail;
      UpToHashOfPrefix(id[1..], tail);
      assert [id[0]] + id[1..] == id;
    }
  }

  // ---------------------------------------------------------------------------
  // The video predicate: /\.(mp4|mkv|...|ts)$/i
  // ---------------------------------------------------------------------------

  const VideoExtensions: seq<string> :=
    ["mp4", "mkv", "avi", "mov", "wmv", "flv", "webm", "m4v", "3gp", "mpeg", "mpg", "ts"]

  function EndsWithAnyExtension(lowerName: string, exts: seq<string>): (r: bool)
    ensures r <==> exists i :: 0 <= i < |exts| && EndsWith(lowerName, "." + exts[i])
  {
    if |exts| == 0 then false
    else if EndsWith(lowerName, "." + exts[0]) then true
    else
      var r := EndsWithAnyExtension(lowerName, exts[1..]);
      assert forall i :: 1 <= i < |exts| ==> exts[i] == exts[1..][i - 1];
      r
  }

  /**
   * The name ends in a dot and one of the listed extensions, letters compared
   * without regard to case (the `i` flag without `u` folds only ASCII letters).
   */
  predicate IsVideoName(name: string)
  {
    EndsWithAnyExtension(ToLower(name), VideoExtensions)
  }

  lemma ToLowerIdempotent(s: string)
    ensures ToLower(ToLower(s)) == ToLower(s)
  {
  }

  /** The test ignores letter case. */
  lemma IsVideoNameIgnoresCase(name: string)
    ensures IsVideoName(name) <==> IsVideoName(ToLower(name))
  {
    ToLowerIdempotent(name);
  }

  /** A dot followed by a listed extension is already in lower case. */
  lemma ExtensionIsLower(i: nat)
    requires i < |VideoExtensions|
    ensures ToLower("." + VideoExtensions[i]) == "." + VideoExtensions[i]
  {
    var suffix := "." + VideoExtensions[i];
    assert forall k :: 0 <= k < |suffix| ==> !('A' <= suffix[k] <= 'Z');
  }

  /** Any stem followed by a dot and a listed extension is a video name. */
  lemma ListedExtensionIsVideo(stem: string, i: nat)
    requires i < |VideoExtensions|
    ensures IsVideoName(stem + "." + VideoExtensions[i])
  {
    var suffix := "." + VideoExtensions[i];
    var name := stem + suffix;
    assert stem + "." + VideoExtensions[i] == name;
    LowerConcat(stem, suffix);
    ExtensionIsLower(i);
    var lower := ToLower(stem) + suffix;
    assert lower[|lower| - |suffix|..] == suffix;
    assert EndsWith(ToLower(name), "." + VideoExtensions[i]);
  }

  lemma LowerKeepsDot(s: string)
    ensures '.' in ToLower(s) <==> '.' in s
  {
    if '.' in s {
      var k :| 0 <= k < |s| && s[k] == '.';
      assert ToLower(s)[k] == '.';
    }
  }

  /** A name without a dot is never a video name. */
  lemma NoDotNotVideo(name: string)
    requires '.' !in name
    ensures !IsVideoName(name)
  {
    LowerKeepsDot(name);
    var lower := ToLower(name);
    forall i | 0 <= i < |VideoExtensions|
      ensures !EndsWith(lower, "." + VideoExtensions[i])
    {
      var suffix := "." + VideoExtensions[i];
      if |suffix| <= |lower| {
        assert lower[|lower| - |suffix|] != '.';
      }
    }
  }

  lemma {:induction false} LowerConcat(a: string, b: string)
    ensures ToLower(a + b) == ToLower(a) + ToLower(b)
  {
    var l, r := ToLower(a + b), ToLower(a) + ToLower(b);
    forall k | 0 <= k < |a + b| ensures l[k] == r[k] {
      if k < |a| {
        assert (a + b)[k] == a[k];
      } else {
        assert (a + b)[k] == b[k - |a|];
      }
    }
  }

  /** Two dot-free extensions that both end `s` after a dot are the same extension. */
  lemma SameExtension(s: string, e1: string, e2: string)
    requires '.' !in e1 && '.' !in e2
    requires EndsWith(s, "." + e1) && EndsWith(s, "." + e2)
    ensures e1 == e2
  {
    var s1 := "." + e1;
    var s2 := "." + e2;
    assert s[|s| - |s1|] == '.' && s[|s| - |s2|] == '.';
    assert forall k :: |s| - |e1| <= k < |s| ==> s[k] == e1[k - (|s| - |e1|)];
    assert forall k :: |s| - |e2| <= k < |s| ==> s[k] == e2[k - (|s| - |e2|)];
    assert |e1| == |e2|;
    assert e1 == s1[1..] && e2 == s2[1..];
  }

  lemma ExtensionsHaveNoDot()
    ensures forall i :: 0 <= i < |VideoExtensions| ==> '.' !in VideoExtensions[i]
  {
  }

  /**
   * For a name `stem.ext` whose extension has no dot, the video test is the
   * question whether the lower-cased extension is one of the listed ones.
   */
  lemma VideoNameByExtension(stem: string, ext: string)
    requires '.' !in ext
    ensures IsVideoName(stem + "." + ext) <==> ToLower(ext) in VideoExtensions
  {
    var lower := ToLower(stem + "." + ext);
    var le := ToLower(ext);
    LowerOfDotted(stem, ext);
    LowerKeepsDot(ext);
    if le in VideoExtensions {
      var i :| 0 <= i < |VideoExtensions| && VideoExtensions[i] == le;
      assert EndsWith(lower, "." + VideoExtensions[i]);
    }
    if IsVideoName(stem + "." + ext) {
      var i :| 0 <= i < |VideoExtensions| && EndsWith(lower, "." + VideoExtensions[i]);
      ExtensionsHaveNoDot();
      SameExtension(lower, VideoExtensions[i], le);
    }
  }

  /** Lower-casing `stem.ext` lower-cases the two parts around the dot, which ends it with `.` and the lower-cased extension. */
  lemma LowerOfDotted(stem: string, ext: string)
    ensures ToLower(stem + "." + ext) == ToLower(stem) + "." + ToLower(ext)
    ensures EndsWith(ToLower(stem + "." + ext), "." + ToLower(ext))
  {
    var a := stem + "." + ext;
    var tail := "." + ToLower(ext);
    var b := ToLower(stem) + tail;
    assert |ToLower(a)| == |b|;
    forall k | 0 <= k < |a|
      ensures ToLower(a)[k] == b[k]
    {
      if k < |stem| {
        assert a[k] == stem[k] && b[k] == ToLower(stem)[k];
      } else if k > |stem| {
        assert a[k] == ext[k - |stem| - 1] && b[k] == ToLower(ext)[k - |stem| - 1];
      }
    }
    assert ToLower(a) == b;
    assert b[|b| - |tail|..] == tail;
  }

  /** `movie.MP4` is accepted. */
  lemma UpperCaseExtensionAccepted()
    ensures IsVideoName("movie.MP4")
  {
    VideoNameByExtension("movie", "MP4");
    assert "movie" + "." + "MP4" == "movie.MP4";
    assert ToLower("MP4") == "mp4";
  }

  lemma PdfIsNotListed()
    ensures ToLower("pdf") !in VideoExtensions
  {
    assert ToLower("pdf") == "pdf";
    assert forall i :: 0 <= i < |VideoExtensions| ==> VideoExtensions[i][0] != 'p';
  }

  /** `report.pdf` is rejected. */
  lemma OtherExtensionRejected()
    ensures !IsVideoName("report.pdf")
  {
    VideoNameByExtension("report", "pdf");
    PdfIsNotListed();
    assert "report" + "." + "pdf" == "report.pdf";
  }

  /** A bare `mp4`, without its dot, is rejected. */
  lemma BareExtensionRejected()
    ensures !IsVideoName("mp4")
  {
    NoDotNotVideo("mp4");
  }

  // ---------------------------------------------------------------------------
  // formatBytes: the unit index
  // ---------------------------------------------------------------------------

  function Pow1024(i: nat): (r: nat)
    ensures r >= 1
  {
    if i == 0 then 1 else 1024 * Pow1024(i - 1)
  }

  /**
   * `Math.floor(Math.log(bytes) / Math.log(1024))` in exact arithmetic: the
   * largest `i` with `1024^i <= bytes`. In floating point the quotient can
   * round up to the next whole number for a count just below a power of
   * 1024, which gives one unit more; that rounding is not modelled.
   */
  function UnitIndex(bytes: nat): (i: nat)
    requires bytes > 0
    ensures Pow1024(i) <= bytes < Pow1024(i + 1)
  {
    if bytes < 1024 then 0
    else
      var q := bytes / 1024;
      var j := UnitIndex(q);
      assert Pow1024(j + 1) == 1024 * Pow1024(j);
      assert Pow1024(j + 2) == 1024 * Pow1024(j + 1);
      assert 1024 * q <= bytes < 1024 * q + 1024;
      assert 1024 * Pow1024(j) <= 1024 * q;
      assert q + 1 <= Pow1024(j + 1);
      assert 1024 * (q + 1) <= 1024 * Pow1024(j + 1);
      j + 1
  }

  lemma {:induction false} Pow1024Monotone(i: nat, j: nat)
    requires i <= j
    ensures Pow1024(i) <= Pow1024(j)
    decreases j - i
  {
    if i < j {
      Pow1024Monotone(i, j - 1);
    }
  }

  /** The unit index is the only `i` with `1024^i <= bytes < 1024^(i+1)`. */
  lemma UnitIndexUnique(bytes: nat, i: nat)
    requires bytes > 0
    requires Pow1024(i) <= bytes < Pow1024(i + 1)
    ensures UnitIndex(bytes) == i
  {
    var k := UnitIndex(bytes);
    if k < i {
      Pow1024Monotone(k + 1, i);
    } else if i < k {
      Pow1024Monotone(i + 1, k);
    }
  }

  /** What `formatBytes` decides: the literal `0 Bytes`, or the count scaled to a unit index. */
  datatype SizeText = ZeroBytes | Scaled(unitIndex: nat)

  function FormatBytes(bytes: nat): (r: SizeText)
    ensures r.ZeroBytes? <==> bytes == 0
    ensures r.Scaled? ==> Pow1024(r.unitIndex) <= bytes < Pow1024(r.unitIndex + 1)
  {
    if bytes == 0 then ZeroBytes else Scaled(UnitIndex(bytes))
  }

  const Units: seq<string> := ["Bytes", "KB", "MB", "GB", "TB"]

  /** The label as written: `sizes[i]`, which is `undefined` (here `None`) from index 5 on. */
  function UnitLabelAsWritten(t: SizeText): (r: Option<string>)
    ensures r.None? <==> t.Scaled? && t.unitIndex >= |Units|
  {
    match t
    case ZeroBytes => Some("Bytes")
    case Scaled(i) => if i < |Units| then Some(Units[i]) else None
  }

  /** Two pebibytes (2 * 1024^5 bytes) scale to index 5, where the label as written is `undefined`. */
  lemma UnitLabelAsWrittenOverflows()
    ensures UnitLabelAsWritten(FormatBytes(2 * Pow1024(5))) == None
  {
    UnitIndexUnique(2 * Pow1024(5), 5);
  }

  /** The evidently intended label: the largest unit, TB, for everything from 1024^4 bytes on. */
  function UnitLabel(t: SizeText): (r: string)
    ensures r in Units
    ensures t.Scaled? && t.unitIndex < |Units| ==> r == Units[t.unitIndex]
    ensures t.Scaled? && t.unitIndex >= |Units| ==> r == "TB"
  {
    match t
    case ZeroBytes => "Bytes"
    case Scaled(i) => if i < |Units| then Units[i] else Units[|Units| - 1]
  }

  /** Every byte count gets a real unit, and for a count below 1024^5 it is the unit as written. */
  lemma UnitLabelAlwaysDefined(bytes: nat)
    ensures UnitLabel(FormatBytes(bytes)) in Units
    ensures bytes < Pow1024(5) ==> UnitLabelAsWritten(FormatBytes(bytes)) == Some(UnitLabel(FormatBytes(bytes)))
  {
    if 0 < bytes < Pow1024(5) {
      var i := UnitIndex(bytes);
      if i >= 5 {
        Pow1024Monotone(5, i);
      }
    }
  }

  /** 1048576 bytes is scaled to MB. */
  lemma OneMebibyteIsMB()
    ensures UnitLabel(FormatBytes(1048576)) == "MB"
  {
    assert Pow1024(2) == 1048576;
    UnitIndexUnique(1048576, 2);
  }

  // ---------------------------------------------------------------------------
  // scanMegaFolder
  // ---------------------------------------------------------------------------

  /** The scanner's built-in folder: its URL and the decryption key appended to it. */
  datatype ScannerConfig = ScannerConfig(folderUrl: string, folderKey: string)

  /** The URL handed to the SDK: the built-in folder gets `#key` appended, any other URL is used as given. */
  function ResolveFolderUrl(cfg: ScannerConfig, url: string): (r: string)
    ensures url == cfg.folderUrl ==> r == url + "#" + cfg.folderKey
    ensures url != cfg.folderUrl ==> r == url
  {
    if url == cfg.folderUrl then url + "#" + cfg.folderKey else url
  }

  /** The fix-up applies once: a resolved URL is never the bare built-in URL again. */
  lemma ResolveFolderUrlIdempotent(cfg: ScannerConfig, url: string)
    ensures ResolveFolderUrl(cfg, ResolveFolderUrl(cfg, url)) == ResolveFolderUrl(cfg, url)
  {
    if url == cfg.folderUrl {
      assert |ResolveFolderUrl(cfg, url)| > |cfg.folderUrl|;
    }
  }

  /** One child of the opened folder, with the outcome the SDK gives when asked for its link. */
  datatype RemoteNode = RemoteNode(name: string, size: nat, ts: Option<nat>, link: Result<string>)

  /** One entry of the scan result. */
  datatype VideoEntry = VideoEntry(
    name: string,
    size: nat,
    formattedSize: SizeText,
    downloadUrl: string,
    downloadId: Option<string>,
    timestamp: Option<nat>)

  /** The loop's filter: a non-empty name that passes the video test. */
  predicate Keep(node: RemoteNode)
  {
    node.name != "" && IsVideoName(node.name)
  }

  /** The kept children, in child order. */
  function VideoNodes(children: seq<RemoteNode>): (r: seq<RemoteNode>)
    ensures |r| <= |children|
    ensures forall k :: 0 <= k < |r| ==> Keep(r[k])
  {
    if |children| == 0 then []
    else
      var init := children[..|children| - 1];
      var last := children[|children| - 1];
      VideoNodes(init) + (if Keep(last) then [last] else [])
  }

  /** The kept children are exactly the children that pass the filter. */
  lemma {:induction false} VideoNodesMembers(children: seq<RemoteNode>)
    ensures forall n :: n in VideoNodes(children) <==> n in children && Keep(n)
  {
    if |children| > 0 {
      var init := children[..|children| - 1];
      var last := children[|children| - 1];
      VideoNodesMembers(init);
      assert children == init + [last];
      assert forall n :: n in children <==> n in init || n == last;
    }
  }

  /** `ts ? ts * 1000 : null`: seconds to milliseconds; a zero or missing `ts` gives null. */
  function Millis(ts: Option<nat>): (r: Option<nat>)
    ensures r.Some? <==> ts.Some? && ts.value != 0
    ensures r.Some? ==> r.value == 1000 * ts.value
  {
    if ts.Some? && ts.value != 0 then Some(ts.value * 1000) else None
  }

  /** The entry pushed for a kept child whose link was generated. */
  function Project(node: RemoteNode): (e: VideoEntry)
    requires node.link.Ok?
  {
    VideoEntry(node.name, node.size, FormatBytes(node.size), node.link.value,
               ExtractFileId(Some(node.link.value)), Millis(node.ts))
  }

  /** Every node's link was generated. */
  predicate AllLinked(nodes: seq<RemoteNode>)
  {
    forall k :: 0 <= k < |nodes| ==> nodes[k].link.Ok?
  }

  /** `entries` are the projections of `nodes`, one each, in order. */
  predicate Projects(entries: seq<VideoEntry>, nodes: seq<RemoteNode>)
    requires AllLinked(nodes)
  {
    |entries| == |nodes| && forall k :: 0 <= k < |entries| ==> entries[k] == Project(nodes[k])
  }

  /** `nodes[k]` is the first node whose link failed, with `message`. */
  predicate FirstLinkFailure(nodes: seq<RemoteNode>, k: nat, message: string)
  {
    k < |nodes| && nodes[k].link == Err(message) && AllLinked(nodes[..k])
  }

  /** The projections of `nodes`, in order: the entries the loop has pushed after visiting them. */
  function ProjectAll(nodes: seq<RemoteNode>): seq<VideoEntry>
    requires AllLinked(nodes)
  {
    if |nodes| == 0 then [] else ProjectAll(nodes[..|nodes| - 1]) + [Project(nodes[|nodes| - 1])]
  }

  /** `ProjectAll` projects each node at its own place. */
  lemma {:induction false} ProjectAllProjects(nodes: seq<RemoteNode>)
    requires AllLinked(nodes)
    ensures Projects(ProjectAll(nodes), nodes)
  {
    if |nodes| > 0 {
      var init := nodes[..|nodes| - 1];
      assert AllLinked(init) by {
        forall k | 0 <= k < |init| ensures init[k].link.Ok? { assert init[k] == nodes[k]; }
      }
      ProjectAllProjects(init);
      var front := ProjectAll(init);
      var r := ProjectAll(nodes);
      assert r == front + [Project(nodes[|nodes| - 1])];
      forall k | 0 <= k < |nodes| - 1 ensures r[k] == Project(nodes[k]) {
        assert r[k] == front[k];
        assert init[k] == nodes[k];
      }
    }
  }

  /** Pushing the projection of one more linked node extends the projections by it. */
  lemma ProjectAllAppend(nodes: seq<RemoteNode>, node: RemoteNode)
    requires AllLinked(nodes) && node.link.Ok?
    ensures AllLinked(nodes + [node])
    ensures ProjectAll(nodes + [node]) == ProjectAll(nodes) + [Project(node)]
  {
    assert (nodes + [node])[..|nodes|] == nodes;
  }

  /**
   * The body of the scan loop over an opened folder's children. It succeeds
   * when every kept child's link is generated, giving one entry per kept
   * child in child order; the first kept child whose link fails aborts the
   * scan with that error.
   */
  method ScanChildren(children: seq<RemoteNode>) returns (r: Result<seq<VideoEntry>>)
    ensures r.Ok? <==> AllLinked(VideoNodes(children))
    ensures r.Ok? ==> AllLinked(VideoNodes(children)) && Projects(r.value, VideoNodes(children))
    ensures r.Err? ==> exists k :: FirstLinkFailure(VideoNodes(children), k, r.message)
  {
    var entries: seq<VideoEntry> := [];
    var i := 0;
    while i < |children|
      invariant 0 <= i <= |children|
      invariant AllLinked(VideoNodes(children[..i]))
      invariant entries == ProjectAll(VideoNodes(children[..i]))
    {
      var node := children[i];
      if Keep(node) && node.link.Err? {
        FailureStopsScan(children, i);
        return Err(node.link.message);
      }
      ScanStep(children, i, entries);
      if Keep(node) {
        entries := entries + [Project(node)];
      }
      i := i + 1;
    }
    assert children[..i] == children;
    ProjectAllProjects(VideoNodes(children));
    return Ok(entries);
  }

  /** One visit of the scan loop keeps its entries the projections of the kept children seen so far. */
  lemma ScanStep(children: seq<RemoteNode>, i: nat, entries: seq<VideoEntry>)
    requires i < |children| && AllLinked(VideoNodes(children[..i]))
    requires entries == ProjectAll(VideoNodes(children[..i]))
    requires Keep(children[i]) ==> children[i].link.Ok?
    ensures AllLinked(VideoNodes(children[..i + 1]))
    ensures Keep(children[i]) ==> entries + [Project(children[i])] == ProjectAll(VideoNodes(children[..i + 1]))
    ensures !Keep(children[i]) ==> entries == ProjectAll(VideoNodes(children[..i + 1]))
  {
    var before := VideoNodes(children[..i]);
    VideoNodesStep(children, i);
    if Keep(children[i]) {
      ProjectAllAppend(before, children[i]);
      assert VideoNodes(children[..i + 1]) == before + [children[i]];
    } else {
      assert VideoNodes(children[..i + 1]) == before;
    }
  }

  lemma VideoNodesStep(children: seq<RemoteNode>, i: nat)
    requires i < |children|
    ensures VideoNodes(children[..i + 1])
            == VideoNodes(children[..i]) + (if Keep(children[i]) then [children[i]] else [])
  {
    assert children[..i + 1][..i] == children[..i];
  }

  /** A kept child whose link fails, after only successes, is the first failure of the whole listing. */
  lemma FailureStopsScan(children: seq<RemoteNode>, i: nat)
    requires i < |children| && Keep(children[i]) && children[i].link.Err?
    requires AllLinked(VideoNodes(children[..i]))
    ensures !AllLinked(VideoNodes(children))
    ensures FirstLinkFailure(VideoNodes(children), |VideoNodes(children[..i])|, children[i].link.message)
  {
    VideoNodesStep(children, i);
    VideoNodesPrefix(children, i + 1);
    var before := VideoNodes(children[..i]);
    var p := VideoNodes(children[..i + 1]);
    var all := VideoNodes(children);
    var k := |before|;
    assert p == before + [children[i]];
    assert all[..k + 1] == p;
    assert all[k] == p[k] == children[i];
    assert all[..k] == p[..k] == before;
  }

  /** Every prefix's kept children start the kept children of the whole listing. */
  lemma {:induction false} VideoNodesPrefix(children: seq<RemoteNode>, i: nat)
    requires i <= |children|
    ensures VideoNodes(children[..i]) <= VideoNodes(children)
    decreases |children| - i
  {
    if i < |children| {
      var n := |children|;
      VideoNodesPrefix(children[..n - 1], i);
      assert children[..n - 1][..i] == children[..i];
    } else {
      assert children[..i] == children;
    }
  }

  /**
   * `scanMegaFolder(folderUrl)`: resolves the URL, opens it (the SDK's answer
   * is `listing`), and projects the children. Returns the URL that was opened
   * together with the outcome.
   */
  method ScanMegaFolder(cfg: ScannerConfig, folderUrl: string, listing: Result<seq<RemoteNode>>)
    returns (requested: string, r: Result<seq<VideoEntry>>)
    ensures requested == ResolveFolderUrl(cfg, folderUrl)
    ensures listing.Err? ==> r == Err(listing.message)
    ensures listing.Ok? ==> (r.Ok? <==> AllLinked(VideoNodes(listing.value)))
    ensures listing.Ok? && r.Ok? ==> AllLinked(VideoNodes(listing.value)) && Projects(r.value, VideoNodes(listing.value))
  {
    requested := ResolveFolderUrl(cfg, folderUrl);
    if listing.Err? {
      return requested, Err(listing.message);
    }
    r := ScanChildren(listing.value);
  }
}

=== FILE: mega_service.dfy ===
/**
 * The MEGA storage client as a value: the `storage` handle, the
 * `isConnected` flag and the credentials, with every operation a function
 * from the current service to the next one plus its outcome. The SDK is an
 * oracle: the session a `new Storage` would create, the login event it
 * fires, and the outcome of each remote call are inputs. The local file
 * system is the set of paths that exist.
 */
module MegaService {
  import opened Common
  import opened Strings

  datatype Credentials = Credentials(email: string, password: string)

  /**
   * A file node of the account. An empty `name` is a missing name, a zero
   * `size` or `timestamp` a missing one; `link` is what the SDK answers when
   * asked for the node's public link.
   */
  datatype MegaFile = MegaFile(
    name: string,
    size: nat,
    downloadId: string,
    nodeId: string,
    timestamp: nat,
    link: Result<string>)

  /** A storage session: its file list (`None` when `storage.files` is not an array) and quota. */
  datatype Storage = Storage(files: Option<seq<MegaFile>>, usedSpace: nat, totalSpace: nat)

  datatype Service = Service(storage: Option<Storage>, isConnected: bool, credentials: Credentials)

  /** How a login attempt ends: the `ready` event, the `error` event, or the 30-second timer. */
  datatype LoginEvent = LoginReady | LoginError(message: string) | LoginTimeout

  /** The service after an operation, and what the operation returned or threw. */
  datatype Step<T> = Step(service: Service, result: Result<T>)

  const MissingCredentialsMessage: string := "Credenciais MEGA n\U{00E3}o configuradas"
  const TimeoutMessage: string := "Timeout na conex\U{00E3}o com MEGA"
  const UploadErrorPrefix: string := "Falha no upload: "
  const LinkErrorPrefix: string := "N\U{00E3}o foi poss\U{00ED}vel gerar link p\U{00FA}blico: "
  const NotFoundPrefix: string := "Arquivo n\U{00E3}o encontrado: "
  /** What `storage.files.find` throws when the file list is not an array. */
  const FilesNotArrayMessage: string := "this.storage.files.find is not a function"
  /** `listFiles` returns at most this many files. */
  const ListLimit: nat := 50

  predicate HasCredentials(c: Credentials)
  {
    c.email != "" && c.password != ""
  }

  /** Connected and holding a storage object: `ensureConnection` has nothing to do. */
  predicate Ready(s: Service)
  {
    s.isConnected && s.storage.Some?
  }

  // ---------------------------------------------------------------------------
  // connect / ensureConnection / disconnect
  // ---------------------------------------------------------------------------

  /**
   * `connect()`: without credentials it throws before creating a session;
   * otherwise the new session replaces the old one and the login event
   * decides. Success leaves the service connected; every failure leaves it
   * disconnected and rethrows.
   */
  function Connect(s: Service, session: Storage, event: LoginEvent): (r: Step<bool>)
    ensures r.service.credentials == s.credentials
    ensures r.result.Ok? <==> HasCredentials(s.credentials) && event == LoginReady
    ensures r.result.Ok? ==> r.result.value && Ready(r.service) && r.service.storage == Some(session)
    ensures r.result.Err? ==> !r.service.isConnected
    ensures !HasCredentials(s.credentials) ==>
              r.service.storage == s.storage && r.result == Err(MissingCredentialsMessage)
    ensures HasCredentials(s.credentials) ==> r.service.storage == Some(session)
    ensures HasCredentials(s.credentials) && event == LoginTimeout ==> r.result == Err(TimeoutMessage)
    ensures HasCredentials(s.credentials) && event.LoginError? ==> r.result == Err(event.message)
  {
    if !HasCredentials(s.credentials) then
      Step(s.(isConnected := false), Err(MissingCredentialsMessage))
    else
      var s' := s.(storage := Some(session));
      match event
      case LoginReady => Step(s'.(isConnected := true), Ok(true))
      case LoginError(m) => Step(s'.(isConnected := false), Err(m))
      case LoginTimeout => Step(s'.(isConnected := false), Err(TimeoutMessage))
  }

  /**
   * `ensureConnection()`: connects only when the flag is down or there is no
   * storage object; a ready service is returned untouched.
   */
  function EnsureConnection(s: Service, session: Storage, event: LoginEvent): (r: Step<()>)
    ensures Ready(s) ==> r == Step(s, Ok(()))
    ensures !Ready(s) ==> r.service == Connect(s, session, event).service
    ensures !Ready(s) ==> (r.result.Ok? <==> HasCredentials(s.credentials) && event == LoginReady)
    ensures r.result.Ok? ==> Ready(r.service)
    ensures r.result.Err? ==> !r.service.isConnected
    ensures r.service.credentials == s.credentials
  {
    if !s.isConnected || s.storage.None? then
      var c := Connect(s, session, event);
      Step(c.service, if c.result.Ok? then Ok(()) else Err(c.result.message))
    else
      Step(s, Ok(()))
  }

  /** After a successful `connect`, `ensureConnection` changes nothing, whatever the SDK would do. */
  lemma ConnectThenEnsureIsNoop(s: Service, session: Storage, event: LoginEvent, session2: Storage, event2: LoginEvent)
    requires Connect(s, session, event).result.Ok?
    ensures var c := Connect(s, session, event).service;
            EnsureConnection(c, session2, event2) == Step(c, Ok(()))
  {
  }

  /**
   * `disconnect()`: nothing happens without a storage object. Otherwise the
   * session is closed and the flag lowered; when `close()` throws, the error
   * is swallowed and the flag is left as it was (the assignment follows the
   * call). It never throws and keeps the storage object and credentials.
   */
  function Disconnect(s: Service, closeThrows: bool): (r: Service)
    ensures r.storage == s.storage && r.credentials == s.credentials
    ensures s.storage.None? || closeThrows ==> r == s
    ensures s.storage.Some? && !closeThrows ==> !r.isConnected
  {
    if s.storage.None? then s
    else if closeThrows then s
    else s.(isConnected := false)
  }

  /** Disconnecting twice is disconnecting once. */
  lemma DisconnectIdempotent(s: Service, closeThrows: bool)
    ensures Disconnect(Disconnect(s, false), closeThrows) == Disconnect(s, false)
  {
  }

  /** A disconnected service reconnects on the next `ensureConnection`. */
  lemma DisconnectThenEnsureReconnects(s: Service, session: Storage, event: LoginEvent)
    requires s.storage.Some?
    ensures var d := Disconnect(s, false);
            EnsureConnection(d, session, event) == (var c := Connect(d, session, event);
                                                    Step(c.service, if c.result.Ok? then Ok(()) else Err(c.result.message)))
  {
  }

  // ---------------------------------------------------------------------------
  // listFiles
  // ---------------------------------------------------------------------------

  /** One element of `listFiles`' answer. */
  datatype Listed = Listed(name: string, size: nat, kind: string, downloadId: string, nodeId: string, timestamp: nat)

  /** The projection of one file, with its defaults; `now` stands for `Date.now()`. */
  function ListedOf(f: MegaFile, now: nat): (l: Listed)
  {
    Listed(if f.name != "" then f.name else "file_" + f.nodeId,
           f.size, "file", f.downloadId, f.nodeId,
           if f.timestamp != 0 then f.timestamp else now)
  }

  function ListedAll(files: seq<MegaFile>, now: nat): (r: seq<Listed>)
    ensures |r| == |files|
    ensures forall k :: 0 <= k < |files| ==> r[k] == ListedOf(files[k], now)
  {
    if |files| == 0 then [] else [ListedOf(files[0], now)] + ListedAll(files[1..], now)
  }

  /**
   * `listFiles()`: the first 50 files of the session, in order, with missing
   * names replaced by `file_<nodeId>`, missing timestamps by `now`, and kind
   * `file`. A failed connection or a file list that is not an array gives an
   * empty answer instead of an error.
   */
  function ListFiles(s: Service, session: Storage, event: LoginEvent, now: nat): (r: (Service, seq<Listed>))
    ensures r.0 == EnsureConnection(s, session, event).service
    ensures |r.1| <= ListLimit
    ensures EnsureConnection(s, session, event).result.Err? ==> r.1 == []
    ensures var e := EnsureConnection(s, session, event);
            e.result.Ok? && e.service.storage.value.files.None? ==> r.1 == []
    ensures var e := EnsureConnection(s, session, event);
            e.result.Ok? && e.service.storage.value.files.Some? ==>
              var fs := e.service.storage.value.files.value;
              |r.1| == (if |fs| < ListLimit then |fs| else ListLimit)
              && forall k :: 0 <= k < |r.1| ==> r.1[k] == ListedOf(fs[k], now)
    ensures forall k :: 0 <= k < |r.1| ==> r.1[k].kind == "file" && r.1[k].name != ""
  {
    var e := EnsureConnection(s, session, event);
    if e.result.Err? then (e.service, [])
    else
      match e.service.storage.value.files
      case None => (e.service, [])
      case Some(fs) =>
        var head := if |fs| < ListLimit then fs else fs[..ListLimit];
        (e.service, ListedAll(head, now))
  }

  // ---------------------------------------------------------------------------
  // find by id, deleteFile, getFileInfo
  // ---------------------------------------------------------------------------

  predicate HasId(f: MegaFile, id: string)
  {
    f.downloadId == id || f.nodeId == id
  }

  /** `files.find(f => f.downloadId === id || f.nodeId === id)`, as an index. */
  function FindFile(files: seq<MegaFile>, id: string, from: nat := 0): (r: Option<nat>)
    requires from <= |files|
    ensures r.Some? ==> from <= r.value < |files| && HasId(files[r.value], id)
                        && forall j :: from <= j < r.value ==> !HasId(files[j], id)
    ensures r.None? ==> forall j :: from <= j < |files| ==> !HasId(files[j], id)
    decreases |files| - from
  {
    if from == |files| then None
    else if HasId(files[from], id) then Some(from)
    else FindFile(files, id, from + 1)
  }

  /**
   * The file an id-based operation acts on, after `ensureConnection`:
   * connection errors are rethrown, a file list that is not an array makes
   * `find` throw, and an id nobody carries gives the not-found error.
   */
  function Locate(s: Service, session: Storage, event: LoginEvent, id: string): (r: Step<MegaFile>)
    ensures r.service == EnsureConnection(s, session, event).service
    ensures r.result.Ok? ==> HasId(r.result.value, id)
    ensures var e := EnsureConnection(s, session, event);
            e.result.Ok? && e.service.storage.value.files.Some? ==>
              var fs := e.service.storage.value.files.value;
              && (r.result.Ok? <==> exists j :: 0 <= j < |fs| && HasId(fs[j], id))
              && (r.result.Err? ==> r.result.message == NotFoundPrefix + id)
              && (r.result.Ok? ==> exists j :: 0 <= j < |fs| && fs[j] == r.result.value
                                             && forall i :: 0 <= i < j ==> !HasId(fs[i], id))
  {
    var e := EnsureConnection(s, session, event);
    if e.result.Err? then Step(e.service, Err(e.result.message))
    else
      match e.service.storage.value.files
      case None => Step(e.service, Err(FilesNotArrayMessage))
      case Some(fs) =>
        match FindFile(fs, id)
        case None => Step(e.service, Err(NotFoundPrefix + id))
        case Some(j) => Step(e.service, Ok(fs[j]))
  }

  /** The outcome of `deleteFile`, with the file a remote delete was issued for, if any. */
  datatype Deletion = Deletion(service: Service, result: Result<bool>, deleteIssued: Option<MegaFile>)

  /**
   * `deleteFile(fileId)`: a remote delete is issued for the located file,
   * and for nothing else; when no file is located there is no remote call.
   * The delete's own outcome is `remote` (`None` for success).
   */
  function DeleteFile(s: Service, session: Storage, event: LoginEvent, fileId: string, remote: Option<string>): (r: Deletion)
    ensures var l := Locate(s, session, event, fileId);
            && r.service == l.service
            && (l.result.Err? ==> r.deleteIssued.None? && r.result == Err(l.result.message))
            && (l.result.Ok? ==> r.deleteIssued == Some(l.result.value))
    ensures r.result.Ok? <==> r.deleteIssued.Some? && remote.None?
    ensures r.deleteIssued.Some? ==> HasId(r.deleteIssued.value, fileId)
  {
    var l := Locate(s, session, event, fileId);
    if l.result.Err? then Deletion(l.service, Err(l.result.message), None)
    else
      match remote
      case None => Deletion(l.service, Ok(true), Some(l.result.value))
      case Some(m) => Deletion(l.service, Err(m), Some(l.result.value))
  }

  /** `generatePublicLink(file)`: the SDK's link, or its error reworded. */
  function PublicLink(f: MegaFile): (r: Result<string>)
    ensures f.link.Ok? ==> r == Ok(f.link.value)
    ensures f.link.Err? ==> r == Err(LinkErrorPrefix + f.link.message)
  {
    match f.link
    case Ok(url) => Ok(url)
    case Err(m) => Err(LinkErrorPrefix + m)
  }

  datatype FileInfo = FileInfo(fileId: string, nodeId: string, name: string, size: nat, downloadUrl: string, timestamp: nat)

  /**
   * `getFileInfo(fileId)`: the located file's ids, name, size and timestamp
   * with its public link; a missing file or a failed link is an error.
   */
  function GetFileInfo(s: Service, session: Storage, event: LoginEvent, fileId: string): (r: Step<FileInfo>)
    ensures r.service == EnsureConnection(s, session, event).service
    ensures var l := Locate(s, session, event, fileId);
            && (l.result.Err? ==> r.result == Err(l.result.message))
            && (l.result.Ok? ==> (r.result.Ok? <==> l.result.value.link.Ok?))
            && (r.result.Ok? ==> var f := l.result.value;
                  r.result.value == FileInfo(f.downloadId, f.nodeId, f.name, f.size, f.link.value, f.timestamp))
    ensures r.result.Ok? ==> r.result.value.fileId == fileId || r.result.value.nodeId == fileId
  {
    var l := Locate(s, session, event, fileId);
    if l.result.Err? then Step(l.service, Err(l.result.message))
    else
      var f := l.result.value;
      match PublicLink(f)
      case Err(m) => Step(l.service, Err(m))
      case Ok(url) => Step(l.service, Ok(FileInfo(f.downloadId, f.nodeId, f.name, f.size, url, f.timestamp)))
  }

  /** `createFolder(name)`: the SDK's `mkdir` answer after `ensureConnection`, errors rethrown. */
  function CreateFolder(s: Service, session: Storage, event: LoginEvent, mkdir: Result<MegaFile>): (r: Step<MegaFile>)
    ensures r.service == EnsureConnection(s, session, event).service
    ensures r.result.Ok? <==> EnsureConnection(s, session, event).result.Ok? && mkdir.Ok?
    ensures r.result.Ok? ==> r.result == mkdir
  {
    var e := EnsureConnection(s, session, event);
    if e.result.Err? then Step(e.service, Err(e.result.message)) else Step(e.service, mkdir)
  }

  // ---------------------------------------------------------------------------
  // uploadFile
  // ---------------------------------------------------------------------------

  datatype UploadResult = UploadResult(fileId: string, downloadUrl: string, size: nat, name: string, megaNode: string)

  /** The outcome of `uploadFile`: the service, the local files afterwards, and whether the SDK upload was started. */
  datatype Upload = Upload(service: Service, localFiles: set<string>, result: Result<UploadResult>, uploadIssued: bool)

  /** What `fs.readFile` throws for a path that does not exist. */
  function ReadErrorMessage(path: string): string
  {
    "ENOENT: no such file or directory, open '" + path + "'"
  }

  /** `options.cleanup !== false`: only an explicit `false` keeps the local file. */
  predicate CleanupRequested(cleanup: Option<bool>)
  {
    cleanup != Some(false)
  }

  /**
   * `uploadFile(filePath, fileName, options)`: connect, read the local file,
   * upload it (the SDK's answer is `uploaded`), generate its public link,
   * then delete the local file unless `cleanup` is `false`. A failure of any
   * step before the deletion is rethrown with the prefix `Falha no upload: `
   * and leaves the local files alone; a failed deletion (`unlinkThrows`) is
   * swallowed and the upload still succeeds.
   */
  function UploadFile(
    s: Service, session: Storage, event: LoginEvent, localFiles: set<string>,
    filePath: string, cleanup: Option<bool>, uploaded: Result<MegaFile>, unlinkThrows: bool): (r: Upload)
    ensures r.service == EnsureConnection(s, session, event).service
    ensures r.result.Err? ==> r.localFiles == localFiles && StartsWith(r.result.message, UploadErrorPrefix)
    ensures filePath !in localFiles || EnsureConnection(s, session, event).result.Err? ==>
              !r.uploadIssued && r.result.Err?
    ensures r.result.Ok? <==> EnsureConnection(s, session, event).result.Ok? && filePath in localFiles
                              && uploaded.Ok? && uploaded.value.link.Ok?
    ensures r.result.Ok? ==>
              && r.uploadIssued
              && r.result.value.fileId == uploaded.value.downloadId
              && r.result.value.downloadUrl == uploaded.value.link.value
              && r.result.value.megaNode == uploaded.value.nodeId
              && r.result.value.size == uploaded.value.size
              && r.result.value.name == uploaded.value.name
              && r.localFiles - {filePath} == localFiles - {filePath}
              && (filePath in r.localFiles <==> !CleanupRequested(cleanup) || unlinkThrows)
  {
    var e := EnsureConnection(s, session, event);
    if e.result.Err? then
      Upload(e.service, localFiles, Err(UploadErrorPrefix + e.result.message), false)
    else if filePath !in localFiles then
      Upload(e.service, localFiles, Err(UploadErrorPrefix + ReadErrorMessage(filePath)), false)
    else
      match uploaded
      case Err(m) => Upload(e.service, localFiles, Err(UploadErrorPrefix + m), true)
      case Ok(f) =>
        match PublicLink(f)
        case Err(m) => Upload(e.service, localFiles, Err(UploadErrorPrefix + m), true)
        case Ok(url) =>
          var after := if CleanupRequested(cleanup) && !unlinkThrows then localFiles - {filePath} else localFiles;
          Upload(e.service, after, Ok(UploadResult(f.downloadId, url, f.size, f.name, f.nodeId)), true)
  }

  // ---------------------------------------------------------------------------
  // getStorageInfo / healthCheck
  // ---------------------------------------------------------------------------

  datatype StorageInfo = StorageInfo(usedSpace: nat, totalSpace: nat, freeSpace: int, isConnected: bool, account: string)

  /** `getStorageInfo()`: the quota of the session after `ensureConnection`; the percentage is left out. */
  function GetStorageInfo(s: Service, session: Storage, event: LoginEvent): (r: Step<StorageInfo>)
    ensures r.service == EnsureConnection(s, session, event).service
    ensures r.result.Ok? <==> EnsureConnection(s, session, event).result.Ok?
    ensures r.result.Ok? ==> var st := r.service.storage.value;
              r.result.value == StorageInfo(st.usedSpace, st.totalSpace, st.totalSpace - st.usedSpace, true, s.credentials.email)
  {
    var e := EnsureConnection(s, session, event);
    if e.result.Err? then Step(e.service, Err(e.result.message))
    else
      var st := e.service.storage.value;
      Step(e.service, Ok(StorageInfo(st.usedSpace, st.totalSpace, st.totalSpace - st.usedSpace,
                                     e.service.isConnected, e.service.credentials.email)))
  }

  /** The health report: `connected` is `None` when the field is `undefined`. */
  datatype Health =
    | Healthy(connected: Option<bool>, account: string, storage: StorageInfo)
    | Unhealthy(connected: Option<bool>, error: string)

  /**
   * `healthCheck()` as evidently intended: it never throws; it is healthy,
   * with `connected: true`, exactly when the connection can be ensured, and
   * otherwise unhealthy with `connected: false` and the error's message.
   */
  function HealthCheck(s: Service, session: Storage, event: LoginEvent): (r: (Service, Health))
    ensures r.0 == EnsureConnection(s, session, event).service
    ensures r.1.Healthy? <==> EnsureConnection(s, session, event).result.Ok?
    ensures r.1.Healthy? ==> r.1.connected == Some(true) && r.1.storage.isConnected
                             && r.1.account == s.credentials.email
    ensures r.1.Unhealthy? ==> r.1.connected == Some(false)
                               && r.1.error == EnsureConnection(s, session, event).result.message
  {
    var e := EnsureConnection(s, session, event);
    if e.result.Err? then (e.service, Unhealthy(Some(false), e.result.message))
    else
      // getStorageInfo's own ensureConnection finds the service ready
      var info := GetStorageInfo(e.service, session, event);
      (info.service, Healthy(Some(true), s.credentials.email, info.result.value))
  }

  /**
   * `healthCheck()` as written: `connected` is bound to the value of
   * `await this.ensureConnection()`, which returns nothing, so a healthy
   * report carries `connected: undefined`.
   */
  function HealthCheckAsWritten(s: Service, session: Storage, event: LoginEvent): (r: (Service, Health))
    ensures r.0 == HealthCheck(s, session, event).0
    ensures r.1.Healthy? ==> r.1.connected.None?
    ensures r.1.Unhealthy? ==> r.1 == HealthCheck(s, session, event).1
  {
    var h := HealthCheck(s, session, event);
    match h.1
    case Healthy(_, account, info) => (h.0, Healthy(None, account, info))
    case Unhealthy(_, _) => h
  }

  /** A ready service's health report, as written, has no `connected` field although it is connected. */
  lemma HealthyReportLacksConnected(s: Service, session: Storage, event: LoginEvent)
    requires Ready(s)
    ensures HealthCheckAsWritten(s, session, event).1.Healthy?
    ensures HealthCheckAsWritten(s, session, event).1.connected.None?
    ensures HealthCheck(s, session, event).1.connected == Some(true)
  {
  }
}

=== FILE: paging.dfy ===
/**
 * The pagination shared by the listing routes: `skip = (page - 1) * limit`,
 * `take = limit`, and `pages = Math.ceil(total / limit)`. Rows are a
 * sequence already in the route's order.
 */
module Paging {
  import opened Common

  /** The query defaults of every paginated listing: `page = 1`, `limit = 20`. */
  const DefaultPage: int := 1
  const DefaultLimit: int := 20

  /**
   * `orderBy: { createdAt: 'desc' }` over a table kept in creation order
   * (every create appends its row): the newest row first.
   */
  function NewestFirst<T>(rows: seq<T>): (r: seq<T>)
    ensures |r| == |rows|
    ensures forall i :: 0 <= i < |rows| ==> r[i] == rows[|rows| - 1 - i]
  {
    if |rows| == 0 then [] else [rows[|rows| - 1]] + NewestFirst(rows[..|rows| - 1])
  }

  /** The row created last heads the listing, ahead of the listing as it was. */
  lemma NewestFirstOfCreated<T>(rows: seq<T>, x: T)
    ensures NewestFirst(rows + [x]) == [x] + NewestFirst(rows)
  {
    assert (rows + [x])[..|rows|] == rows;
  }

  /** Reading the newest-first listing from its end gives the creation order back. */
  lemma NewestFirstInvolutive<T>(rows: seq<T>)
    ensures NewestFirst(NewestFirst(rows)) == rows
  {
  }

  /** Rows that come before page `page` (pages are numbered from 1). */
  function Skip(page: int, limit: int): int
  {
    (page - 1) * limit
  }

  /**
   * `Math.ceil(total / limit)` for an integer `limit`. A zero limit divides
   * by zero (`Infinity`, or `NaN` when `total` is 0), rendered as `None`.
   * For a positive limit the result is the least page count whose pages
   * hold every row; for a negative one it is the ceiling of a negative
   * quotient.
   */
  function PageCount(total: nat, limit: int): (r: Option<int>)
    ensures r.None? <==> limit == 0
    ensures limit > 0 ==> r.Some? && r.value >= 0 && r.value * limit >= total
                          && (r.value == 0 || (r.value - 1) * limit < total)
    ensures limit < 0 ==> r.Some? && r.value <= 0 && r.value * limit <= total
                          && (r.value - 1) * limit > total
  {
    if limit == 0 then None
    else if limit > 0 then
      var q := (total + limit - 1) / limit;
      DivBounds(total + limit - 1, limit);
      MulPred(q, limit);
      Some(q)
    else
      var q := total / (-limit);
      DivBounds(total, -limit);
      MulNeg(q, limit);
      MulNeg(q + 1, limit);
      Some(-q)
  }

  lemma DivBounds(a: int, b: int)
    requires b > 0
    ensures (a / b) * b <= a < (a / b) * b + b
    ensures a >= 0 ==> a / b >= 0
  {
  }

  lemma MulPred(q: int, b: int)
    ensures (q - 1) * b == q * b - b
  {
  }

  lemma MulNeg(q: int, b: int)
    ensures (-q) * b == -(q * b) && q * (-b) == -(q * b)
  {
  }

  /** For a positive factor, a larger product means a larger multiplicand. */
  lemma MulCancel(a: int, b: int, c: int)
    requires c > 0 && a * c > b * c
    ensures a > b
  {
    if a <= b {
      MulLe(a, b, c);
    }
  }

  lemma MulLe(a: int, b: int, c: int)
    requires c > 0 && a <= b
    ensures a * c <= b * c
  {
    assert b * c == a * c + (b - a) * c;
  }

  /**
   * The page and limit the ORM serves: the limit is not negative, and the
   * skip `(page - 1) * limit` is not negative either, which for a page below
   * 1 holds only with a zero limit (the skip is then `-0`, read as 0).
   */
  predicate Servable(page: int, limit: int)
  {
    limit >= 0 && (page >= 1 || limit == 0)
  }

  /**
   * One page of rows: `findMany({ skip, take: limit })`. A negative skip or
   * limit is rejected by the ORM and surfaces as an error; a zero limit
   * gives an empty page whatever the page number.
   */
  function Window<T>(rows: seq<T>, page: int, limit: int): (r: Result<seq<T>>)
    ensures r.Ok? <==> Servable(page, limit)
    ensures r.Ok? ==> |r.value| <= limit
    ensures r.Ok? ==> forall i :: 0 <= i < |r.value| ==>
              Skip(page, limit) + i < |rows| && r.value[i] == rows[Skip(page, limit) + i]
    ensures r.Ok? && Skip(page, limit) + limit <= |rows| ==> |r.value| == limit
  {
    if !Servable(page, limit) then Err("skip and take must be non-negative")
    else if limit == 0 then Ok([])
    else
      var skip := Skip(page, limit);
      assert skip >= 0 by { assert page - 1 >= 0; }
      if skip >= |rows| then Ok([])
      else if skip + limit <= |rows| then Ok(rows[skip..skip + limit])
      else Ok(rows[skip..])
  }

  /** A zero limit is served with an empty page for any page number, as `(page - 1) * 0` is a zero skip. */
  lemma ZeroLimitServesEmptyPage<T>(rows: seq<T>, page: int)
    ensures Skip(page, 0) == 0
    ensures Window(rows, page, 0) == Ok([])
  {
  }

  /** The page a row index falls on, and its place on that page. */
  lemma RowOnItsPage<T>(rows: seq<T>, limit: int, k: nat)
    requires limit > 0 && k < |rows|
    ensures var p := k / limit + 1;
            && 1 <= p <= PageCount(|rows|, limit).value
            && Window(rows, p, limit).Ok?
            && k % limit < |Window(rows, p, limit).value|
            && Window(rows, p, limit).value[k % limit] == rows[k]
  {
    var p := k / limit + 1;
    var n := PageCount(|rows|, limit).value;
    assert Skip(p, limit) == k - k % limit;
    DivBounds(k, limit);
    assert (p - 1) * limit <= k;
    MulCancel(n, p - 1, limit);
    var w := Window(rows, p, limit).value;
    var skip := Skip(p, limit);
    if skip + limit <= |rows| {
      assert |w| == limit;
    } else {
      assert w == rows[skip..];
    }
  }

  /** Pages 1 to `n` laid end to end. */
  function FirstPages<T>(rows: seq<T>, limit: nat, n: nat): seq<T>
  {
    if n == 0 then [] else FirstPages(rows, limit, n - 1) + Window(rows, n, limit).value
  }

  lemma {:induction false} FirstPagesArePrefix<T>(rows: seq<T>, limit: nat, n: nat)
    ensures n * limit <= |rows| ==> FirstPages(rows, limit, n) == rows[..n * limit]
    ensures n * limit > |rows| ==> FirstPages(rows, limit, n) == rows
  {
    if n > 0 {
      var skip := Skip(n, limit);
      PageStart(n, limit);
      FirstPagesArePrefix(rows, limit, n - 1);
      var w := Window(rows, n, limit).value;
      if skip + limit <= |rows| {
        assert w == rows[skip..skip + limit];
        JoinPrefix(rows, skip, skip + limit);
      } else if skip < |rows| {
        assert w == rows[skip..];
        JoinPrefix(rows, skip, |rows|);
      } else if skip == |rows| {
        assert w == [];
        JoinPrefix(rows, skip, |rows|);
      } else {
        assert w == [];
      }
    }
  }

  /** A prefix followed by the slice after it is the longer prefix. */
  lemma JoinPrefix<T>(rows: seq<T>, i: nat, j: nat)
    requires i <= j <= |rows|
    ensures rows[..i] + rows[i..j] == rows[..j]
    ensures j == |rows| ==> rows[..j] == rows && rows[i..j] == rows[i..]
  {
  }

  /** Page `n` starts after the `n - 1` pages before it and ends where `n` pages end. */
  lemma PageStart(n: nat, limit: nat)
    requires n > 0
    ensures Skip(n, limit) == (n - 1) * limit && n * limit == Skip(n, limit) + limit
  {
  }

  /** Reading every page the count announces returns every row exactly once, in order. */
  lemma AllPagesCoverRows<T>(rows: seq<T>, limit: nat)
    requires limit > 0
    ensures FirstPages(rows, limit, PageCount(|rows|, limit).value) == rows
  {
    var n := PageCount(|rows|, limit).value;
    FirstPagesArePrefix(rows, limit, n);
    if n * limit <= |rows| {
      assert n * limit == |rows|;
      assert rows[..|rows|] == rows;
    }
  }
}

=== FILE: role_repair.dfy ===
/**
 * The role-repair batches: a fixed list of e-mail addresses whose accounts
 * must be ADMIN. Each listed address is looked up in turn; an existing
 * non-ADMIN account is promoted. The table is the projection e-mail ->
 * role of the user table.
 */
module RoleRepair {
  import opened Accounts

  type RoleTable = map<string, Role>

  datatype Action = NotFound | AlreadyAdmin | Updated(oldRole: Role)

  datatype Correction = Correction(email: string, action: Action)

  /** The list `fixUserRoles` of the stand-alone module promotes. */
  const ModuleAdminEmails: seq<string> := [
    "admin@seehere.com", "superadmin@seehere.com", "emergency_admin@seehere.com",
    "admin_fixed@seehere.com", "superadmin_fixed@seehere.com"]

  /** The list of the admin route, one address longer. */
  const RouteAdminEmails: seq<string> := ModuleAdminEmails + ["admin_corrigido@seehere.com"]

  /** The list of the run-as-script variant. */
  const ScriptAdminEmails: seq<string> := ["admin@seehere.com", "superadmin@seehere.com"]

  /** What one address is classified as, against a given table. */
  function Classify(roles: RoleTable, email: string): (a: Action)
    ensures a.NotFound? <==> email !in roles
    ensures a.AlreadyAdmin? <==> email in roles && roles[email] == ADMIN
    ensures a.Updated? <==> email in roles && roles[email] != ADMIN
    ensures a.Updated? ==> a.oldRole == roles[email]
  {
    if email !in roles then NotFound
    else if roles[email] == ADMIN then AlreadyAdmin
    else Updated(roles[email])
  }

  predicate NoDuplicates(emails: seq<string>)
  {
    forall i, j :: 0 <= i < j < |emails| ==> emails[i] != emails[j]
  }

  /**
   * What a batch over `emails` leaves behind: one correction per address, in
   * list order, `NotFound` exactly for an address without an account; every
   * listed existing account is ADMIN, every other account keeps its role,
   * and no account is created.
   */
  predicate Repaired(roles: RoleTable, emails: seq<string>, r: (RoleTable, seq<Correction>))
  {
    && |r.1| == |emails|
    && (forall i :: 0 <= i < |emails| ==> r.1[i].email == emails[i])
    && r.0.Keys == roles.Keys
    && (forall e :: e in roles && e !in emails ==> r.0[e] == roles[e])
    && (forall e :: e in roles && e in emails ==> r.0[e] == ADMIN)
    && (forall i :: 0 <= i < |emails| ==> (r.1[i].action.NotFound? <==> emails[i] !in roles))
  }

  /** `fixUserRoles()` over the list `emails`, one address at a time against the table as updated so far. */
  function FixUserRoles(roles: RoleTable, emails: seq<string>): (r: (RoleTable, seq<Correction>))
    ensures Repaired(roles, emails, r)
    decreases |emails|
  {
    if |emails| == 0 then (roles, [])
    else
      var e := emails[0];
      var a := Classify(roles, e);
      var next := if a.Updated? then roles[e := ADMIN] else roles;
      var rest := FixUserRoles(next, emails[1..]);
      RepairedStep(roles, emails, next, rest);
      (rest.0, [Correction(e, a)] + rest.1)
  }

  /** Handling the first address, then repairing the rest, repairs the whole list. */
  lemma RepairedStep(roles: RoleTable, emails: seq<string>, next: RoleTable, rest: (RoleTable, seq<Correction>))
    requires |emails| > 0
    requires next == if Classify(roles, emails[0]).Updated? then roles[emails[0] := ADMIN] else roles
    requires Repaired(next, emails[1..], rest)
    ensures Repaired(roles, emails, (rest.0, [Correction(emails[0], Classify(roles, emails[0]))] + rest.1))
  {
    var e := emails[0];
    var r := (rest.0, [Correction(e, Classify(roles, e))] + rest.1);
    assert forall x :: x in emails <==> x == e || x in emails[1..];
    assert forall i :: 1 <= i < |emails| ==> r.1[i] == rest.1[i - 1] && emails[i] == emails[1..][i - 1];
  }

  /**
   * With distinct addresses, each correction is the classification of its
   * address against the table as it was before the batch.
   */
  lemma {:induction false} FixUserRolesClassifies(roles: RoleTable, emails: seq<string>)
    requires NoDuplicates(emails)
    ensures forall i :: 0 <= i < |emails| ==> FixUserRoles(roles, emails).1[i].action == Classify(roles, emails[i])
    decreases |emails|
  {
    if |emails| > 0 {
      var e := emails[0];
      var a := Classify(roles, e);
      var next := if a.Updated? then roles[e := ADMIN] else roles;
      var tail := emails[1..];
      assert NoDuplicates(tail);
      FixUserRolesClassifies(next, tail);
      var f := FixUserRoles(roles, emails);
      assert f.1 == [Correction(e, a)] + FixUserRoles(next, tail).1;
      forall i | 1 <= i < |emails|
        ensures f.1[i].action == Classify(roles, emails[i])
      {
        var x := emails[i];
        assert x == tail[i - 1] && x != e;
        assert f.1[i] == FixUserRoles(next, tail).1[i - 1];
        assert (x in next <==> x in roles) && (x in roles ==> next[x] == roles[x]);
      }
    }
  }

  /** Running the batch a second time changes nothing and reports no update. */
  lemma FixUserRolesIdempotent(roles: RoleTable, emails: seq<string>)
    ensures var once := FixUserRoles(roles, emails);
            var twice := FixUserRoles(once.0, emails);
            && twice.0 == once.0
            && forall i :: 0 <= i < |emails| ==> !twice.1[i].action.Updated?
  {
    var once := FixUserRoles(roles, emails);
    var twice := FixUserRoles(once.0, emails);
    assert forall e :: e in once.0 && e in emails ==> once.0[e] == ADMIN;
    AllAdminFixpoint(once.0, emails);
  }

  /** When every listed existing account is already ADMIN, the batch is the identity and only finds or skips. */
  lemma {:induction false} AllAdminFixpoint(roles: RoleTable, emails: seq<string>)
    requires forall e :: e in roles && e in emails ==> roles[e] == ADMIN
    ensures FixUserRoles(roles, emails).0 == roles
    ensures forall i :: 0 <= i < |emails| ==> !FixUserRoles(roles, emails).1[i].action.Updated?
    decreases |emails|
  {
    if |emails| > 0 {
      assert emails[0] in emails;
      assert forall e :: e in emails[1..] ==> e in emails;
      AllAdminFixpoint(roles, emails[1..]);
    }
  }

  /**
   * The run-as-script variant: the same promotion without a report; it
   * returns the addresses it wrote, in order.
   */
  function PromoteListed(roles: RoleTable, emails: seq<string>): (r: (RoleTable, seq<string>))
    decreases |emails|
  {
    if |emails| == 0 then (roles, [])
    else
      var e := emails[0];
      if e in roles && roles[e] != ADMIN then
        var rest := PromoteListed(roles[e := ADMIN], emails[1..]);
        (rest.0, [e] + rest.1)
      else PromoteListed(roles, emails[1..])
  }

  /** The addresses a batch reports as updated, in order. */
  function UpdatedEmails(cs: seq<Correction>): seq<string>
  {
    if |cs| == 0 then []
    else (if cs[0].action.Updated? then [cs[0].email] else []) + UpdatedEmails(cs[1..])
  }

  /**
   * The script and the reporting batch agree: same final table, and the
   * script writes exactly the addresses the batch reports as updated.
   */
  lemma {:induction false} PromoteListedAgrees(roles: RoleTable, emails: seq<string>)
    ensures PromoteListed(roles, emails).0 == FixUserRoles(roles, emails).0
    ensures PromoteListed(roles, emails).1 == UpdatedEmails(FixUserRoles(roles, emails).1)
    decreases |emails|
  {
    if |emails| > 0 {
      var e := emails[0];
      var next := if e in roles && roles[e] != ADMIN then roles[e := ADMIN] else roles;
      PromoteListedAgrees(next, emails[1..]);
      var f := FixUserRoles(roles, emails);
      assert f.1 == [Correction(e, Classify(roles, e))] + FixUserRoles(next, emails[1..]).1;
      assert f.1[1..] == FixUserRoles(next, emails[1..]).1;
    }
  }

  /** Only listed accounts that exist and are not ADMIN are written; a second run writes nothing. */
  lemma PromoteListedWrites(roles: RoleTable, emails: seq<string>)
    ensures forall e :: e in PromoteListed(roles, emails).1 ==> e in emails && e in roles && roles[e] != ADMIN
    ensures PromoteListed(PromoteListed(roles, emails).0, emails).1 == []
  {
    PromoteListedWritten(roles, emails);
    PromoteListedAgrees(roles, emails);
    var once := PromoteListed(roles, emails).0;
    FixUserRolesIdempotent(roles, emails);
    PromoteListedAgrees(once, emails);
    NoUpdatesNoEmails(FixUserRoles(once, emails).1);
  }

  lemma {:induction false} PromoteListedWritten(roles: RoleTable, emails: seq<string>)
    ensures forall e :: e in PromoteListed(roles, emails).1 ==> e in emails && e in roles && roles[e] != ADMIN
    decreases |emails|
  {
    if |emails| > 0 {
      var e := emails[0];
      if e in roles && roles[e] != ADMIN {
        PromoteListedWritten(roles[e := ADMIN], emails[1..]);
      } else {
        PromoteListedWritten(roles, emails[1..]);
      }
    }
  }

  lemma {:induction false} NoUpdatesNoEmails(cs: seq<Correction>)
    requires forall i :: 0 <= i < |cs| ==> !cs[i].action.Updated?
    ensures UpdatedEmails(cs) == []
  {
    if |cs| > 0 {
      NoUpdatesNoEmails(cs[1..]);
    }
  }

  /**
   * `POST /emergency-fix-role`: 400 without an address, 404 for an unknown
   * one, otherwise the account becomes ADMIN and nothing else changes.
   */
  function EmergencyFixRole(roles: RoleTable, email: string): (r: (RoleTable, nat))
    ensures email == "" ==> r == (roles, 400)
    ensures email != "" && email !in roles ==> r == (roles, 404)
    ensures r.1 == 200 <==> email != "" && email in roles
    ensures r.1 == 200 ==> r.0 == roles[email := ADMIN]
  {
    if email == "" then (roles, 400)
    else if email !in roles then (roles, 404)
    else (roles[email := ADMIN], 200)
  }
}

=== FILE: strings.dfy ===
/**
 * The JavaScript string operations the route handlers rely on, over
 * `string` = `seq<char>`: `split` on one character, `join`, `trim`,
 * ASCII `toLowerCase`, `startsWith`, `endsWith` and `includes`.
 */
module Strings {

  // ---------------------------------------------------------------------------
  // split / join
  // ---------------------------------------------------------------------------

  /** `parts.join(sep)`: the pieces with one `sep` between neighbours. */
  function Join(parts: seq<string>, sep: char): string
  {
    if |parts| == 0 then ""
    else if |parts| == 1 then parts[0]
    else parts[0] + [sep] + Join(parts[1..], sep)
  }

  /**
   * `s.split(sep)` for a one-character separator: the pieces between the
   * separators, in order. There is always at least one piece (`"".split(",")`
   * is `[""]`), no piece contains the separator, and joining the pieces back
   * gives `s`.
   */
  function Split(s: string, sep: char): (parts: seq<string>)
    ensures |parts| >= 1
    ensures forall i :: 0 <= i < |parts| ==> sep !in parts[i]
    ensures Join(parts, sep) == s
    decreases |s|
  {
    if |s| == 0 then [""]
    else if s[0] == sep then
      var rest := Split(s[1..], sep);
      assert [""] + rest == [""] + rest[..];
      assert s == [sep] + s[1..];
      [""] + rest
    else
      var rest := Split(s[1..], sep);
      var parts := [[s[0]] + rest[0]] + rest[1..];
      assert parts[1..] == rest[1..];
      assert s == [s[0]] + s[1..];
      parts
  }

  /** Splitting a piece-free prefix off: the prefix is the first piece. */
  lemma {:induction false} SplitPrefix(a: string, sep: char, t: string)
    requires sep !in a
    ensures Split(a + [sep] + t, sep) == [a] + Split(t, sep)
    decreases |a|
  {
    var s := a + [sep] + t;
    if |a| == 0 {
      assert s[0] == sep && s[1..] == t;
    } else {
      assert s[0] == a[0] && s[0] != sep;
      assert s[1..] == a[1..] + [sep] + t;
      SplitPrefix(a[1..], sep, t);
      assert [a[0]] + a[1..] == a;
    }
  }

  /** A string free of the separator splits into itself alone. */
  lemma {:induction false} SplitNoSeparator(a: string, sep: char)
    requires sep !in a
    ensures Split(a, sep) == [a]
    decreases |a|
  {
    if |a| > 0 {
      assert a[0] != sep;
      SplitNoSeparator(a[1..], sep);
      assert [a[0]] + a[1..] == a;
    }
  }

  /**
   * The converse round trip: splitting the join of separator-free pieces
   * gives the pieces back, so `Split` is the only decomposition of its kind.
   */
  lemma {:induction false} SplitJoin(parts: seq<string>, sep: char)
    requires |parts| >= 1
    requires forall i :: 0 <= i < |parts| ==> sep !in parts[i]
    ensures Split(Join(parts, sep), sep) == parts
    decreases |parts|
  {
    if |parts| == 1 {
      SplitNoSeparator(parts[0], sep);
    } else {
      assert sep !in parts[0];
      SplitPrefix(parts[0], sep, Join(parts[1..], sep));
      SplitJoin(parts[1..], sep);
      assert [parts[0]] + parts[1..] == parts;
    }
  }

  // ---------------------------------------------------------------------------
  // trim
  // ---------------------------------------------------------------------------

  /** The characters `String.prototype.trim` removes: white space and line terminators. */
  predicate IsSpace(c: char)
  {
    || c == ' ' || c == '\t' || c == '\n' || c == '\r'
    || c == '\U{000B}' || c == '\U{000C}' || c == '\U{00A0}' || c == '\U{FEFF}'
    || c == '\U{1680}' || ('\U{2000}' <= c <= '\U{200A}')
    || c == '\U{2028}' || c == '\U{2029}' || c == '\U{202F}' || c == '\U{205F}'
    || c == '\U{3000}'
  }

  predicate AllSpace(s: string)
  {
    forall i :: 0 <= i < |s| ==> IsSpace(s[i])
  }

  function TrimStart(s: string): (r: string)
    ensures |r| <= |s| && r == s[|s| - |r|..]
    ensures AllSpace(s[..|s| - |r|])
    ensures |r| > 0 ==> !IsSpace(r[0])
  {
    if |s| > 0 && IsSpace(s[0]) then TrimStart(s[1..]) else s
  }

  function TrimEnd(s: string): (r: string)
    ensures |r| <= |s| && r == s[..|r|]
    ensures AllSpace(s[|r|..])
    ensures |r| > 0 ==> !IsSpace(r[|r| - 1])
  {
    if |s| > 0 && IsSpace(s[|s| - 1]) then TrimEnd(s[..|s| - 1]) else s
  }

  /** `r` is the piece of `s` at `i`, with only white space before and after it. */
  predicate TrimmedAt(s: string, r: string, i: int)
  {
    0 <= i <= |s| - |r| && r == s[i..i + |r|] && AllSpace(s[..i]) && AllSpace(s[i + |r|..])
  }

  /**
   * `s.trim()`: `s` without its leading and trailing white space. The result
   * is a contiguous piece of `s`, only white space was cut away, and the
   * result neither starts nor ends with white space.
   */
  function Trim(s: string): (r: string)
    ensures |r| <= |s|
    ensures exists i :: TrimmedAt(s, r, i)
    ensures |r| > 0 ==> !IsSpace(r[0]) && !IsSpace(r[|r| - 1])
  {
    var a := TrimStart(s);
    var r := TrimEnd(a);
    TrimmedAtCompose(s, a, r);
    assert |r| > 0 ==> r[0] == a[0];
    r
  }

  /** `s` has no white space at either end, so trimming leaves it alone. */
  predicate NoOuterSpace(s: string)
  {
    |s| > 0 ==> !IsSpace(s[0]) && !IsSpace(s[|s| - 1])
  }

  /** A white-space-free start cut from a suffix of `s` is a piece of `s` surrounded by white space. */
  lemma TrimmedAtCompose(s: string, a: string, r: string)
    requires |a| <= |s| && a == s[|s| - |a|..] && AllSpace(s[..|s| - |a|])
    requires |r| <= |a| && r == a[..|r|] && AllSpace(a[|r|..])
    ensures TrimmedAt(s, r, |s| - |a|)
  {
    var i := |s| - |a|;
    assert r == s[i..i + |r|];
    assert s[i + |r|..] == a[|r|..];
  }

  lemma {:induction false} TrimStartSkips(w: string, t: string)
    requires AllSpace(w)
    requires |t| > 0 ==> !IsSpace(t[0])
    ensures TrimStart(w + t) == t
    decreases |w|
  {
    if |w| > 0 {
      assert (w + t)[1..] == w[1..] + t;
      TrimStartSkips(w[1..], t);
    } else {
      assert w + t == t;
    }
  }

  lemma {:induction false} TrimEndSkips(t: string, w: string)
    requires AllSpace(w)
    requires |t| > 0 ==> !IsSpace(t[|t| - 1])
    ensures TrimEnd(t + w) == t
    decreases |w|
  {
    if |w| > 0 {
      assert (t + w)[..|t + w| - 1] == t + w[..|w| - 1];
      TrimEndSkips(t, w[..|w| - 1]);
    } else {
      assert t + w == t;
    }
  }

  /** White space around a core that neither starts nor ends with white space is exactly what `trim` removes. */
  lemma TrimAround(w1: string, core: string, w2: string)
    requires AllSpace(w1) && AllSpace(w2)
    requires |core| > 0 ==> !IsSpace(core[0]) && !IsSpace(core[|core| - 1])
    ensures Trim(w1 + core + w2) == core
  {
    var s := w1 + core + w2;
    if |core| == 0 {
      assert AllSpace(s);
      var a := TrimStart(s);
      assert a == s[|s| - |a|..];
    } else {
      assert s == w1 + (core + w2);
      TrimStartSkips(w1, core + w2);
      TrimEndSkips(core, w2);
    }
  }

  /** Trimming twice is trimming once. */
  lemma TrimIdempotent(s: string)
    ensures Trim(Trim(s)) == Trim(s)
  {
    TrimAround("", Trim(s), "");
    assert "" + Trim(s) + "" == Trim(s);
  }

  // ---------------------------------------------------------------------------
  // case, prefixes, suffixes, substrings
  // ---------------------------------------------------------------------------

  /** `toLowerCase` on one character, for the ASCII letters. */
  function LowerChar(c: char): char
  {
    if 'A' <= c <= 'Z' then (c as int + 32) as char else c
  }

  /** `s.toLowerCase()`, restricted to ASCII letters. */
  function ToLower(s: string): (r: string)
    ensures |r| == |s|
    ensures forall i :: 0 <= i < |s| ==> r[i] == LowerChar(s[i])
  {
    if |s| == 0 then "" else [LowerChar(s[0])] + ToLower(s[1..])
  }

  predicate StartsWith(s: string, prefix: string)
  {
    |prefix| <= |s| && s[..|prefix|] == prefix
  }

  predicate EndsWith(s: string, suffix: string)
  {
    |suffix| <= |s| && s[|s| - |suffix|..] == suffix
  }

  /** `needle` occurs in `s` starting at index `i`. */
  predicate OccursAt(s: string, needle: string, i: nat)
  {
    i + |needle| <= |s| && s[i..i + |needle|] == needle
  }

  /** `s.includes(needle)`, searched left to right from index `from`. */
  function IncludesFrom(s: string, needle: string, from: nat): (r: bool)
    ensures r <==> exists i :: from <= i && OccursAt(s, needle, i)
    decreases |s| - from
  {
    if from + |needle| > |s| then
      assert forall i :: from <= i ==> !OccursAt(s, needle, i);
      false
    else if s[from..from + |needle|] == needle then
      assert OccursAt(s, needle, from);
      true
    else IncludesFrom(s, needle, from + 1)
  }

  /** `s.includes(needle)`: `needle` occurs somewhere in `s`. */
  function Includes(s: string, needle: string): (r: bool)
    ensures r <==> exists i :: 0 <= i && OccursAt(s, needle, i)
  {
    IncludesFrom(s, needle, 0)
  }

  /** `contains` with `mode: 'insensitive'`: an inclusion after folding ASCII letters. */
  predicate ContainsInsensitive(s: string, needle: string)
  {
    Includes(ToLower(s), ToLower(needle))
  }

  /** A string lacking some character of `needle` does not include `needle`. */
  lemma MissingCharNotIncluded(s: string, needle: string, c: char)
    requires c in needle && c !in s
    ensures !Includes(s, needle)
  {
    var k :| 0 <= k < |needle| && needle[k] == c;
    forall i: nat
      ensures !OccursAt(s, needle, i)
    {
      if i + |needle| <= |s| {
        assert s[i..i + |needle|][k] == s[i + k] != c;
      }
    }
  }

  // ---------------------------------------------------------------------------
  // decimal rendering of naturals (template literals)
  // ---------------------------------------------------------------------------

  predicate IsDigit(c: char)
  {
    '0' <= c <= '9'
  }

  /** `${n}` for a natural number: its decimal digits, most significant first. */
  function NatToString(n: nat): (r: string)
    ensures |r| >= 1
    ensures forall i :: 0 <= i < |r| ==> IsDigit(r[i])
    ensures r[0] == '0' <==> n == 0
  {
    var d := [(('0' as int) + n % 10) as char];
    if n < 10 then d else NatToString(n / 10) + d
  }

  /** The number a string of decimal digits denotes, most significant digit first. */
  function DigitsValue(s: string): nat
    requires forall i :: 0 <= i < |s| ==> IsDigit(s[i])
  {
    if |s| == 0 then 0
    else
      var c := s[|s| - 1];
      assert IsDigit(c);
      10 * DigitsValue(s[..|s| - 1]) + ((c as int) - ('0' as int))
  }

  /** Reading the decimal rendering back gives the number: the rendering loses nothing. */
  lemma {:induction false} NatToStringRoundTrip(n: nat)
    ensures DigitsValue(NatToString(n)) == n
  {
    var s := NatToString(n);
    if n >= 10 {
      assert s[..|s| - 1] == NatToString(n / 10);
      NatToStringRoundTrip(n / 10);
    }
  }

  /** Different numbers have different renderings. */
  lemma NatToStringInjective(m: nat, n: nat)
    requires NatToString(m) == NatToString(n)
    ensures m == n
  {
    NatToStringRoundTrip(m);
    NatToStringRoundTrip(n);
  }
}

=== FILE: upload_route.dfy ===
/**
 * The video upload route: the multipart stage (file filter, size limit,
 * temporary file name), then the route proper, which validates the title,
 * hands the temporary file to the MEGA service, records the video, and
 * removes the temporary file on every path.
 */
module UploadRoute {
  import opened Common
  import opened Strings
  import opened Catalog
  import MegaService

  /** `limits.fileSize`: 500 MiB. */
  const MaxFileSize: nat := 500 * 1024 * 1024

  const OnlyVideosMessage: string := "Apenas arquivos de v\U{00ED}deo s\U{00E3}o permitidos"

  /** A file as the multipart parser receives it. */
  datatype IncomingFile = IncomingFile(originalname: string, mimetype: string, size: nat)

  /** `fileFilter`: only MIME types of the `video/` family are accepted. */
  predicate AcceptedByFilter(mimetype: string)
  {
    StartsWith(mimetype, "video/")
  }

  // ---------------------------------------------------------------------------
  // temporary file name
  // ---------------------------------------------------------------------------

  /** `${Date.now()}-${Math.round(Math.random() * 1E9)}-${originalname}`. */
  function TempName(now: nat, rand: nat, originalname: string): (r: string)
    ensures EndsWith(r, originalname)
  {
    var r := NatToString(now) + "-" + NatToString(rand) + "-" + originalname;
    assert r[|r| - |originalname|..] == originalname;
    r
  }

  /** Everything after the second `-`: how the original name is read back from a temporary name. */
  function OriginalNameOf(name: string): string
  {
    var parts := Split(name, '-');
    if |parts| < 3 then "" else Join(parts[2..], '-')
  }

  lemma NoDashInNumber(n: nat)
    ensures '-' !in NatToString(n)
  {
    var s := NatToString(n);
    assert forall i :: 0 <= i < |s| ==> s[i] != '-';
  }

  /** The original name is recovered from the temporary name, whatever dashes it contains. */
  lemma TempNameRoundTrip(now: nat, rand: nat, originalname: string)
    ensures OriginalNameOf(TempName(now, rand, originalname)) == originalname
  {
    var a := NatToString(now);
    var b := NatToString(rand);
    NoDashInNumber(now);
    NoDashInNumber(rand);
    assert TempName(now, rand, originalname) == a + ['-'] + (b + ['-'] + originalname);
    SplitPrefix(a, '-', b + ['-'] + originalname);
    SplitPrefix(b, '-', originalname);
    var parts := Split(TempName(now, rand, originalname), '-');
    assert parts == [a] + ([b] + Split(originalname, '-'));
    assert parts[2..] == Split(originalname, '-');
  }

  // ---------------------------------------------------------------------------
  // the multipart stage
  // ---------------------------------------------------------------------------

  datatype Received =
    | NoFile
    | FilterRejected(message: string)
    | TooLarge
    | Stored(path: string, file: IncomingFile)

  /**
   * `upload.single('video')`: no file leaves the request without one; a
   * file whose type is not a video, or larger than the limit, is refused
   * before the route runs; otherwise it is stored under its temporary name.
   */
  function Receive(file: Option<IncomingFile>, now: nat, rand: nat): (r: Received)
    ensures r.NoFile? <==> file.None?
    ensures r.Stored? <==> file.Some? && AcceptedByFilter(file.value.mimetype) && file.value.size <= MaxFileSize
    ensures r.FilterRejected? <==> file.Some? && !AcceptedByFilter(file.value.mimetype)
    ensures r.Stored? ==> r.file == file.value && EndsWith(r.path, file.value.originalname)
  {
    if file.None? then NoFile
    else if !AcceptedByFilter(file.value.mimetype) then FilterRejected(OnlyVideosMessage)
    else if file.value.size > MaxFileSize then TooLarge
    else Stored(TempName(now, rand, file.value.originalname), file.value)
  }

  /** A file of exactly the limit passes; one byte more does not. */
  lemma SizeLimitIsInclusive(name: string, mimetype: string, now: nat, rand: nat)
    requires AcceptedByFilter(mimetype)
    ensures Receive(Some(IncomingFile(name, mimetype, MaxFileSize)), now, rand).Stored?
    ensures Receive(Some(IncomingFile(name, mimetype, MaxFileSize + 1)), now, rand) == TooLarge
  {
  }

  // ---------------------------------------------------------------------------
  // POST /video
  // ---------------------------------------------------------------------------

  datatype UploadBody = UploadBody(title: Option<string>, description: Option<string>, tags: Option<string>, collectionId: Option<string>)

  predicate Given(o: Option<string>)
  {
    o.Some? && o.value != ""
  }

  /** `tags ? tags.split(',').map(tag => tag.trim()) : []`, the shared normalisation of a string. */
  function UploadTags(tags: Option<string>): (r: seq<string>)
    ensures !Given(tags) ==> r == []
    ensures Given(tags) ==> r == NormalizeTags(TagsString(tags.value))
  {
    if tags.Some? then NormalizeTags(TagsString(tags.value)) else NormalizeTags(TagsAbsent)
  }

  /** The outcome of the route: the service, the local files, the catalogue, the status, and whether the service was asked to upload. */
  datatype UploadOutcome = UploadOutcome(
    service: MegaService.Service,
    localFiles: set<string>,
    catalogue: Catalogue,
    status: nat,
    created: Option<Video>,
    uploadRequested: bool)

  /** `fs.unlinkSync` guarded by `fs.existsSync`: the file is removed unless the removal fails. */
  function RemoveIfPresent(files: set<string>, path: string, unlinkFails: bool): (r: set<string>)
    ensures r - {path} == files - {path}
    ensures !unlinkFails ==> path !in r
  {
    if unlinkFails then files else files - {path}
  }

  /** The video the route records for an uploaded file. */
  function UploadedVideo(body: UploadBody, file: IncomingFile, res: MegaService.UploadResult, ownerId: string, newId: string): (v: Video)
    requires Given(body.title)
    ensures v.id == newId && v.title == body.title.value && v.ownerId == ownerId
    ensures v.megaFileId == Some(res.fileId) && v.megaFileUrl == Some(res.downloadUrl)
    ensures v.description == (if Given(body.description) then body.description.value else "")
    ensures v.tags == UploadTags(body.tags)
    ensures v.thumbnail == NoThumbnail && v.durationSeconds == 0 && v.isPublished
    ensures v.provenance == Uploaded(file.originalname, res.size)
  {
    Video(newId, body.title.value, if Given(body.description) then body.description.value else "",
          UploadTags(body.tags), Some(res.fileId), Some(res.downloadUrl), NoThumbnail, 0,
          ownerId, true, Uploaded(file.originalname, res.size))
  }

  /**
   * `POST /video`. `files` are the local files before the request,
   * `received` the multipart stage's outcome, `uploaded` the SDK's answer
   * to the upload, `unlinkFails` whether deleting the temporary file fails,
   * and `known` the ids of the existing collections. No file: 400. No
   * title: the temporary file is deleted, then 400, and the service is
   * never asked. A failed upload: the temporary file is deleted if still
   * there, then 500. Otherwise the video is recorded with the service's id
   * and link and placed in the given collection, and 201; an unknown
   * collection makes the placement throw after the video row is written, so
   * the answer is 500 with the video and the MEGA file kept. The service's
   * own clean-up runs with its default (delete).
   */
  function UploadVideo(
    s: MegaService.Service, session: MegaService.Storage, event: MegaService.LoginEvent,
    files: set<string>, received: Received, body: UploadBody,
    c: Catalogue, known: set<string>, ownerId: string, newId: string,
    uploaded: Result<MegaService.MegaFile>, unlinkFails: bool): (r: UploadOutcome)
    requires !received.FilterRejected? && !received.TooLarge?
    ensures received.NoFile? ==> r == UploadOutcome(s, files, c, 400, None, false)
    ensures received.Stored? && !Given(body.title) ==>
              !r.uploadRequested && r.catalogue == c && r.created.None? && r.service == s
              && r.status == (if unlinkFails then 500 else 400)
    ensures received.Stored? && Given(body.title) ==> r.uploadRequested
    ensures r.created.Some? <==> r.status == 201
    ensures !(received.Stored? && Given(body.title)) ==> r.catalogue == c && r.status != 201
    ensures received.Stored? && Given(body.title) ==>
            var up := MegaService.UploadFile(s, session, event, files + {received.path}, received.path, None, uploaded, unlinkFails);
            var stored := up.result.Ok?;
            && (!stored ==> r.catalogue == c)
            && (stored ==> r.service == up.service)
            && (r.status == 201 <==> stored && PlacementOk(known, body.collectionId))
            && (stored && PlacementOk(known, body.collectionId) ==>
                  var v := UploadedVideo(body, received.file, up.result.value, ownerId, newId);
                  r.created == Some(v) && r.catalogue == AddVideo(c, v, body.collectionId))
            && (stored && !PlacementOk(known, body.collectionId) ==>
                  r.status == 500
                  && r.catalogue == AddVideo(c, UploadedVideo(body, received.file, up.result.value, ownerId, newId), None))
    ensures received.Stored? ==>
              && r.localFiles - {received.path} == files - {received.path}
              && (!unlinkFails ==> received.path !in r.localFiles)
  {
    match received
    case NoFile => UploadOutcome(s, files, c, 400, None, false)
    case Stored(path, file) =>
      var present := files + {path};
      if !Given(body.title) then
        UploadOutcome(s, RemoveIfPresent(present, path, unlinkFails), c, if unlinkFails then 500 else 400, None, false)
      else
        var up := MegaService.UploadFile(s, session, event, present, path, None, uploaded, unlinkFails);
        var after := RemoveIfPresent(up.localFiles, path, unlinkFails);
        if up.result.Err? then
          UploadOutcome(up.service, after, c, 500, None, true)
        else
          var v := UploadedVideo(body, file, up.result.value, ownerId, newId);
          if !PlacementOk(known, body.collectionId) then
            UploadOutcome(up.service, after, AddVideo(c, v, None), 500, None, true)
          else
            UploadOutcome(up.service, after, AddVideo(c, v, body.collectionId), 201, Some(v), true)
  }

  /** A request without a title never reaches the service, whatever the service would have answered. */
  lemma MissingTitleNeverUploads(
    s: MegaService.Service, session: MegaService.Storage, event: MegaService.LoginEvent,
    files: set<string>, received: Received, body: UploadBody, c: Catalogue, known: set<string>, ownerId: string, newId: string,
    uploaded1: Result<MegaService.MegaFile>, uploaded2: Result<MegaService.MegaFile>)
    requires received.Stored? && !Given(body.title)
    ensures UploadVideo(s, session, event, files, received, body, c, known, ownerId, newId, uploaded1, false)
         == UploadVideo(s, session, event, files, received, body, c, known, ownerId, newId, uploaded2, false)
    ensures UploadVideo(s, session, event, files, received, body, c, known, ownerId, newId, uploaded1, false).status == 400
  {
  }
}

=== FILE: user_routes.dfy ===
/**
 * The user administration routes: the paginated, filtered listing; the
 * update and delete of a user by id, with the guards that stop an admin
 * from modifying or deleting their own account; the creation of a user;
 * and the per-role statistics. Password hashing is an oracle.
 */
module UserRoutes {
  import opened Common
  import opened Strings
  import opened Accounts
  import Paging

  // ---------------------------------------------------------------------------
  // GET / (listing)
  // ---------------------------------------------------------------------------

  /** The listing's `where`: the search term in the e-mail or the display name, and the role when given. */
  predicate Matches(u: User, search: Option<string>, role: Option<Role>)
  {
    && (search.None? || search.value == "" || ContainsInsensitive(u.email, search.value) || ContainsInsensitive(u.displayName, search.value))
    && (role.None? || u.role == role.value)
  }

  /** The matching users, in table order. */
  function FilterUsers(users: seq<User>, search: Option<string>, role: Option<Role>): (r: seq<User>)
    ensures |r| <= |users|
    ensures forall u :: u in r <==> u in users && Matches(u, search, role)
    ensures IsSubsequence(r, users)
  {
    if |users| == 0 then []
    else
      var rest := FilterUsers(users[1..], search, role);
      assert forall u :: u in users <==> u == users[0] || u in users[1..];
      if Matches(users[0], search, role) then [users[0]] + rest else rest
  }

  /** Filtering a table with one more row filters the old table and then that row. */
  lemma {:induction false} FilterUsersAppend(users: seq<User>, u: User, search: Option<string>, role: Option<Role>)
    ensures FilterUsers(users + [u], search, role)
         == FilterUsers(users, search, role) + (if Matches(u, search, role) then [u] else [])
  {
    if |users| == 0 {
      assert [u][1..] == [];
    } else {
      assert (users + [u])[1..] == users[1..] + [u];
      FilterUsersAppend(users[1..], u, search, role);
    }
  }

  datatype Pagination = Pagination(page: int, limit: int, total: nat, pages: Option<int>)

  /**
   * `GET /`: one page (`page` defaulting to 1, `limit` to 20) of the
   * matching users, newest first, and the pagination over all of them.
   */
  function ListUsers(users: seq<User>, page: Option<int>, limit: Option<int>, search: Option<string>, role: Option<Role>)
    : (r: Result<(seq<User>, Pagination)>)
    ensures r.Ok? <==> Paging.Servable(page.GetOr(Paging.DefaultPage), limit.GetOr(Paging.DefaultLimit))
    ensures r.Ok? ==>
              var p := page.GetOr(Paging.DefaultPage);
              var l := limit.GetOr(Paging.DefaultLimit);
              var matching := FilterUsers(users, search, role);
              && r.value.0 == Paging.Window(Paging.NewestFirst(matching), p, l).value
              && r.value.1 == Pagination(p, l, |matching|, Paging.PageCount(|matching|, l))
    ensures r.Ok? ==> (forall u :: u in r.value.0 ==> u in users && Matches(u, search, role))
                      && |r.value.0| <= limit.GetOr(Paging.DefaultLimit)
  {
    var p := page.GetOr(Paging.DefaultPage);
    var l := limit.GetOr(Paging.DefaultLimit);
    var matching := FilterUsers(users, search, role);
    var w := Paging.Window(Paging.NewestFirst(matching), p, l);
    if w.Err? then Err(w.message)
    else
      assert forall u :: u in w.value ==> u in matching by {
        forall u | u in w.value ensures u in matching {
          var i :| 0 <= i < |w.value| && w.value[i] == u;
        }
      }
      Ok((w.value, Pagination(p, l, |matching|, Paging.PageCount(|matching|, l))))
  }

  // ---------------------------------------------------------------------------
  // PUT /:id
  // ---------------------------------------------------------------------------

  /** The fields of an update body; an absent field is left as it is. */
  datatype UpdateBody = UpdateBody(displayName: Option<string>, role: Option<Role>, isActive: Option<bool>, isVerified: Option<bool>)

  datatype Reply = Reply(status: nat, error: Option<string>)

  const SelfModifyMessage: string :=
    "N\U{00E3}o \U{00E9} poss\U{00ED}vel modificar seu pr\U{00F3}prio papel ou desativar sua pr\U{00F3}pria conta"
  const SelfDeleteMessage: string := "N\U{00E3}o \U{00E9} poss\U{00ED}vel deletar sua pr\U{00F3}pria conta"
  const NotFoundMessage: string := "Usu\U{00E1}rio n\U{00E3}o encontrado"

  /**
   * The self-update guard as written: an update of one's own account is
   * refused when the body's role is anything but ADMIN (an absent role
   * included) or the body deactivates the account.
   */
  predicate SelfUpdateRefusedAsWritten(actor: User, id: string, body: UpdateBody)
  {
    id == actor.id && (body.role != Some(ADMIN) || body.isActive == Some(false))
  }

  /**
   * The guard as its message states it: an update of one's own account is
   * refused when it changes one's own role or deactivates the account.
   */
  predicate SelfUpdateRefused(actor: User, id: string, body: UpdateBody)
  {
    id == actor.id && ((body.role.Some? && body.role.value != actor.role) || body.isActive == Some(false))
  }

  /** The row after an update: every field the body gives is replaced, nothing else. */
  function Updated(u: User, body: UpdateBody): (v: User)
    ensures v.id == u.id && v.email == u.email && v.passwordHash == u.passwordHash
    ensures v.displayName == body.displayName.GetOr(u.displayName) && v.role == body.role.GetOr(u.role)
    ensures v.isActive == (if body.isActive.Some? then body.isActive else u.isActive)
    ensures v.isVerified == body.isVerified.GetOr(u.isVerified)
  {
    u.(displayName := body.displayName.GetOr(u.displayName),
       role := body.role.GetOr(u.role),
       isActive := if body.isActive.Some? then body.isActive else u.isActive,
       isVerified := body.isVerified.GetOr(u.isVerified))
  }

  /** The lookup and write after the guard: 404 and no write for an unknown id. */
  function ApplyUpdate(users: seq<User>, id: string, body: UpdateBody): (r: (seq<User>, Reply))
    ensures FindById(users, id).None? ==> r == (users, Reply(404, Some(NotFoundMessage)))
    ensures FindById(users, id).Some? ==>
              var i := FindById(users, id).value;
              r.1 == Reply(200, None) && r.0 == users[i := Updated(users[i], body)]
  {
    match FindById(users, id)
    case None => (users, Reply(404, Some(NotFoundMessage)))
    case Some(i) => (users[i := Updated(users[i], body)], Reply(200, None))
  }

  /** `PUT /:id` as written. */
  function UpdateUserAsWritten(users: seq<User>, actor: User, id: string, body: UpdateBody): (r: (seq<User>, Reply))
    ensures SelfUpdateRefusedAsWritten(actor, id, body) ==> r == (users, Reply(403, Some(SelfModifyMessage)))
    ensures !SelfUpdateRefusedAsWritten(actor, id, body) ==> r == ApplyUpdate(users, id, body)
  {
    if SelfUpdateRefusedAsWritten(actor, id, body) then (users, Reply(403, Some(SelfModifyMessage)))
    else ApplyUpdate(users, id, body)
  }

  /**
   * An EDITOR (who passes `requireAdmin`) promotes their own account: the
   * guard as written lets the update through and the role becomes ADMIN.
   */
  lemma EditorSelfPromotes(users: seq<User>, i: nat)
    requires i < |users| && users[i].role == EDITOR && FindById(users, users[i].id) == Some(i)
    ensures var body := UpdateBody(None, Some(ADMIN), None, None);
            var r := UpdateUserAsWritten(users, users[i], users[i].id, body);
            r.1.status == 200 && r.0[i].role == ADMIN
    ensures SelfUpdateRefused(users[i], users[i].id, UpdateBody(None, Some(ADMIN), None, None))
  {
  }

  /**
   * `PUT /:id` with the guard its message states: refusals (403) and
   * unknown ids (404) write nothing; otherwise only the target row changes,
   * and an accepted update of one's own account keeps one's role and does
   * not deactivate it.
   */
  function UpdateUser(users: seq<User>, actor: User, id: string, body: UpdateBody): (r: (seq<User>, Reply))
    ensures SelfUpdateRefused(actor, id, body) ==> r == (users, Reply(403, Some(SelfModifyMessage)))
    ensures !SelfUpdateRefused(actor, id, body) ==> r == ApplyUpdate(users, id, body)
    ensures r.1.status == 200 && id == actor.id ==>
              body.role.GetOr(actor.role) == actor.role && body.isActive != Some(false)
    ensures |r.0| == |users|
    ensures forall j :: 0 <= j < |users| && users[j].id != id ==> r.0[j] == users[j]
  {
    if SelfUpdateRefused(actor, id, body) then (users, Reply(403, Some(SelfModifyMessage)))
    else ApplyUpdate(users, id, body)
  }

  // ---------------------------------------------------------------------------
  // DELETE /:id
  // ---------------------------------------------------------------------------

  function RemoveAt(users: seq<User>, i: nat): (r: seq<User>)
    requires i < |users|
    ensures |r| == |users| - 1
    ensures forall j :: 0 <= j < i ==> r[j] == users[j]
    ensures forall j :: i <= j < |r| ==> r[j] == users[j + 1]
  {
    users[..i] + users[i + 1..]
  }

  /**
   * `DELETE /:id`: deleting one's own account is refused before any
   * lookup; an unknown id is a 404; otherwise exactly that user is removed
   * and the others keep their order.
   */
  function DeleteUser(users: seq<User>, actor: User, id: string): (r: (seq<User>, Reply))
    ensures id == actor.id ==> r == (users, Reply(403, Some(SelfDeleteMessage)))
    ensures id != actor.id && FindById(users, id).None? ==> r == (users, Reply(404, Some(NotFoundMessage)))
    ensures r.1.status == 200 <==> id != actor.id && FindById(users, id).Some?
    ensures r.1.status == 200 ==> r.0 == RemoveAt(users, FindById(users, id).value)
    ensures WellFormed(users) ==> forall u :: u in r.0 ==> u in users && (u.id == id ==> r.1.status != 200)
  {
    if id == actor.id then (users, Reply(403, Some(SelfDeleteMessage)))
    else match FindById(users, id)
      case None => (users, Reply(404, Some(NotFoundMessage)))
      case Some(i) =>
        var r := RemoveAt(users, i);
        assert forall u :: u in r ==> exists j :: 0 <= j < |users| && j != i && u == users[j];
        (r, Reply(200, None))
  }

  // ---------------------------------------------------------------------------
  // POST / (create)
  // ---------------------------------------------------------------------------

  datatype CreateBody = CreateBody(
    email: Option<string>,
    password: Option<string>,
    displayName: Option<string>,
    role: Option<Role>,
    isActive: Option<bool>,
    isVerified: Option<bool>)

  predicate Present(o: Option<string>)
  {
    o.Some? && o.value != ""
  }

  /**
   * `POST /`: 400 without an e-mail or a password; the e-mail is lowercased
   * for the duplicate check and for storage, and a taken address is a 400.
   * The new account's display name defaults to the local part of the e-mail
   * as sent (before lowercasing), its role to USER, its activity to true
   * and its verification to false.
   */
  function CreateUser(users: seq<User>, body: CreateBody, newId: string, hash: string -> string): (r: (seq<User>, Reply))
    ensures !Present(body.email) || !Present(body.password) ==> r.0 == users && r.1.status == 400
    ensures Present(body.email) && Present(body.password) && FindByEmail(users, ToLower(body.email.value)).Some? ==>
              r.0 == users && r.1.status == 400
    ensures r.1.status == 201 <==>
              Present(body.email) && Present(body.password) && FindByEmail(users, ToLower(body.email.value)).None?
    ensures r.1.status == 201 ==>
              && |r.0| == |users| + 1 && r.0[..|users|] == users
              && var u := r.0[|users|];
              && u.id == newId && u.email == ToLower(body.email.value)
              && u.passwordHash == hash(body.password.value)
              && u.displayName == (if Present(body.displayName) then body.displayName.value else LocalPart(body.email.value))
              && u.role == body.role.GetOr(USER)
              && u.isActive == Some(body.isActive.GetOr(true))
              && u.isVerified == body.isVerified.GetOr(false)
  {
    if !Present(body.email) || !Present(body.password) then
      (users, Reply(400, Some("Email e senha s\U{00E3}o obrigat\U{00F3}rios")))
    else
      var email := ToLower(body.email.value);
      if FindByEmail(users, email).Some? then (users, Reply(400, Some("Usu\U{00E1}rio j\U{00E1} existe")))
      else
        var name := if Present(body.displayName) then body.displayName.value else LocalPart(body.email.value);
        var u := User(newId, email, name, body.role.GetOr(USER), Some(body.isActive.GetOr(true)),
                      body.isVerified.GetOr(false), hash(body.password.value), None);
        (users + [u], Reply(201, None))
  }

  /** A user just created, if the filter matches it, opens the first page of the default listing. */
  lemma CreatedUserListedFirst(users: seq<User>, body: CreateBody, newId: string, hash: string -> string,
                               search: Option<string>, role: Option<Role>)
    requires CreateUser(users, body, newId, hash).1.status == 201
    requires Matches(CreateUser(users, body, newId, hash).0[|users|], search, role)
    ensures var after := CreateUser(users, body, newId, hash).0;
            var l := ListUsers(after, None, None, search, role);
            l.Ok? && |l.value.0| > 0 && l.value.0[0] == after[|users|]
  {
    var after := CreateUser(users, body, newId, hash).0;
    var u := after[|users|];
    assert after == users + [u];
    FilterUsersAppend(users, u, search, role);
    Paging.NewestFirstOfCreated(FilterUsers(users, search, role), u);
    var rows := Paging.NewestFirst(FilterUsers(after, search, role));
    assert rows[0] == u;
    assert Paging.Skip(Paging.DefaultPage, Paging.DefaultLimit) == 0;
  }

  /** Creation keeps ids and e-mail addresses unique when the new id is fresh. */
  lemma CreateKeepsWellFormed(users: seq<User>, body: CreateBody, newId: string, hash: string -> string)
    requires WellFormed(users) && FindById(users, newId).None?
    ensures WellFormed(CreateUser(users, body, newId, hash).0)
  {
    var r := CreateUser(users, body, newId, hash);
    if r.1.status == 201 {
      assert r.0 == users + [r.0[|users|]];
      AppendKeepsWellFormed(users, r.0[|users|]);
    }
  }

  /** Two addresses differing only in letter case collide: the second creation is refused. */
  lemma CaseVariantRejected(users: seq<User>, body: CreateBody, newId: string, hash: string -> string,
                            body2: CreateBody, newId2: string)
    requires CreateUser(users, body, newId, hash).1.status == 201
    requires Present(body2.email) && Present(body2.password) && ToLower(body2.email.value) == ToLower(body.email.value)
    ensures var r := CreateUser(users, body, newId, hash).0;
            CreateUser(r, body2, newId2, hash) == (r, Reply(400, Some("Usu\U{00E1}rio j\U{00E1} existe")))
  {
    var r := CreateUser(users, body, newId, hash).0;
    assert r[|users|].email == ToLower(body2.email.value);
  }

  // ---------------------------------------------------------------------------
  // GET /stats/overview
  // ---------------------------------------------------------------------------

  /** One row of `groupBy({ by: ['role'], _count: true })`. */
  datatype RoleGroup = RoleGroup(role: Role, count: nat)

  /** `reduce((acc, item) => { acc[item.role] = item._count; ... }, {})`: a later group overwrites an earlier one. */
  function RoleStats(groups: seq<RoleGroup>): (m: map<Role, nat>)
    ensures m.Keys == set g | g in groups :: g.role
    ensures |groups| > 0 ==> m[groups[|groups| - 1].role] == groups[|groups| - 1].count
  {
    if |groups| == 0 then map[]
    else
      var init := groups[..|groups| - 1];
      var last := groups[|groups| - 1];
      var m := RoleStats(init);
      assert forall g :: g in groups <==> g in init || g == last;
      m[last.role := last.count]
  }

  /** With one group per role, as `groupBy` returns, every role maps to its own group's count. */
  lemma {:induction false} RoleStatsOfDistinctGroups(groups: seq<RoleGroup>)
    requires forall i, j :: 0 <= i < j < |groups| ==> groups[i].role != groups[j].role
    ensures forall i :: 0 <= i < |groups| ==> RoleStats(groups)[groups[i].role] == groups[i].count
  {
    if |groups| > 0 {
      var init := groups[..|groups| - 1];
      RoleStatsOfDistinctGroups(init);
      forall i | 0 <= i < |groups|
        ensures RoleStats(groups)[groups[i].role] == groups[i].count
      {
        if i < |groups| - 1 {
          assert groups[i] == init[i];
          assert groups[i].role != groups[|groups| - 1].role;
        }
      }
    }
  }
}

=== FILE: video_routes.dfy ===
/**
 * The public video routes: the filtered, paginated listing of published
 * videos; the single-video read with its view counter; the like toggle
 * with its per-video counter; comments with reply notifications; and the
 * recording of playback events with the watch-history upsert.
 */
module VideoRoutes {
  import opened Common
  import opened Strings
  import opened Catalog
  import Paging
  import Analytics

  // ---------------------------------------------------------------------------
  // GET / (listing)
  // ---------------------------------------------------------------------------

  /** The listing's query; an absent or empty parameter sets no condition. */
  datatype VideoQuery = VideoQuery(search: Option<string>, tags: Option<string>, collection: Option<string>)

  predicate Given(o: Option<string>)
  {
    o.Some? && o.value != ""
  }

  /** `search`: in the title or the description, ignoring case, or equal to one of the tags. */
  predicate SearchMatches(v: Video, search: string)
  {
    ContainsInsensitive(v.title, search) || ContainsInsensitive(v.description, search) || search in v.tags
  }

  /** `tags: { hasSome: tags.split(',') }`: the video carries at least one of the comma-separated tags. */
  predicate HasSomeTag(v: Video, tags: string)
  {
    exists t :: t in Split(tags, ',') && t in v.tags
  }

  /** The video is placed in the collection. */
  predicate InCollection(c: Catalogue, v: Video, collectionId: string)
  {
    exists p :: p in c.placements && p.collectionId == collectionId && p.videoId == v.id
  }

  /** The listing's `where`. */
  predicate Listable(c: Catalogue, v: Video, q: VideoQuery)
  {
    && v.isPublished
    && (Given(q.search) ==> SearchMatches(v, q.search.value))
    && (Given(q.tags) ==> HasSomeTag(v, q.tags.value))
    && (Given(q.collection) ==> InCollection(c, v, q.collection.value))
  }

  function FilterVideos(c: Catalogue, videos: seq<Video>, q: VideoQuery): (r: seq<Video>)
    ensures |r| <= |videos|
    ensures forall v :: v in r <==> v in videos && Listable(c, v, q)
    ensures IsSubsequence(r, videos)
  {
    if |videos| == 0 then []
    else
      var rest := FilterVideos(c, videos[1..], q);
      assert forall v :: v in videos <==> v == videos[0] || v in videos[1..];
      if Listable(c, videos[0], q) then [videos[0]] + rest else rest
  }

  /** Filtering a list with one more video filters the old list and then that video. */
  lemma {:induction false} FilterVideosAppend(c: Catalogue, videos: seq<Video>, v: Video, q: VideoQuery)
    ensures FilterVideos(c, videos + [v], q) == FilterVideos(c, videos, q) + (if Listable(c, v, q) then [v] else [])
  {
    if |videos| == 0 {
      assert [v][1..] == [];
    } else {
      assert (videos + [v])[1..] == videos[1..] + [v];
      FilterVideosAppend(c, videos[1..], v, q);
    }
  }

  datatype Pagination = Pagination(page: int, limit: int, total: nat, pages: Option<int>)

  /**
   * `GET /`: one page (`page` defaulting to 1, `limit` to 20) of the
   * listable videos, newest first, and the pagination over all of them.
   */
  function ListVideos(c: Catalogue, page: Option<int>, limit: Option<int>, q: VideoQuery)
    : (r: Result<(seq<Video>, Pagination)>)
    ensures r.Ok? <==> Paging.Servable(page.GetOr(Paging.DefaultPage), limit.GetOr(Paging.DefaultLimit))
    ensures r.Ok? ==>
              var p := page.GetOr(Paging.DefaultPage);
              var l := limit.GetOr(Paging.DefaultLimit);
              var matching := FilterVideos(c, c.videos, q);
              && r.value.0 == Paging.Window(Paging.NewestFirst(matching), p, l).value
              && r.value.1 == Pagination(p, l, |matching|, Paging.PageCount(|matching|, l))
    ensures r.Ok? ==> (forall v :: v in r.value.0 ==> v in c.videos && Listable(c, v, q))
                      && |r.value.0| <= limit.GetOr(Paging.DefaultLimit)
  {
    var p := page.GetOr(Paging.DefaultPage);
    var l := limit.GetOr(Paging.DefaultLimit);
    var matching := FilterVideos(c, c.videos, q);
    var w := Paging.Window(Paging.NewestFirst(matching), p, l);
    if w.Err? then Err(w.message)
    else
      assert forall v :: v in w.value ==> v in matching by {
        forall v | v in w.value ensures v in matching {
          var i :| 0 <= i < |w.value| && w.value[i] == v;
        }
      }
      Ok((w.value, Pagination(p, l, |matching|, Paging.PageCount(|matching|, l))))
  }

  /** A video just added, if the query lists it, opens the first page of the default listing. */
  lemma AddedVideoListedFirst(c: Catalogue, v: Video, collectionId: Option<string>, q: VideoQuery)
    requires Listable(AddVideo(c, v, collectionId), v, q)
    ensures var l := ListVideos(AddVideo(c, v, collectionId), None, None, q);
            l.Ok? && |l.value.0| > 0 && l.value.0[0] == v
  {
    var c2 := AddVideo(c, v, collectionId);
    FilterVideosAppend(c2, c.videos, v, q);
    Paging.NewestFirstOfCreated(FilterVideos(c2, c.videos, q), v);
    var rows := Paging.NewestFirst(FilterVideos(c2, c2.videos, q));
    assert rows[0] == v;
    assert Paging.Skip(Paging.DefaultPage, Paging.DefaultLimit) == 0;
  }

  /**
   * A `tags` query written as comma-joined tag names (each without a comma)
   * selects exactly the videos carrying one of those names.
   */
  lemma TagQueryIsAnyOf(v: Video, names: seq<string>)
    requires forall i :: 0 <= i < |names| ==> ',' !in names[i]
    requires |names| > 0
    ensures HasSomeTag(v, Join(names, ',')) <==> exists i :: 0 <= i < |names| && names[i] in v.tags
  {
    SplitJoin(names, ',');
    if HasSomeTag(v, Join(names, ',')) {
      var t :| t in names && t in v.tags;
      var i :| 0 <= i < |names| && names[i] == t;
    }
  }

  // ---------------------------------------------------------------------------
  // GET /:id
  // ---------------------------------------------------------------------------

  datatype VideoReply = VideoFound(video: Video, views: nat) | VideoNotFound | VideoFailed

  /** The video with the given id. */
  function FindVideo(videos: seq<Video>, id: string): (r: Option<nat>)
    ensures r.Some? ==> r.value < |videos| && videos[r.value].id == id
    ensures r.None? ==> forall j :: 0 <= j < |videos| ==> videos[j].id != id
  {
    FindFirst(videos, (v: Video) => v.id, id)
  }

  /**
   * `GET /:id` as written: the view counter is incremented before the video
   * is looked up, and incrementing a missing record fails, so an unknown id
   * ends in the 500 branch.
   */
  function GetVideoAsWritten(videos: seq<Video>, views: map<string, nat>, id: string): (r: (map<string, nat>, VideoReply))
    ensures id !in views ==> r == (views, VideoFailed)
    ensures id in views ==> r.0 == views[id := views[id] + 1]
  {
    if id !in views then (views, VideoFailed)
    else
      var views' := views[id := views[id] + 1];
      match FindVideo(videos, id)
      case None => (views', VideoNotFound)
      case Some(i) => (views', VideoFound(videos[i], views'[id]))
  }

  /** With every video carrying a counter, an unknown id is answered with a 500, never the 404. */
  lemma UnknownVideoIsServerError(videos: seq<Video>, views: map<string, nat>, id: string)
    requires forall j :: 0 <= j < |videos| ==> videos[j].id in views
    requires views.Keys == set j | 0 <= j < |videos| :: videos[j].id
    requires FindVideo(videos, id).None?
    ensures GetVideoAsWritten(videos, views, id).1 == VideoFailed
  {
  }

  /**
   * `GET /:id` as its 404 branch intends: an unknown id is a 404 and counts
   * no view; a known one counts exactly one view and is returned.
   */
  function GetVideo(videos: seq<Video>, views: map<string, nat>, id: string): (r: (map<string, nat>, VideoReply))
    ensures r.1.VideoNotFound? <==> FindVideo(videos, id).None?
    ensures r.1.VideoNotFound? ==> r.0 == views
    ensures r.1.VideoFound? ==> r.1.video.id == id && r.1.video in videos
                                && r.0 == views[id := (if id in views then views[id] else 0) + 1]
                                && r.1.views == r.0[id]
  {
    match FindVideo(videos, id)
    case None => (views, VideoNotFound)
    case Some(i) =>
      var views' := views[id := (if id in views then views[id] else 0) + 1];
      (views', VideoFound(videos[i], views'[id]))
  }

  // ---------------------------------------------------------------------------
  // POST /:id/like
  // ---------------------------------------------------------------------------

  /** The like rows, as (user id, video id) pairs, and each video's `likesCount`. */
  datatype LikeState = LikeState(likes: set<(string, string)>, likesCount: map<string, int>)

  /**
   * `POST /:id/like`: an existing like is removed and the counter
   * decremented (`liked: false`); otherwise a like is added and the counter
   * incremented (`liked: true`). A like of a video without a row fails and
   * changes nothing.
   */
  function ToggleLike(s: LikeState, userId: string, videoId: string): (r: Result<(LikeState, bool)>)
    ensures r.Ok? <==> videoId in s.likesCount
    ensures r.Ok? ==>
              var (s', liked) := r.value;
              && (liked <==> (userId, videoId) !in s.likes)
              && s'.likes == (if liked then s.likes + {(userId, videoId)} else s.likes - {(userId, videoId)})
              && s'.likesCount == s.likesCount[videoId := s.likesCount[videoId] + (if liked then 1 else -1)]
              && ((userId, videoId) in s'.likes <==> liked)
  {
    if videoId !in s.likesCount then Err("Failed to toggle like")
    else if (userId, videoId) in s.likes then
      Ok((LikeState(s.likes - {(userId, videoId)}, s.likesCount[videoId := s.likesCount[videoId] - 1]), false))
    else
      Ok((LikeState(s.likes + {(userId, videoId)}, s.likesCount[videoId := s.likesCount[videoId] + 1]), true))
  }

  /** Toggling twice restores both the like rows and the counters, and answers both ways once. */
  lemma ToggleLikeInvolution(s: LikeState, userId: string, videoId: string)
    requires videoId in s.likesCount
    ensures var once := ToggleLike(s, userId, videoId).value;
            var twice := ToggleLike(once.0, userId, videoId).value;
            twice.0 == s && once.1 != twice.1
  {
    var once := ToggleLike(s, userId, videoId).value;
    var twice := ToggleLike(once.0, userId, videoId).value;
    assert twice.0.likes == s.likes;
    assert twice.0.likesCount == s.likesCount;
  }

  /** The like rows of one video. */
  function LikesOf(likes: set<(string, string)>, videoId: string): set<(string, string)>
  {
    set p | p in likes && p.1 == videoId
  }

  /** How far a video's counter is from its number of like rows. */
  function Drift(s: LikeState, videoId: string): int
    requires videoId in s.likesCount
  {
    s.likesCount[videoId] - |LikesOf(s.likes, videoId)|
  }

  /** A toggle keeps every video's counter exactly as far from its number of like rows as before. */
  lemma ToggleLikeKeepsDrift(s: LikeState, userId: string, videoId: string, other: string)
    requires videoId in s.likesCount && other in s.likesCount
    ensures Drift(ToggleLike(s, userId, videoId).value.0, other) == Drift(s, other)
  {
    var p := (userId, videoId);
    var s' := ToggleLike(s, userId, videoId).value.0;
    if p in s.likes {
      LikesOfRemove(s.likes, p, other);
    } else {
      LikesOfAdd(s.likes, p, other);
    }
  }

  lemma LikesOfAdd(likes: set<(string, string)>, p: (string, string), videoId: string)
    requires p !in likes
    ensures p.1 == videoId ==> LikesOf(likes + {p}, videoId) == LikesOf(likes, videoId) + {p}
                               && |LikesOf(likes + {p}, videoId)| == |LikesOf(likes, videoId)| + 1
    ensures p.1 != videoId ==> LikesOf(likes + {p}, videoId) == LikesOf(likes, videoId)
  {
    assert p !in LikesOf(likes, videoId);
  }

  lemma LikesOfRemove(likes: set<(string, string)>, p: (string, string), videoId: string)
    requires p in likes
    ensures p.1 == videoId ==> LikesOf(likes - {p}, videoId) == LikesOf(likes, videoId) - {p}
                               && |LikesOf(likes - {p}, videoId)| == |LikesOf(likes, videoId)| - 1
    ensures p.1 != videoId ==> LikesOf(likes - {p}, videoId) == LikesOf(likes, videoId)
  {
    if p.1 == videoId {
      assert p in LikesOf(likes, videoId);
    }
  }

  // ---------------------------------------------------------------------------
  // POST /:id/comments
  // ---------------------------------------------------------------------------

  datatype Comment = Comment(id: string, body: string, videoId: string, userId: string, parentCommentId: Option<string>)

  /** A `REPLY` notification addressed to `userId`. */
  datatype Notification = Notification(userId: string, commentId: string, videoId: string, videoTitle: string, repliedBy: string)

  /** The first comment with the given id. */
  function FindComment(comments: seq<Comment>, id: string): (r: Option<nat>)
    ensures r.Some? ==> r.value < |comments| && comments[r.value].id == id
    ensures r.None? ==> forall j :: 0 <= j < |comments| ==> comments[j].id != id
  {
    FindFirst(comments, (c: Comment) => c.id, id)
  }

  datatype CommentReply = CommentReply(status: nat, comment: Option<Comment>)

  /**
   * `POST /:id/comments` by the user `userId` (display name `displayName`):
   * 400 and no write without a body. A parent id that names no comment is
   * refused by the self-relation's foreign key, so the insert throws and the
   * answer is 500 with nothing written. Otherwise the comment is created,
   * its parent id being null when none is given, and a notification goes to
   * the parent's author exactly when that is someone else. `notifyFails`
   * says whether that notification insert throws: the comment is already
   * written, so it stays, and the answer is 500.
   */
  function AddComment(comments: seq<Comment>, notes: seq<Notification>, videoId: string, userId: string,
                      displayName: string, body: Option<string>, parentId: Option<string>, newId: string,
                      notifyFails: bool)
    : (r: (seq<Comment>, seq<Notification>, CommentReply))
    ensures !Given(body) ==> r == (comments, notes, CommentReply(400, None))
    ensures Given(body) && Given(parentId) && FindComment(comments, parentId.value).None? ==>
              r == (comments, notes, CommentReply(500, None))
    ensures Given(body) && (Given(parentId) ==> FindComment(comments, parentId.value).Some?) ==>
              var c := Comment(newId, body.value, videoId, userId, if Given(parentId) then parentId else None);
              && r.0 == comments + [c]
              && var parent := if Given(parentId) then FindComment(comments, parentId.value) else None;
              && var notify := parent.Some? && comments[parent.value].userId != userId;
              && r.2 == (if notify && notifyFails then CommentReply(500, None) else CommentReply(201, Some(c)))
              && (r.1 != notes <==> notify && !notifyFails)
              && (r.1 != notes ==>
                    r.1 == notes + [Notification(comments[parent.value].userId, newId, videoId, "Video", displayName)])
  {
    if !Given(body) then (comments, notes, CommentReply(400, None))
    else
      var parent := if Given(parentId) then FindComment(comments, parentId.value) else None;
      if Given(parentId) && parent.None? then (comments, notes, CommentReply(500, None))
      else
        var c := Comment(newId, body.value, videoId, userId, if Given(parentId) then parentId else None);
        if parent.Some? && comments[parent.value].userId != userId then
          if notifyFails then (comments + [c], notes, CommentReply(500, None))
          else
            (comments + [c], notes + [Notification(comments[parent.value].userId, newId, videoId, "Video", displayName)],
             CommentReply(201, Some(c)))
        else (comments + [c], notes, CommentReply(201, Some(c)))
  }

  /** A reply to another user's comment whose notification fails still leaves the comment written. */
  lemma FailedNotificationKeepsComment(comments: seq<Comment>, notes: seq<Notification>, videoId: string, userId: string,
                                       displayName: string, body: string, parentId: string, newId: string, k: nat)
    requires body != "" && parentId != "" && k < |comments|
    requires comments[k].id == parentId && comments[k].userId != userId
    requires forall j :: 0 <= j < k ==> comments[j].id != parentId
    ensures var r := AddComment(comments, notes, videoId, userId, displayName, Some(body), Some(parentId), newId, true);
            r.2.status == 500 && r.1 == notes && |r.0| == |comments| + 1 && r.0[|comments|].id == newId
  {
    assert FindComment(comments, parentId) == Some(k);
  }

  /** A reply naming no stored comment writes nothing, whatever the rest of the request. */
  lemma UnknownParentWritesNothing(comments: seq<Comment>, notes: seq<Notification>, videoId: string, userId: string,
                                   displayName: string, body: Option<string>, parentId: string, newId: string,
                                   notifyFails: bool)
    requires parentId != ""
    requires forall j :: 0 <= j < |comments| ==> comments[j].id != parentId
    ensures var r := AddComment(comments, notes, videoId, userId, displayName, body, Some(parentId), newId, notifyFails);
            r.0 == comments && r.1 == notes && r.2.status in {400, 500}
  {
    assert FindComment(comments, parentId).None?;
  }

  /** Replying to one's own comment notifies no one; a top-level comment never notifies. */
  lemma NoNotificationForSelfOrTopLevel(comments: seq<Comment>, notes: seq<Notification>, videoId: string, userId: string,
                                         displayName: string, body: string, parentId: Option<string>, newId: string,
                                         notifyFails: bool)
    requires body != ""
    requires !Given(parentId) || forall j :: 0 <= j < |comments| && comments[j].id == parentId.value ==> comments[j].userId == userId
    ensures AddComment(comments, notes, videoId, userId, displayName, Some(body), parentId, newId, notifyFails).1 == notes
    ensures AddComment(comments, notes, videoId, userId, displayName, Some(body), parentId, newId, notifyFails).2.status
            == (if Given(parentId) && FindComment(comments, parentId.value).None? then 500 else 201)
  {
  }

  // ---------------------------------------------------------------------------
  // POST /:id/events
  // ---------------------------------------------------------------------------

  /** The watch history: the last position per (user id, video id). */
  type History = map<(string, string), int>

  /** The events after which the watch history is written. */
  predicate UpdatesHistory(t: Analytics.EventType)
  {
    t == Analytics.TIMEUPDATE || t == Analytics.PAUSE
  }

  /**
   * `POST /:id/events`: the event is appended to the log; a TIMEUPDATE or
   * PAUSE event also sets the user's last position in the video, creating
   * the entry when there is none. Other events leave the history alone.
   */
  function RecordEvent(events: seq<Analytics.VideoEvent>, history: History, userId: string, videoId: string,
                       eventType: Analytics.EventType, position: int)
    : (r: (seq<Analytics.VideoEvent>, History))
    ensures r.0 == events + [Analytics.VideoEvent(videoId, eventType, position)]
    ensures UpdatesHistory(eventType) ==> (userId, videoId) in r.1 && r.1[(userId, videoId)] == position
    ensures r.1.Keys == history.Keys + (if UpdatesHistory(eventType) then {(userId, videoId)} else {})
    ensures forall k :: k in history && k != (userId, videoId) ==> r.1[k] == history[k]
    ensures !UpdatesHistory(eventType) ==> r.1 == history
  {
    var e := Analytics.VideoEvent(videoId, eventType, position);
    if UpdatesHistory(eventType) then (events + [e], history[(userId, videoId) := position])
    else (events + [e], history)
  }

  /**
   * A recorded PLAY, SEEK or TIMEUPDATE event adds one hit to the heatmap
   * bucket of its position; a recorded PAUSE adds none.
   */
  lemma RecordedEventReachesHeatmap(events: seq<Analytics.VideoEvent>, history: History, userId: string, videoId: string,
                                    eventType: Analytics.EventType, position: int)
    ensures var e := Analytics.VideoEvent(videoId, eventType, position);
            var log := RecordEvent(events, history, userId, videoId, eventType, position).0;
            && (Analytics.Counted(e, videoId) ==>
                  Analytics.Hits(log, videoId, position / Analytics.BucketSize) == Analytics.Hits(events, videoId, position / Analytics.BucketSize) + 1)
            && (eventType == Analytics.PAUSE ==>
                  forall i :: Analytics.Hits(log, videoId, i) == Analytics.Hits(events, videoId, i))
  {
    var e := Analytics.VideoEvent(videoId, eventType, position);
    var log := events + [e];
    assert log[..|log| - 1] == events;
  }
}
